=== FILE: README.md ===
# Rise of Superseed — a Dafny model of the battle core

Rise of Superseed is a side-scrolling lane battle. The player spends seeds to
field Peasants, Archers, Warriors and Tanks from the left. Waves of Bandits,
Zombies or Undead come in from the right. Each side tries to bring down the
other's base. Level 5 ends with the Bandit King walking on and surrendering.
Between battles, a menu sells persistent upgrades and tracks twenty
achievements.

This project models the game's rules as pure functions over immutable
records:

- the unit state machine (idle, run, attack, hurt, die) with its timers and
  strike frame;
- the collision and targeting searches over spatial buckets;
- arrows and magic balls;
- spawning with faction multipliers and bought upgrades;
- rewards, reaping and seed drops;
- the end-of-tick outcome;
- the cut-scene flags of the event handler and the scripted retreat and king
  walk;
- the achievement tracker;
- the menu's purchase and level-paging rules.

The clock (`pygame.time.get_ticks`) is an explicit `now` parameter. Each
random draw (`random.choice`, `random.randint`, `random.uniform`) is an
explicit argument of a bounded type.

Modules follow the source files:

- `Geometry` (pygame rectangles);
- `Factions`;
- `Archetypes` (the unit classes' attributes);
- `Buildings`;
- `Units`;
- `Spatial` (`get_buckets`, `find_nearest_target`);
- `Collisions`;
- `Projectiles`;
- `Levels`;
- `Upgrades` (the persistent tables);
- `Achievements`;
- `Cutscenes` (`eventhandler.py`);
- `Game` (`game_logic.py`);
- `Menu`.

The support modules are `Basics` (an `Option`, min/max helpers) and `Text`
(ASCII `lower` and `capitalize`).

## Model

| member | source | states |
|---|---|---|
| Geometry.GroundCollideIsXOverlap | collisions.py:63-78 | for two hit boxes standing on the ground line, `colliderect` holds exactly when their x-intervals overlap strictly |
| Geometry.FloorDivMonotone | collisions.py:18-21 | Python's `int(x // size)` is monotone in x, so the bucket range from `x - range` to `x + range` is contiguous |
| Factions.Modifiers | factions.py:1-22 | every multiplier lies in (0, 1]; exactly the Player and Undead factions leave stats unchanged; only the player's faction is named "player" |
| Factions.Direction | units.py:33 | a unit faces right (+1) exactly when it belongs to the player; every other faction walks left |
| Archetypes.StatsOf | units.py:232-685 | every class has positive health, attack and speed, a cooldown between 500 and 1500 ms and a range between 125 and 250 px |
| Archetypes.WeaponOf | units.py:257-297 | exactly the three archer classes shoot arrows and exactly the Undead Mage casts magic balls; every other class strikes in melee |
| Archetypes.RangedIffLongRange | units.py:232-685 | a class fights from a distance if and only if its attack range is at least 200 |
| Archetypes.BoxesStandOnGround | units.py:108-109 | every class's hit box, the king's taller one included, has its bottom on the ground line y = 880 |
| Buildings.NewBase | buildings.py:7-14 | a new base starts at full health, with max health equal to health, and not destroyed |
| Buildings.TakeDamage | buildings.py:42-46 | health drops by the hit and is clamped at 0; the base is destroyed from the first hit that empties it on; no other field changes |
| Buildings.DamageAccumulates | buildings.py:42-46 | two non-negative hits leave the base exactly as one hit of their sum does |
| Buildings.DestroyedBaseStaysDown | buildings.py:42-46 | a destroyed base at 0 health is left unchanged by any further hit |
| Buildings.BaseStandsOnGround | buildings.py:39-40 | the base hit box (25 px in, 100 wide, 300 high, at y 580) stands on the ground line |
| Units.NewUnit | units.py:22-45 | a new unit is idle at frame 0 with full class health; its attack frame delay is a fourteenth of its cooldown; it faces right exactly for the player |
| Units.TakeDamage | units.py:188-204 | a dying unit ignores hits; otherwise health drops and is clamped at 0; the unit dies exactly when the hit empties it, and dying clears its attack and target; a non-attacking survivor turns hurt with its hurt clock set to now; an attacking survivor only loses health; position, speed and identity never change |
| Units.DamageKeepsHealthInBounds | units.py:188-204 | a non-negative hit keeps health within 0 and the health before the hit |
| Units.DyingUnitIgnoresHits | units.py:188-204 | after a killing hit the unit has 0 health and every later hit leaves it unchanged |
| Units.InAttackRange | units.py:166-173 | the check answers yes exactly when 200 ms have passed since the last check and the x distance is within range; a check that is made restarts the clock and changes nothing else |
| Units.SecondRangeCheckFails | units.py:166-173 | a second range check in the same tick fails, whatever it asks about |
| Units.StartAttack | units.py:175-184 | a dying unit, or one whose cooldown is not over, is unchanged; otherwise it enters attack at frame 0 on the given target with its attack clock at now; no other field changes |
| Units.UpdateAnimation | units.py:111-149 | nothing happens before the frame delay; death frames run forward one at a time and stop at the last; an attack steps one frame forward until its last frame; idle and run loop; hurt holds frame 0 and ends after 200 ms; only an attack at frame 7 on a live target strikes (melee) or fires (ranged, a magic ball for the mage); an attack past its last frame returns to idle with no target; only animation fields change and a well-formed unit stays well-formed |
| Units.Step | units.py:123-149 | one frame step of a state with frames: death runs forward to its last frame, hurt holds frame 0 for 200 ms, other states loop, and an attack strikes or fires only at frame 7 on a live target and otherwise advances or ends |
| Units.AdvanceAttack | units.py:125-135 | an attack step fires exactly for a ranged unit and strikes exactly for a melee unit at frame 7 on a live target, steps one frame forward before its last frame or on firing, and otherwise returns to idle with no target |
| Units.PlaceholderAttackIsHarmless | units.py:90-101 | a unit whose attack animation has a single placeholder frame never reaches frame 7: the attack ends in idle without effect |
| Units.CartUpdate | units.py:702-704 | a moving cart right of its target advances by its speed, and only its position changes; with the leftward speed it never moves right and never ends more than one step past its target; a stopped cart, or one at or past its target, stays where it is |
| Units.CartStopsNearTarget | units.py:687-704 | a cart built with speed -1.5 never moves right and never ends more than one step past its target |
| Units.CartSettles | units.py:687-704 | over any number of ticks a cart built with speed -1.5 keeps its target and speed, never ends right of where it started, never passes its target by more than one step, and each further tick moves it left or not at all |
| Spatial.BucketOf | game_logic.py:290-291 | the bucket key is clamped to 0..4: left of the lane it is 0, from 2000 px on it is 4, and on the lane it is the 400 px column that contains x |
| Spatial.GetBuckets | game_logic.py:287-293 | every key present is in 0..4 and holds at least one unit |
| Spatial.GetBucketsIsFilter | game_logic.py:287-293 | each bucket is exactly the live on-screen units of that column, in list order |
| Spatial.InBucketMembers | game_logic.py:287-293 | a unit is in a column's reference list if and only if it is in the army, indexed and in that column |
| Spatial.IndexedInExactlyOneBucket | game_logic.py:287-293 | a unit of the army appears in bucket b if and only if it is indexed and b is its own column |
| Spatial.ScanNearest | game_logic.py:302-309 | the running minimum never grows and is no larger than any eligible candidate scanned; a replacement is an eligible candidate at strictly smaller distance |
| Spatial.FindNearestTarget | game_logic.py:295-314 | a unit returned is eligible, strictly within range and nearest among the three buckets' eligible units, and the base is not strictly closer than it; the base is returned only if it is alive, not a tower and strictly closer than every eligible unit; None means nothing eligible is in range and the base is not targetable |
| Spatial.NearestUnitIsIndexed | game_logic.py:295-314 | a unit the search returns is a live, on-screen member of the army |
| Collisions.BucketCandidates | collisions.py:28-32 | the candidates of one bucket are exactly its opposing live units within range, with their distances |
| Collisions.RangeCandidates | collisions.py:26-32 | every opposing live unit within range in the buckets lo..hi is collected, and nothing else |
| Collisions.Candidates | collisions.py:16-37 | every entry is an opposing live unit or the given base within range; the base, if within range, comes last; every in-range opponent of the covering buckets is present |
| Collisions.Insert | collisions.py:40 | insertion adds exactly the new entry and keeps a list sorted by distance sorted |
| Collisions.SortByDist | collisions.py:40 | the sort is a permutation of its input and is ordered by distance |
| Collisions.SortHeadIsFirstMinimum | collisions.py:40 | the sort is stable: its head is the first entry of minimal distance |
| Collisions.Closest | collisions.py:39-42 | no candidates gives None; otherwise the body returned belongs to a candidate whose distance is no larger than any other's |
| Collisions.FindClosestTarget | collisions.py:3-42 | a returned target is an opposing unit or the base within range and at minimal distance among the candidates; None means the base and every opposing unit of the covering buckets are out of range |
| Collisions.ClosestIsFirstMinimum | collisions.py:39-41 | the target picked is the first candidate of minimal distance: on ties the one collected first wins, so a unit beats the base, which is collected last |
| Collisions.ScanContacts | collisions.py:71-85 | the enemy found is the first opposing unit the probe touches (none means every touched unit is an ally); the blocker is an ally ahead that the probe touches, and one is found whenever any exists |
| Collisions.Resolve | collisions.py:44-198 | given what the target search and the contact probe found, for either side: a target means hold and attack it; a touched enemy means stop a body length short and attack only in range; a standing ally ahead means close up (player) or stay put (enemy); a moving ally means follow at no more than its speed; the touched base means hold, attacking it only in range and otherwise idling (or staying hurt); attack is reported exactly with a target and a hurt unit keeps reporting hurt |
| Collisions.CheckCollisions | collisions.py:44-198 | a target in range means hold and attack it; an enemy touched means stop a body length short and attack only if in range; a standing ally ahead means close up behind it (player) or stay put (enemy); a moving ally ahead means follow without passing it, at no more than its speed; the base touched means hold and attack only if in range, otherwise idle (or stay hurt); otherwise advance by speed; a hurt unit keeps reporting hurt, attack is reported exactly with a target, and only speed (never raised) and the range clock change |
| Collisions.Move | units.py:151-164 | attacking and dying units do not move; others take the position collision checking gives; asked to attack with the cooldown over, the unit starts the attack on the body it was given, and while cooling down it keeps its state and target; otherwise it takes the state it was given and keeps its target; health and identity never change |
| Collisions.AttackOnCooldownKeepsState | units.py:151-164 | a unit told to attack while on cooldown still moves to the position it is given but keeps its state |
| Projectiles.TravelTime | units.py:731 | flight time lies in 15..65 ticks and is a tenth of the horizontal distance, plus the jitter, on the unclamped stretch |
| Projectiles.LaunchArrow | units.py:710-733 | a new arrow is active at the shooter's point with its target, damage and direction; with no horizontal distance it flies at 3 px per tick in its direction |
| Projectiles.FlyNClosedForm | units.py:753-755 | n ticks of free flight move x uniformly and y with constant gravity 0.2 |
| Projectiles.ArrowLandsOnAim | units.py:728-733 | an arrow launched at a horizontal distance reaches its aim point exactly when its flight time ends |
| Projectiles.LaunchMagic | units.py:794-822 | a magic ball moves at speed 5 along the direction of its aim; a ball aimed at its own point starts inactive and still |
| Projectiles.Launch | units.py:273-279 | the mage's shot becomes a magic ball and every other shot an arrow, carrying its target and damage |
| Projectiles.ArrowUpdate | units.py:744-775 | an inactive arrow is removed; one whose target is gone or dead is deactivated; one that flies past 1000 px is removed without a hit; within range the arrow stops exactly when its box overlaps the target's and, on a unit, the pixel masks overlap, and then it delivers its damage; a hit is never delivered without that overlap; removal happens exactly when the arrow is inactive |
| Projectiles.ArrowCollisionAlwaysHits | units.py:765-774 | once an arrow has passed the target check, a box and mask collision always deals its damage, because the second liveness test cannot fail |
| Projectiles.MagicUpdate | units.py:834-858 | a ball moves by its velocity; one that has travelled more than 1000 px, or whose target is gone or dead, is removed without a hit; within range and with a live target, the ball hits exactly when its box overlaps the target's, and it is removed exactly when it hits |
| Projectiles.Update | units.py:744-858 | whichever projectile it is, an inactive one is removed and a hit removes it, carrying the projectile's own target and damage |
| Projectiles.InactiveNeverHits | units.py:745-746 | an inactive projectile delivers no damage however long it is kept |
| Projectiles.AtMostOneHit | units.py:744-858 | over any sequence of ticks a projectile deals its damage at most once |
| Levels.DefineLevel | levels.py:13-21 | levels 1-20 exist and no others; 1-5 are Bandits, 6-10 Zombies, 11-20 Undead; the pool is exactly that faction's classes other than the Bandit King, without repeats |
| Levels.NextEnemyUnit | levels.py:23-24 | the draw is None exactly for an empty pool and otherwise a member of the pool |
| Levels.EveryPoolMemberDrawable | levels.py:23-24 | every class in the pool is returned by some draw |
| Levels.ValidLevelsSpawnEnemies | levels.py:13-24 | a valid level always draws an enemy of its own faction, never a player class |
| Upgrades.MergeDefaults | menu.py:86-92 | an empty or missing store gives the defaults; stored entries are kept as stored; every default class and stat is present, filled in from the defaults where missing; nothing else appears |
| Upgrades.DefaultsUseStatNames | menu.py:60-85 | every default class offers exactly the four stats Health, Damage, Attack Speed and Movement Speed |
| Upgrades.DefaultsAreSane | menu.py:60-85 | the default table has every level at 0, non-negative increases and non-negative prices |
| Upgrades.Bonus | game_logic.py:190-195 | on any table whose levels, increases and prices are non-negative, at any level and with no cap, the bonus a spawn receives for a stat is non-negative, and zero when the class or stat has no entry |
| Upgrades.BumpLevel | menu.py:263 | buying raises exactly the chosen entry's level by one and leaves every other class and stat unchanged |
| Upgrades.BumpKeepsNonNegative | game_logic.py:258-259 | raising a level by one, with no cap, keeps every level, increase and price of the table non-negative |
| Upgrades.BumpKeepsSane | menu.py:261-263 | a purchase below the level cap keeps every level within 0..20 |
| Text.Capitalize | game_logic.py:253 | `capitalize` upper-cases the first character and lower-cases every other one |
| Text.CapitalizeTailHasNoCapitals | game_logic.py:253 | a capitalized string has no upper-case letter after its first character |
| Achievements.Init | achievements.py:5-53 | a new tracker is valid, has exactly the saved names unlocked, and starts with an empty pop-up queue, the kill, win, spawn and seed counters at 0, the game and pop-up clocks at 0 and no base damage |
| Achievements.Unlock | achievements.py:63-68 | an unlocked achievement changes nothing; a new one is unlocked, queued once, and starts the pop-up clock if the queue was empty; counters never change |
| Achievements.UnlockNamed | achievements.py:63-64 | an unknown key changes nothing; a known key unlocks its achievement |
| Achievements.NamedTitle | achievements.py:6-27 | every achievement is found under its own key, and keys are distinct |
| Achievements.UnlockIdempotent | achievements.py:63-68 | unlocking twice is the same as unlocking once |
| Achievements.Check | achievements.py:71-119 | an achievement is unlocked afterwards exactly when it was before or the event earns it; each event moves exactly its own counters; "game_started" resets the per-game counters and the base-damage flag |
| Achievements.AwardsAreEarned | achievements.py:71-119 | the branch-by-branch unlock calls award exactly what the independent statement of the rules says each event earns |
| Achievements.Update | achievements.py:121-123 | "Survive 5 Minutes" unlocks exactly once five minutes of the current game have passed |
| Achievements.AdvancePopup | achievements.py:125-131 | the queue loses its head exactly when a pop-up has been up for more than 3 s; the next pop-up's clock starts then; nothing else changes |
| Achievements.NextPopupGetsFullDuration | achievements.py:125-131 | a queued pop-up is shown for more than 3 s before it is dismissed in turn |
| Achievements.QueueBounded | achievements.py:63-68 | the pop-up queue never holds more than the twenty achievements |
| Achievements.LowerCaseUpgradeUnlocksNothing | achievements.py:110-117 | an all-lower-case upgrade name, as the unit menu and the battle report it, unlocks nothing |
| Achievements.NeverAwarded | achievements.py:71-123 | "Unlock Archer", "Secure 1000 Seeds", "Unlock All Units" and "Max Upgrade a Unit" are never unlocked by any event or by the timer |
| Achievements.CleanWinNeedsNoBaseDamage | achievements.py:81-82 | after a game start, a level completion earns "Win Without Losing Health" exactly when no base damage was reported since |
| Achievements.Replay | achievements.py:71-119 | a run of events keeps the tracker valid and never re-locks an achievement |
| Achievements.BaseHealthLostIffDamaged | achievements.py:118-119 | with no game start in between, the base-damage flag is set exactly when it was set before or some event reported base damage |
| Cutscenes.Dismiss | eventhandler.py:19-36 | an "Okay" click closes the first open dialog in the order intro, end story, bandit intro, king threat, second surrender speech, so while paused each click removes exactly one pending click; it completes the level exactly when it closes the end story; closing the second speech opens the end story; the retreat, king-walk, spawn and surrender flags are never touched; with no dialog open nothing changes |
| Cutscenes.Top | eventhandler.py:19-36 | the dialog an "Okay" click answers is the first open one in the order intro, end story, bandit intro, king threat, second speech, and there is none exactly when the battle is not paused |
| Cutscenes.Close | eventhandler.py:19-36 | closing an open dialog removes exactly one pending click and touches none of the retreat, king-walk, spawn and surrender flags |
| Cutscenes.DismissMakesProgress | game_logic.py:316-318 | the battle is paused exactly when clicks are pending, and each click while paused removes exactly one pending click |
| Cutscenes.PendingClicksResume | eventhandler.py:19-36 | exactly the pending number of clicks un-pauses the battle |
| Cutscenes.FirstRazor | eventhandler.py:40 | the Razor found is a Bandit Razor of the enemy list, and none is found exactly when the list has none |
| Cutscenes.SurrenderCheck | eventhandler.py:38-46 | when the surrender speech is up, a cart exists and the first Razor is within 180 px of the king, the cart stops and the speech gives way to its second part, which pauses the battle; a cart is never created, removed, moved or restarted; otherwise nothing changes |
| Cutscenes.SurrenderHappensOnce | eventhandler.py:38-46 | checking the surrender again right after it happened changes nothing |
| Cutscenes.RanksArePositions | eventhandler.py:55 | the positions in the stable descending sort by x are distinct and below the number of units |
| Cutscenes.Slot | eventhandler.py:61 | the retreat slots are 768, 648, 528, … and never behind 100 |
| Cutscenes.RetreatStep | eventhandler.py:56-70 | a dying unit is untouched; a unit right of its slot steps 3 px left at speed 1.5 and runs; otherwise it snaps to its slot, idles and stops retreating; identity and health never change |
| Cutscenes.RetreatAll | eventhandler.py:55-70 | each unit takes its retreat step with its own position in the sorted order |
| Cutscenes.UnitsMovingBack | eventhandler.py:48-74 | with the flag down nothing changes; otherwise every unit takes its step and the flag stays up exactly when some unit still moved |
| Cutscenes.RetreatStaysOnField | eventhandler.py:61-67 | a live unit that starts the step at or right of 100 ends it at 97 or further right |
| Cutscenes.RetreatLeavesRetreatSpeed | eventhandler.py:59-70 | a unit that reaches its slot is left at speed 1.5, because its "original" speed was read after the previous step overwrote it |
| Cutscenes.KingStep | eventhandler.py:76-90 | the king walks left by his speed while right of 1152; otherwise he snaps to 1152, idles, stops and the threat dialog opens; his speed never changes |
| Cutscenes.KingArrives | eventhandler.py:76-90 | a king walking at positive speed arrives at 1152 with the threat shown within n calls once n - 1 strides cover the distance |
| Cutscenes.StoppedStaysStopped | eventhandler.py:77 | once the king has stopped, further calls change nothing |
| Game.NewSeedDrop | game_logic.py:12-18 | a drop lands within 20 px of the kill on the ground line, fully opaque, stamped with its creation time |
| Game.SeedUpdate | game_logic.py:27-31 | only the transparency changes: untouched for 4 s, strictly between transparent and opaque while it fades, fully transparent once expired |
| Game.FadeIsMonotone | game_logic.py:27-31 | once a drop has started fading, later updates never make it more opaque |
| Game.DropsStep | game_logic.py:440-442 | the drops kept are exactly the unexpired ones, each updated once, and none left is expired |
| Game.Place | game_logic.py:178-182 | the spawn point moves by one unit width per live unit it meets, never more than there are live units, and stays put when nothing is near |
| Game.OffsetIsProduct | game_logic.py:182 | n shifts of one unit width move the spawn point by n widths |
| Game.PlacementSides | game_logic.py:178-182 | the player's spawn point only moves back from 100 and the enemy's only moves out from 1820 |
| Game.SinglePassCanLandOnAUnit | game_logic.py:180-182 | the single pass can place a new unit on top of one it already passed (units at -20 and 100 give a spawn at -20) |
| Game.Cooldown | game_logic.py:200-202 | an upgraded cooldown stays between the 200 ms floor and the class cooldown |
| Game.CooldownShrinksWithLevel | game_logic.py:201 | more attack-speed levels never lengthen the cooldown |
| Game.Upgraded | game_logic.py:184-203 | a spawned unit's health, attack and speed are the class values times the faction multiplier plus the bought bonus, at full health; its cooldown is the class cooldown divided by one plus the bought attack-speed level times its increase (the default 0.075 when the class has no attack-speed entry), floored at 200 ms, so it lies between the floor and the class value, and its frame delay is a fourteenth of it; nothing else changes |
| Game.Enlist | game_logic.py:184-203 | a player unit enters at the given point with its class health, attack and speed plus the bought bonuses (the player's multipliers are 1), and with the class cooldown shortened by the bought attack-speed level as in `Game.Upgraded` |
| Game.NoEntryNoSpeedUp | game_logic.py:193-194 | the default attack-speed factor only applies when no level was bought, so it never speeds a unit up |
| Game.SpawnUnit | game_logic.py:175-208 | on tables of any level, the spawn is refused exactly when seeds fall short of the price, and then nothing changes; otherwise the price is paid and the upgraded unit is appended at the placed point, at or behind 100 |
| Game.SpawnEvent | game_logic.py:206 | the spawn reports a "unit_spawned" event with the class name |
| Game.TankSpawnEarnsTankAchievement | game_logic.py:206 | a spawn earns "Spawn a Tank" if and only if a Tank was spawned |
| Game.SpawnEnemyUnit | game_logic.py:210-229 | with spawns stopped or an empty pool the list is unchanged; otherwise exactly one enemy of a pool class is appended at or beyond 1820, with the faction's multipliers |
| Game.SpawnBanditKing | game_logic.py:231-239 | the king is appended at 1670 at full class health, and the intro, retreat, king-walk and spawn-stop flags are raised with surrender cleared |
| Game.SpawnCartAndRazor | game_logic.py:241-249 | a Razor is appended at 1820 with speed 1.5, and the cart is a new cart at 2000 rolling left at 1.5 towards 50 px short of the king |
| Game.EscortCartStopsNearKing | game_logic.py:241-249 | for a king left of 2000, the escort's cart over any number of ticks never moves right, never leaves 2000, and stops no more than one 1.5 px step past 50 px short of the king |
| Game.BanditKingEntrance | game_logic.py:231-239 | the king's entrance pauses the battle behind the bandit intro with the walk-in flag set, and the king, from 1670 at speed 2, stands at 1152 with his threat made after 260 or more walk-in calls |
| Game.ApplyUpgradeWith | game_logic.py:251-275 | on tables with no level cap, and keeping every level, increase and price non-negative: with no entry, a dead unit or too few secured seeds nothing changes; otherwise the price is paid, the level rises by one and the "upgrade_applied" event is reported; health and damage add the increase, attack speed recomputes the cooldown from the new level, and movement speed adds the increase |
| Game.Boosted | game_logic.py:262-273 | one bought level changes only the stat named: health raises current and maximum health alike, damage raises attack power, attack speed sets the cooldown to exactly the class cooldown divided by one plus the new level (the entry's level plus one) times the increase, floored at 200 ms, so between 200 ms and the class cooldown, with a frame delay of a fourteenth of it, movement speed raises speed; any other name leaves the unit as it was |
| Game.ApplyUpgrade | game_logic.py:251-275 | the battle upgrade as written, looked up under the capitalized upgrade name: "health" and "damage" behave exactly as the intended lookup, while "attack speed" and "movement speed" leave seeds, tables and unit unchanged on any class with the standard four stats |
| Game.CapitalizedUpgradeNames | game_logic.py:253 | `capitalize()` turns "health" and "damage" into their table keys but "attack speed" and "movement speed" into names no table holds |
| Game.SpeedUpgradeLostOnDefaults | game_logic.py:251-275 | on the default tables a live Peasant with 1000 secured seeds buys nothing with "attack speed" as written, but buys it with the intended lookup |
| Game.IntendedKey | game_logic.py:253 | each of the four lower-case upgrade names maps to one of the four stat names |
| Game.ApplyUpgradeIntended | game_logic.py:251-275 | the battle upgrade with the lookup under the title-case stat name: on a class the tables know, each of the four upgrades goes through exactly when the unit is alive and the secured seeds cover the price, and then the price is paid, the level rises by one, the event is reported and the unit receives that level's boost; otherwise nothing changes |
| Game.IntendedKeyInvertsLower | game_logic.py:253 | the intended lookup inverts the `lower()` the unit menu returns |
| Game.BonusStep | game_logic.py:259 | at any level, with no cap, buying one level keeps the table non-negative and adds exactly one increase to the bonus a later spawn receives |
| Game.BattleUpgradeMatchesSpawn | game_logic.py:259-265 | at any level, with no cap, a health or damage upgrade bought in battle gives the unit exactly the gain a newly spawned unit would get from the same purchase |
| Game.SeedReward | game_logic.py:277-280 | every kill pays at least 5 seeds |
| Game.XpReward | game_logic.py:282-285 | every kill pays at least 10 experience |
| Game.XpFollowsSeeds | game_logic.py:277-285 | the experience of a kill is its seeds plus 5, except the king's, which is double |
| Game.Reap | game_logic.py:400 | the units kept are exactly those that are not finished corpses, never more than given |
| Game.Dead | game_logic.py:426 | the units taken are exactly the finished corpses, never more than given |
| Game.ReapIdempotent | game_logic.py:400 | reaping twice is reaping once |
| Game.ReapAndDeadDistribute | game_logic.py:400-438 | reaping and collecting the dead of a concatenation is the concatenation of the parts' results, so both keep list order |
| Game.ReapAndDeadOfOne | game_logic.py:400-438 | a single unit is reaped exactly when it is not finished and taken as dead exactly when it is |
| Game.ReapPartitions | game_logic.py:426-438 | every enemy is either reaped or kept, never both |
| Game.XpOutpacesSeeds | game_logic.py:433-434 | over any set of kills, experience exceeds seeds by at least 5 per kill |
| Game.Spots | game_logic.py:435-436 | one drop spot per seed earned, each at the x of a corpse |
| Game.KillEvents | game_logic.py:437 | one "unit_killed" report per corpse, in order, always naming "Player" as the killer |
| Game.BattleKillsNeverCreditArchers | game_logic.py:437 | no kill reported by the battle ever earns "Kill with Archer" |
| Game.HarvestDead | game_logic.py:426-438 | the finished corpses are removed; seeds rise by the seed rewards of the dead, one per drop, and experience by their experience rewards, at least the drops plus 5 per kill; the king fell exactly when he was among the corpses; one report per corpse |
| Game.Reaped | game_logic.py:400-442 | both armies lose exactly their finished corpses, seeds and experience rise by the rewards of the enemy dead, every unexpired drop survives updated and no expired one remains, and only the king's presence and the completion flag change besides |
| Game.AddDrops | game_logic.py:436-442 | after the new drops join, every unexpired drop survives updated and no expired drop remains |
| Game.NewDrops | game_logic.py:435-436 | each drop spot gives a one-seed drop with its own scatter |
| Game.Decide | game_logic.py:456-474 | defeat exactly when the player's base is down; otherwise the king arrives exactly when level 5's enemy base is down with no king on the field; victory exactly when another level's enemy base is down; otherwise play continues |
| Game.Collect | game_logic.py:400-454 | corpses are reaped; seeds and experience rise by exactly the rewards of the enemy dead; the surviving enemies keep their order at the front of the list, with at most one newcomer and none when the timer is not due; every unexpired drop survives, updated, and no expired drop or finished corpse remains; the level-up offer stands exactly at 100 experience; level 5 completes exactly when the king fell; the flags and bases are untouched |
| Game.SpawnTimer | game_logic.py:446-449 | the timer does nothing before it is due; the enemies present always stay at the front, in order; when due it restarts at now and adds at most one enemy, exactly one drawn from the level's pool when the pool is not empty |
| Game.Conclude | game_logic.py:456-474 | defeat ends the game as lost; the king's arrival clears the field and brings him on alone with the walk and retreat flags raised; victory clears the field, stops spawns and completes the level; otherwise nothing changes |
| Game.Settle | game_logic.py:400-474 | after a tick's bookkeeping the player army is exactly its live-or-dying units, no finished corpse or expired drop remains, every unexpired drop survives updated, seeds and experience rise by exactly the rewards of the enemy dead, and one kill report is made per enemy corpse |
| Menu.BaseUpgradesOrDefault | menu.py:94-97 | a non-empty stored table is kept whole; otherwise HP and Passive Income are offered, HP at +75 |
| Menu.ApplyBaseUpgrade | menu.py:319-323 | an HP purchase adds its increase to base health and a Passive Income purchase adds its increase to income; any other name changes nothing; at most one setting changes, and with non-negative increases neither setting falls |
| Menu.BaseUpgradesCommute | menu.py:319-323 | two base upgrades give the same settings in either order |
| Menu.HpUpgradesAddUp | menu.py:319-321 | n HP purchases at the default increase add 75n to any base health and leave income alone, so from the start the base has 1000 + 75n health |
| Menu.BuyBaseUpgrade | menu.py:237-249 | an unaffordable or maxed upgrade changes nothing; otherwise the price is paid, the level rises by one, the upgrade is applied and reported, and the unit tables are untouched |
| Menu.BuyUnitUpgrade | menu.py:251-269 | an unaffordable or maxed stat changes nothing; otherwise the price is paid, exactly that level rises by one, the title-case stat is reported and its lower-case name is returned |
| Menu.PurchasesKeepShopSane | menu.py:241-263 | no purchase drives secured seeds below zero or a level past 20 |
| Menu.MenuUpgradeEarnsAchievement | menu.py:268 | a unit upgrade bought in the menu always earns "Upgrade Unit Health" |
| Menu.AvailableUnits | menu.py:100-104 | the Peasant, Warrior and Tank are always offered and the Archer exactly from level 5 on, each once |
| Menu.MergedTablesCoverOfferedClasses | menu.py:86-104 | every class the menu offers has a merged upgrade entry for all four stats |
| Menu.RowLevels | menu.py:127-131 | a button row is shared by the four levels with the same offset, one per section |
| Menu.FirstSelectable | menu.py:290-300 | the level chosen is the first unlocked level under the click that lies in the shown section; none exactly when no such level exists |
| Menu.LevelScreenClick | menu.py:271-301 | Back closes the screen; Prev pages back unless on the first section; Next pages on only when the current section's last level is unlocked and the section is not the last; paging never leaves sections 0-3 and never changes the highest unlocked level; only a row click chooses a level, and it chooses exactly the level that row shows in the current section when that level is unlocked, and none otherwise |
| Menu.Paged | menu.py:271-289 | paging keeps the section within 0-3 and the highest unlocked level unchanged; it moves on only by Next from a fully unlocked section and back only by Prev |
| Menu.Picked | menu.py:290-300 | only a row click picks a level; it is unlocked and in the shown section, and is exactly the level the row shows there when that level is unlocked |
| Menu.RowChoosesShownLevel | menu.py:290-300 | a click on a row of the shown section picks exactly that section's level of the row, if it is unlocked |
| Menu.PagedSectionsAreReachable | menu.py:282-289 | over any run of clicks, every section shown past the first has all its earlier levels unlocked |

## Left out

- Drawing, sprites, fonts, sounds and the pixel masks. The arrow's mask test (units.py:777-788) is an input flag (`maskHit`).
- Persistence through the browser (`js.loadPlayerData`, `save_player_data`): stored tables and saved achievements are inputs.
- The async run loop and the entry points (`run`, main.py, game.py, showroom.py). They only dispatch to the modelled operations.
- `handle_level_completion` and the ui module are not part of this model. Level completion is modelled as the `completed` flag it would act on.
- Projectiles.LaunchMagic: the square root and `atan2` are not computed. The distance is an input constrained to be the length of the aim vector, and the sprite angle is omitted.
- The per-unit movement loop of `update` (game_logic.py:376-424) is modelled step by step (`UpdateAnimation`, `Move`, `StartAttack`, `FindNearestTarget`) but not composed into `Game.Settle`. Likewise the arrow-list pass of game_logic.py:444 is modelled per projectile by `Projectiles.Update`, not inside `Game.Settle`. That includes the screen-edge clamps at 1800 and 120. The composition would add nothing but sequencing.
- The cart stop and surrender trigger inside `update` (game_logic.py:343-371): only their parts `CartUpdate`, `SpawnCartAndRazor` and `SurrenderCheck` are modelled.
- Passive income per tick (game_logic.py:328-329) is floating-point accumulation with no rule to state beyond the addition. `Menu.ApplyBaseUpgrade` covers how it grows.
- The "unit_unlocked" event the menu sends (menu.py:104) reaches no branch of `check_achievements`. It is the `Unrecognised` event, which changes nothing.
- Achievements.QueueBounded: states the bound as at most the twenty achievements, not a tighter bound from the pop-up timing.
- Cutscenes.UnitsMovingBack: does not return the handler's boolean result (whether the flag was up on entry), which the caller ignores.
- Cutscenes.KingStep: the king is given rather than optional; with no king the handler does nothing, and the caller models that by not calling it.
- Units.UpdateAnimation: with no frames for a state the unit falls back to idle, as in the source. So the loop, hurt, death and attack steps are promised only when that state's animation has frames.
- Collisions.CheckCollisions: the slow-down of a follower to its leader's speed is a mutation of the unit object in the source. It is returned as the updated unit.
- Python integer and float widths: positions, health and timers are unbounded reals and integers. pygame's truncation of rectangle coordinates is modelled (`Geometry.Trunc`).

## Findings

| source | as written | input that shows it | evidently intended | confidence | as-written member | corrected member |
|---|---|---|---|---|---|---|
| game_logic.py:253 | the stat entry is looked up under `upgrade_type.capitalize()`, which turns "attack speed" into "Attack speed" and "movement speed" into "Movement speed"; neither is a key of the upgrade tables | a live Peasant, 1000 secured seeds, the default tables, upgrade "attack speed": nothing is bought and the cooldown is unchanged | look up the title-case stat name ("Attack Speed", "Movement Speed") that the menu's tables use, so that the attack-speed and movement-speed branches (lines 266-273) can run | not executed | Game.ApplyUpgrade (discrepancy in Game.SpeedUpgradeLostOnDefaults) | Game.ApplyUpgradeIntended |

=== FILE: achievements.dfy ===
/**
 * The achievement tracker (achievements.py): twenty named achievements,
 * the counters the game events feed, and the queue of unlock pop-ups that
 * are shown one after another for three seconds each.
 */
module Achievements {
  import opened Basics
  import opened Text

  /** The twenty keys of the `achievements` dictionary. */
  datatype Achievement =
    | BeatLevel1 | BeatLevel5 | UnlockArcher | Secure1000Seeds | Kill5Units
    | Kill50Units | UpgradeBaseHP | UpgradeUnitHealth | Spawn10Units | WinWithoutLosingHealth
    | KillATank | Survive5Minutes | Collect100Seeds | UnlockAllUnits | MaxUpgradeAUnit
    | DestroyEnemyBase | KillWithArcher | SpawnATank | UpgradePassiveIncome | Win3Levels

  const All: set<Achievement> := {
    BeatLevel1, BeatLevel5, UnlockArcher, Secure1000Seeds, Kill5Units,
    Kill50Units, UpgradeBaseHP, UpgradeUnitHealth, Spawn10Units, WinWithoutLosingHealth,
    KillATank, Survive5Minutes, Collect100Seeds, UnlockAllUnits, MaxUpgradeAUnit,
    DestroyEnemyBase, KillWithArcher, SpawnATank, UpgradePassiveIncome, Win3Levels
  }

  lemma InAll(a: Achievement)
    ensures a in All
  {
  }

  /** The dictionary key: the name shown in the pop-up and used in storage. */
  function Title(a: Achievement): string
  {
    match a
    case BeatLevel1 => "Beat Level 1"
    case BeatLevel5 => "Beat Level 5"
    case UnlockArcher => "Unlock Archer"
    case Secure1000Seeds => "Secure 1000 Seeds"
    case Kill5Units => "Kill 5 Units"
    case Kill50Units => "Kill 50 Units"
    case UpgradeBaseHP => "Upgrade Base HP"
    case UpgradeUnitHealth => "Upgrade Unit Health"
    case Spawn10Units => "Spawn 10 Units"
    case WinWithoutLosingHealth => "Win Without Losing Health"
    case KillATank => "Kill a Tank"
    case Survive5Minutes => "Survive 5 Minutes"
    case Collect100Seeds => "Collect 100 Seeds"
    case UnlockAllUnits => "Unlock All Units"
    case MaxUpgradeAUnit => "Max Upgrade a Unit"
    case DestroyEnemyBase => "Destroy Enemy Base"
    case KillWithArcher => "Kill with Archer"
    case SpawnATank => "Spawn a Tank"
    case UpgradePassiveIncome => "Upgrade Passive Income"
    case Win3Levels => "Win 3 Levels"
  }

  /** The upgrade names that count as upgrading a unit. */
  const UnitUpgradeKinds: set<string> := {"Health", "Damage", "Attack Speed", "Movement Speed"}

  const PopupDuration: int := 3000
  const SurviveTime: int := 300000
  const FastWinTime: int := 600000

  /** The tracker's state; `unlocked` holds the names whose `unlocked` flag is set. */
  datatype Tracker = Tracker(
    unlocked: set<Achievement>,
    queue: seq<Achievement>,
    popupStart: int,
    killCount: int,
    levelWins: int,
    unitsSpawned: int,
    gameStart: int,
    seedsCollected: int,
    baseHealthLost: bool)

  /** The events `check_achievements` is called with, and their payloads. */
  datatype Event =
    | LevelComplete(level: int)
    | UnitKilled(unitName: string, killer: Option<string>)
    | UnitSpawned(unitName: string)
    | GameStarted
    | SeedsCollected(seeds: int)
    | UpgradeApplied(upgradeType: string)
    | BaseDamaged
    | Unrecognised(eventName: string)

  /**
   * What the tracker keeps true: every queued pop-up is for an unlocked
   * achievement, and no pop-up is queued twice.
   */
  predicate Valid(t: Tracker)
  {
    && (forall i :: 0 <= i < |t.queue| ==> t.queue[i] in t.unlocked)
    && (forall i, j :: 0 <= i < j < |t.queue| ==> t.queue[i] != t.queue[j])
  }

  /**
   * `r` is `t` with some achievements newly unlocked, each appended to the
   * pop-up queue exactly once.
   */
  predicate Extends(t: Tracker, r: Tracker)
  {
    && t.unlocked <= r.unlocked
    && |t.queue| <= |r.queue|
    && r.queue[..|t.queue|] == t.queue
    && |r.queue| - |t.queue| == |r.unlocked| - |t.unlocked|
    && (forall i :: |t.queue| <= i < |r.queue| ==> r.queue[i] in r.unlocked - t.unlocked)
  }

  lemma ExtendsTransitive(a: Tracker, b: Tracker, c: Tracker)
    requires Extends(a, b) && Extends(b, c)
    ensures Extends(a, c)
  {
    assert c.queue[..|a.queue|] == c.queue[..|b.queue|][..|a.queue|];
    forall i | |a.queue| <= i < |c.queue|
      ensures c.queue[i] in c.unlocked - a.unlocked
    {
      if i < |b.queue| {
        assert c.queue[i] == b.queue[i];
      }
    }
  }

  /**
   * A fresh tracker over the flags loaded from storage: a key counts as
   * unlocked when storage holds it as unlocked; unknown keys are ignored.
   */
  function Init(saved: set<string>): (r: Tracker)
    ensures Valid(r)
    ensures forall a :: a in r.unlocked <==> Title(a) in saved
    ensures r.queue == [] && r.killCount == 0 && r.levelWins == 0 && !r.baseHealthLost
    ensures r.unitsSpawned == 0 && r.seedsCollected == 0 && r.gameStart == 0 && r.popupStart == 0
  {
    Tracker(set a | a in All && Title(a) in saved, [], 0, 0, 0, 0, 0, 0, false)
  }

  /**
   * `unlock_achievement`: a still locked achievement becomes unlocked
   * and queued; the pop-up timer restarts only if it is now the sole entry.
   */
  function Unlock(t: Tracker, name: Achievement, now: int): (r: Tracker)
    ensures name in t.unlocked ==> r == t
    ensures name !in t.unlocked ==>
              && r.unlocked == t.unlocked + {name}
              && r.queue == t.queue + [name]
              && r.popupStart == (if |t.queue| == 0 then now else t.popupStart)
              && r.(unlocked := t.unlocked, queue := t.queue, popupStart := t.popupStart) == t
    ensures r.unlocked == t.unlocked + {name}
    ensures Extends(t, r)
    ensures Valid(t) ==> Valid(r)
  {
    if name !in t.unlocked then
      var q := t.queue + [name];
      assert q[..|t.queue|] == t.queue;
      t.(unlocked := t.unlocked + {name},
         queue := q,
         popupStart := if |q| == 1 then now else t.popupStart)
    else t
  }

  /** The dictionary lookup `achievement in self.achievements` by key. */
  function Named(name: string): (r: Option<Achievement>)
    ensures r.Some? ==> Title(r.value) == name
    ensures r.None? ==> forall a :: Title(a) != name
  {
    if name == "Beat Level 1" then Some(BeatLevel1)
    else if name == "Beat Level 5" then Some(BeatLevel5)
    else if name == "Unlock Archer" then Some(UnlockArcher)
    else if name == "Secure 1000 Seeds" then Some(Secure1000Seeds)
    else if name == "Kill 5 Units" then Some(Kill5Units)
    else if name == "Kill 50 Units" then Some(Kill50Units)
    else if name == "Upgrade Base HP" then Some(UpgradeBaseHP)
    else if name == "Upgrade Unit Health" then Some(UpgradeUnitHealth)
    else if name == "Spawn 10 Units" then Some(Spawn10Units)
    else if name == "Win Without Losing Health" then Some(WinWithoutLosingHealth)
    else if name == "Kill a Tank" then Some(KillATank)
    else if name == "Survive 5 Minutes" then Some(Survive5Minutes)
    else if name == "Collect 100 Seeds" then Some(Collect100Seeds)
    else if name == "Unlock All Units" then Some(UnlockAllUnits)
    else if name == "Max Upgrade a Unit" then Some(MaxUpgradeAUnit)
    else if name == "Destroy Enemy Base" then Some(DestroyEnemyBase)
    else if name == "Kill with Archer" then Some(KillWithArcher)
    else if name == "Spawn a Tank" then Some(SpawnATank)
    else if name == "Upgrade Passive Income" then Some(UpgradePassiveIncome)
    else if name == "Win 3 Levels" then Some(Win3Levels)
    else None
  }

  /** `unlock_achievement` as called, with a key string: an unknown key changes nothing. */
  function UnlockNamed(t: Tracker, name: string, now: int): (r: Tracker)
    ensures (forall a :: Title(a) != name) ==> r == t
    ensures forall a :: Title(a) == name ==> r == Unlock(t, a, now)
  {
    match Named(name)
    case None => t
    case Some(a) =>
      assert forall b :: Title(b) == name ==> b == a by {
        forall b | Title(b) == name
          ensures b == a
        {
          TitleInjective(a, b);
        }
      }
      Unlock(t, a, now)
  }

  lemma TitleInjective(a: Achievement, b: Achievement)
    requires Title(a) == Title(b)
    ensures a == b
  {
    NamedTitle(a);
    NamedTitle(b);
  }

  /** Looking up an achievement's own key finds it. */
  lemma NamedTitle(a: Achievement)
    ensures Named(Title(a)) == Some(a)
  {
    match a
    case BeatLevel1 => NamedTitleOfBeatLevel1();
    case BeatLevel5 => NamedTitleOfBeatLevel5();
    case UnlockArcher => NamedTitleOfUnlockArcher();
    case Secure1000Seeds => NamedTitleOfSecure1000Seeds();
    case Kill5Units => NamedTitleOfKill5Units();
    case Kill50Units => NamedTitleOfKill50Units();
    case UpgradeBaseHP => NamedTitleOfUpgradeBaseHP();
    case UpgradeUnitHealth => NamedTitleOfUpgradeUnitHealth();
    case Spawn10Units => NamedTitleOfSpawn10Units();
    case WinWithoutLosingHealth => NamedTitleOfWinWithoutLosingHealth();
    case KillATank => NamedTitleOfKillATank();
    case Survive5Minutes => NamedTitleOfSurvive5Minutes();
    case Collect100Seeds => NamedTitleOfCollect100Seeds();
    case UnlockAllUnits => NamedTitleOfUnlockAllUnits();
    case MaxUpgradeAUnit => NamedTitleOfMaxUpgradeAUnit();
    case DestroyEnemyBase => NamedTitleOfDestroyEnemyBase();
    case KillWithArcher => NamedTitleOfKillWithArcher();
    case SpawnATank => NamedTitleOfSpawnATank();
    case UpgradePassiveIncome => NamedTitleOfUpgradePassiveIncome();
    case Win3Levels => NamedTitleOfWin3Levels();
  }

  lemma NamedTitleOfBeatLevel1()
    ensures Named(Title(BeatLevel1)) == Some(BeatLevel1)
  {
  }

  lemma NamedTitleOfBeatLevel5()
    ensures Named(Title(BeatLevel5)) == Some(BeatLevel5)
  {
  }

  lemma NamedTitleOfUnlockArcher()
    ensures Named(Title(UnlockArcher)) == Some(UnlockArcher)
  {
  }

  lemma NamedTitleOfSecure1000Seeds()
    ensures Named(Title(Secure1000Seeds)) == Some(Secure1000Seeds)
  {
  }

  lemma NamedTitleOfKill5Units()
    ensures Named(Title(Kill5Units)) == Some(Kill5Units)
  {
  }

  lemma NamedTitleOfKill50Units()
    ensures Named(Title(Kill50Units)) == Some(Kill50Units)
  {
  }

  lemma NamedTitleOfUpgradeBaseHP()
    ensures Named(Title(UpgradeBaseHP)) == Some(UpgradeBaseHP)
  {
  }

  lemma NamedTitleOfUpgradeUnitHealth()
    ensures Named(Title(UpgradeUnitHealth)) == Some(UpgradeUnitHealth)
  {
  }

  lemma NamedTitleOfSpawn10Units()
    ensures Named(Title(Spawn10Units)) == Some(Spawn10Units)
  {
  }

  lemma NamedTitleOfWinWithoutLosingHealth()
    ensures Named(Title(WinWithoutLosingHealth)) == Some(WinWithoutLosingHealth)
  {
  }

  lemma NamedTitleOfKillATank()
    ensures Named(Title(KillATank)) == Some(KillATank)
  {
  }

  lemma NamedTitleOfSurvive5Minutes()
    ensures Named(Title(Survive5Minutes)) == Some(Survive5Minutes)
  {
  }

  lemma NamedTitleOfCollect100Seeds()
    ensures Named(Title(Collect100Seeds)) == Some(Collect100Seeds)
  {
  }

  lemma NamedTitleOfUnlockAllUnits()
    ensures Named(Title(UnlockAllUnits)) == Some(UnlockAllUnits)
  {
  }

  lemma NamedTitleOfMaxUpgradeAUnit()
    ensures Named(Title(MaxUpgradeAUnit)) == Some(MaxUpgradeAUnit)
  {
  }

  lemma NamedTitleOfDestroyEnemyBase()
    ensures Named(Title(DestroyEnemyBase)) == Some(DestroyEnemyBase)
  {
  }

  lemma NamedTitleOfKillWithArcher()
    ensures Named(Title(KillWithArcher)) == Some(KillWithArcher)
  {
  }

  lemma NamedTitleOfSpawnATank()
    ensures Named(Title(SpawnATank)) == Some(SpawnATank)
  {
  }

  lemma NamedTitleOfUpgradePassiveIncome()
    ensures Named(Title(UpgradePassiveIncome)) == Some(UpgradePassiveIncome)
  {
  }

  lemma NamedTitleOfWin3Levels()
    ensures Named(Title(Win3Levels)) == Some(Win3Levels)
  {
  }

  /** Unlocking twice is unlocking once: the second call finds the flag set. */
  lemma UnlockIdempotent(t: Tracker, name: Achievement, now: int, later: int)
    ensures Unlock(Unlock(t, name, now), name, later) == Unlock(t, name, now)
  {
  }

  function UnlockIf(t: Tracker, cond: bool, name: Achievement, now: int): (r: Tracker)
    ensures r.unlocked == t.unlocked + (if cond then {name} else {})
    ensures Extends(t, r)
    ensures Valid(t) ==> Valid(r)
    ensures r.(unlocked := t.unlocked, queue := t.queue, popupStart := t.popupStart) == t
  {
    if cond then Unlock(t, name, now) else t
  }

  /**
   * Reference definition: whether event `e`, arriving in state `t` at time
   * `now`, earns the achievement `n`.
   */
  predicate Earns(t: Tracker, e: Event, now: int, n: Achievement)
  {
    match e
    case LevelComplete(level) =>
      || (n == BeatLevel1 && level == 1)
      || (n == BeatLevel5 && level == 5)
      || (n == Win3Levels && t.levelWins + 1 >= 3)
      || (n == WinWithoutLosingHealth && !t.baseHealthLost)
      || (n == DestroyEnemyBase && now - t.gameStart < FastWinTime)
    case UnitKilled(unitName, killer) =>
      || (n == Kill5Units && t.killCount + 1 >= 5)
      || (n == Kill50Units && t.killCount + 1 >= 50)
      || (n == KillATank && unitName == "Zombie_Tank")
      || (n == KillWithArcher && killer == Some("Player_Archer"))
    case UnitSpawned(unitName) =>
      || (n == Spawn10Units && t.unitsSpawned + 1 >= 10)
      || (n == SpawnATank && unitName == "Player_Tank")
    case SeedsCollected(seeds) =>
      n == Collect100Seeds && t.seedsCollected + seeds >= 100
    case UpgradeApplied(kind) =>
      || (n == UpgradeBaseHP && kind == "HP")
      || (n == UpgradeUnitHealth && kind in UnitUpgradeKinds)
      || (n == UpgradePassiveIncome && kind == "Passive Income")
    case GameStarted => false
    case BaseDamaged => false
    case Unrecognised(_) => false
  }

  /** Unlocks each name in turn, in list order. */
  function UnlockAll(t: Tracker, names: seq<Achievement>, now: int): (r: Tracker)
    ensures forall n :: n in r.unlocked <==> n in t.unlocked || n in names
    ensures Extends(t, r)
    ensures Valid(t) ==> Valid(r)
    ensures r.(unlocked := t.unlocked, queue := t.queue, popupStart := t.popupStart) == t
    decreases |names|
  {
    if |names| == 0 then
      assert t.queue[..|t.queue|] == t.queue;
      t
    else
      var t1 := Unlock(t, names[0], now);
      var r := UnlockAll(t1, names[1..], now);
      ExtendsTransitive(t, t1, r);
      assert forall n :: n in names <==> n == names[0] || n in names[1..];
      r
  }

  function When(cond: bool, a: Achievement): (r: seq<Achievement>)
    ensures forall n :: n in r <==> cond && n == a
  {
    if cond then [a] else []
  }

  /** The counter update each event makes before its unlock tests. */
  function Counted(t: Tracker, e: Event, now: int): (c: Tracker)
    ensures c.unlocked == t.unlocked && c.queue == t.queue && c.popupStart == t.popupStart
  {
    match e
    case LevelComplete(_) => t.(levelWins := t.levelWins + 1)
    case UnitKilled(_, _) => t.(killCount := t.killCount + 1)
    case UnitSpawned(_) => t.(unitsSpawned := t.unitsSpawned + 1)
    case GameStarted => t.(gameStart := now, unitsSpawned := 0, seedsCollected := 0, baseHealthLost := false)
    case SeedsCollected(seeds) => t.(seedsCollected := t.seedsCollected + seeds)
    case UpgradeApplied(_) => t
    case BaseDamaged => t.(baseHealthLost := true)
    case Unrecognised(_) => t
  }

  /** The `unlock_achievement` calls of one event, in the order the branches make them, over the counted state `c`. */
  function Awards(c: Tracker, e: Event, now: int): seq<Achievement>
  {
    match e
    case LevelComplete(level) =>
      (if level == 1 then [BeatLevel1] else When(level == 5, BeatLevel5))
      + When(c.levelWins >= 3, Win3Levels)
      + When(!c.baseHealthLost, WinWithoutLosingHealth)
      + When(now - c.gameStart < FastWinTime, DestroyEnemyBase)
    case UnitKilled(unitName, killer) =>
      When(c.killCount >= 5, Kill5Units)
      + When(c.killCount >= 50, Kill50Units)
      + When(unitName == "Zombie_Tank", KillATank)
      + When(killer == Some("Player_Archer"), KillWithArcher)
    case UnitSpawned(unitName) =>
      When(c.unitsSpawned >= 10, Spawn10Units)
      + When(unitName == "Player_Tank", SpawnATank)
    case SeedsCollected(_) => When(c.seedsCollected >= 100, Collect100Seeds)
    case UpgradeApplied(kind) =>
      if kind == "HP" then [UpgradeBaseHP]
      else if kind in UnitUpgradeKinds then [UpgradeUnitHealth]
      else When(kind == "Passive Income", UpgradePassiveIncome)
    case GameStarted => []
    case BaseDamaged => []
    case Unrecognised(_) => []
  }

  /**
   * `check_achievements`: the event updates its counter and unlocks exactly
   * the achievements it earns; `game_started` restarts the per-game
   * counters but not the kill count or the level wins.
   */
  function Check(t: Tracker, e: Event, now: int): (r: Tracker)
    ensures forall n :: n in r.unlocked <==> n in t.unlocked || Earns(t, e, now, n)
    ensures Extends(t, r)
    ensures Valid(t) ==> Valid(r)
    ensures r.killCount == t.killCount + (if e.UnitKilled? then 1 else 0)
    ensures r.levelWins == t.levelWins + (if e.LevelComplete? then 1 else 0)
    ensures r.unitsSpawned == if e.GameStarted? then 0 else t.unitsSpawned + (if e.UnitSpawned? then 1 else 0)
    ensures r.seedsCollected == if e.GameStarted? then 0 else t.seedsCollected + (if e.SeedsCollected? then e.seeds else 0)
    ensures r.gameStart == if e.GameStarted? then now else t.gameStart
    ensures r.baseHealthLost == if e.GameStarted? then false else t.baseHealthLost || e.BaseDamaged?
  {
    var c := Counted(t, e, now);
    assert c.queue[..|c.queue|] == c.queue;
    var r := UnlockAll(c, Awards(c, e, now), now);
    assert forall n :: n in r.unlocked <==> n in t.unlocked || Earns(t, e, now, n) by {
      forall n
        ensures n in r.unlocked <==> n in t.unlocked || Earns(t, e, now, n)
      {
        AwardsAreEarned(t, e, now, n);
      }
    }
    r
  }

  /** The branch-by-branch unlock calls award exactly what the reference definition says. */
  lemma AwardsAreEarned(t: Tracker, e: Event, now: int, n: Achievement)
    ensures n in Awards(Counted(t, e, now), e, now) <==> Earns(t, e, now, n)
  {
    match e
    case LevelComplete(level) => LevelAwards(t, level, now, n);
    case UnitKilled(unitName, killer) => KillAwards(t, unitName, killer, now, n);
    case UnitSpawned(unitName) => SpawnAwards(t, unitName, now, n);
    case SeedsCollected(_) =>
    case UpgradeApplied(kind) => UpgradeAwards(t, kind, now, n);
    case GameStarted =>
    case BaseDamaged =>
    case Unrecognised(_) =>
  }

  lemma LevelAwards(t: Tracker, level: int, now: int, n: Achievement)
    ensures n in Awards(Counted(t, LevelComplete(level), now), LevelComplete(level), now)
            <==> Earns(t, LevelComplete(level), now, n)
  {
    var c := Counted(t, LevelComplete(level), now);
    var a := if level == 1 then [BeatLevel1] else When(level == 5, BeatLevel5);
    var b := When(c.levelWins >= 3, Win3Levels);
    var d := When(!c.baseHealthLost, WinWithoutLosingHealth);
    var f := When(now - c.gameStart < FastWinTime, DestroyEnemyBase);
    assert Awards(c, LevelComplete(level), now) == a + b + d + f;
    assert n in a + b + d + f <==> n in a || n in b || n in d || n in f;
  }

  lemma KillAwards(t: Tracker, unitName: string, killer: Option<string>, now: int, n: Achievement)
    ensures n in Awards(Counted(t, UnitKilled(unitName, killer), now), UnitKilled(unitName, killer), now)
            <==> Earns(t, UnitKilled(unitName, killer), now, n)
  {
    var c := Counted(t, UnitKilled(unitName, killer), now);
    var a := When(c.killCount >= 5, Kill5Units);
    var b := When(c.killCount >= 50, Kill50Units);
    var d := When(unitName == "Zombie_Tank", KillATank);
    var f := When(killer == Some("Player_Archer"), KillWithArcher);
    assert Awards(c, UnitKilled(unitName, killer), now) == a + b + d + f;
    assert n in a + b + d + f <==> n in a || n in b || n in d || n in f;
  }

  lemma SpawnAwards(t: Tracker, unitName: string, now: int, n: Achievement)
    ensures n in Awards(Counted(t, UnitSpawned(unitName), now), UnitSpawned(unitName), now)
            <==> Earns(t, UnitSpawned(unitName), now, n)
  {
    var c := Counted(t, UnitSpawned(unitName), now);
    var a := When(c.unitsSpawned >= 10, Spawn10Units);
    var b := When(unitName == "Player_Tank", SpawnATank);
    assert Awards(c, UnitSpawned(unitName), now) == a + b;
    assert n in a + b <==> n in a || n in b;
  }

  lemma UpgradeAwards(t: Tracker, kind: string, now: int, n: Achievement)
    ensures n in Awards(Counted(t, UpgradeApplied(kind), now), UpgradeApplied(kind), now)
            <==> Earns(t, UpgradeApplied(kind), now, n)
  {
    assert "HP" !in UnitUpgradeKinds && "Passive Income" !in UnitUpgradeKinds by {
      assert |"HP"| == 2 && "Passive Income"[0] == 'P';
    }
  }

  /** `update`: after five minutes of the current game, "Survive 5 Minutes" unlocks. */
  function Update(t: Tracker, now: int): (r: Tracker)
    ensures r.unlocked == t.unlocked + (if now - t.gameStart >= SurviveTime then {Survive5Minutes} else {})
    ensures Extends(t, r)
    ensures Valid(t) ==> Valid(r)
  {
    UnlockIf(t, now - t.gameStart >= SurviveTime, Survive5Minutes, now)
  }

  /** The pop-up on screen, if any: the head of the queue. */
  function Showing(t: Tracker): Option<Achievement>
  {
    if |t.queue| > 0 then Some(t.queue[0]) else None
  }

  /**
   * The state part of `draw_popup`: once the head has been shown for more
   * than three seconds it is dropped, and the next one (if any) starts its
   * own three seconds now.
   */
  function AdvancePopup(t: Tracker, now: int): (r: Tracker)
    ensures r.unlocked == t.unlocked
    ensures Valid(t) ==> Valid(r)
    ensures r.queue == t.queue || (|t.queue| > 0 && r.queue == t.queue[1..])
    ensures r.queue != t.queue <==> |t.queue| > 0 && now - t.popupStart > PopupDuration
    ensures r.queue != t.queue && |r.queue| > 0 ==> r.popupStart == now
    ensures r.queue == t.queue ==> r == t
    ensures r.(queue := t.queue, popupStart := t.popupStart) == t
  {
    if |t.queue| > 0 && now - t.popupStart > PopupDuration then
      var q := t.queue[1..];
      assert |q| < |t.queue|;
      t.(queue := q, popupStart := if |q| > 0 then now else t.popupStart)
    else t
  }

  /** A pop-up that follows another is on screen for more than three seconds before it goes too. */
  lemma NextPopupGetsFullDuration(t: Tracker, a: int, b: int)
    requires |t.queue| >= 2
    requires AdvancePopup(t, a).queue == t.queue[1..]
    requires AdvancePopup(AdvancePopup(t, a), b).queue == t.queue[2..]
    ensures b - a > PopupDuration
    ensures Showing(AdvancePopup(t, a)) == Some(t.queue[1])
  {
    assert t.queue[1..][1..] == t.queue[2..];
    assert |t.queue[2..]| < |t.queue[1..]|;
  }

  /** A sequence of distinct members of `s` is no longer than `s` has elements. */
  lemma {:induction false} DistinctWithin(q: seq<Achievement>, s: set<Achievement>)
    requires forall i :: 0 <= i < |q| ==> q[i] in s
    requires forall i, j :: 0 <= i < j < |q| ==> q[i] != q[j]
    ensures |q| <= |s|
    decreases |q|
  {
    if |q| > 0 {
      var rest := q[1..];
      forall i | 0 <= i < |rest|
        ensures rest[i] in s - {q[0]}
      {
        assert rest[i] == q[i + 1];
      }
      DistinctWithin(rest, s - {q[0]});
    }
  }

  /** At most twenty pop-ups are ever waiting, one per achievement. */
  lemma QueueBounded(t: Tracker)
    requires Valid(t)
    ensures |t.queue| <= |All|
  {
    forall i | 0 <= i < |t.queue|
      ensures t.queue[i] in All
    {
      InAll(t.queue[i]);
    }
    DistinctWithin(t.queue, All);
  }

  /**
   * The events the game sends compare the upgrade name case-sensitively, so
   * an all-lower-case name ("health", "hp") unlocks nothing.
   */
  lemma LowerCaseUpgradeUnlocksNothing(t: Tracker, kind: string, now: int)
    requires Lower(kind) == kind
    ensures Check(t, Event.UpgradeApplied(kind), now) == t
  {
    LowerHasNoCapitals(kind);
    assert kind != "HP" && kind != "Passive Income" by {
      assert "HP"[0] == 'H' && "Passive Income"[0] == 'P';
    }
    assert kind !in UnitUpgradeKinds by {
      assert "Health"[0] == 'H' && "Damage"[0] == 'D' && "Attack Speed"[0] == 'A' && "Movement Speed"[0] == 'M';
    }
    var e := Event.UpgradeApplied(kind);
    assert Counted(t, e, now) == t;
    assert Awards(t, e, now) == [];
  }

  lemma LowerHasNoCapitals(s: string)
    requires Lower(s) == s
    ensures forall i :: 0 <= i < |s| ==> !('A' <= s[i] <= 'Z')
  {
    forall i | 0 <= i < |s|
      ensures !('A' <= s[i] <= 'Z')
    {
      assert Lower(s)[i] == LowerChar(s[i]);
    }
  }

  /**
   * No event and no timer ever awards "Unlock Archer", "Secure 1000 Seeds",
   * "Unlock All Units" or "Max Upgrade a Unit": they stay as loaded.
   */
  lemma NeverAwarded(t: Tracker, e: Event, now: int, n: Achievement)
    requires n in {UnlockArcher, Secure1000Seeds, UnlockAllUnits, MaxUpgradeAUnit}
    ensures n in Check(t, e, now).unlocked <==> n in t.unlocked
    ensures n in Update(t, now).unlocked <==> n in t.unlocked
  {
    assert !Earns(t, e, now, n);
    assert n != Survive5Minutes;
  }

  /**
   * Within one game, "Win Without Losing Health" is earned by a level
   * completion exactly when no `base_damaged` event has arrived since
   * `game_started`.
   */
  lemma {:induction false} CleanWinNeedsNoBaseDamage(t: Tracker, es: seq<Event>, now: int, level: int)
    requires forall i :: 0 <= i < |es| ==> !es[i].GameStarted?
    ensures var s := Replay(Check(t, GameStarted, now), es, now);
            (Earns(s, Event.LevelComplete(level), now, WinWithoutLosingHealth)
             <==> forall i :: 0 <= i < |es| ==> !es[i].BaseDamaged?)
  {
    var s0 := Check(t, GameStarted, now);
    BaseHealthLostIffDamaged(s0, es, now);
  }

  /** Events applied in order, all at time `now`. */
  function Replay(t: Tracker, es: seq<Event>, now: int): (r: Tracker)
    ensures Valid(t) ==> Valid(r)
    ensures t.unlocked <= r.unlocked
    decreases |es|
  {
    if |es| == 0 then t else Replay(Check(t, es[0], now), es[1..], now)
  }

  lemma {:induction false} BaseHealthLostIffDamaged(t: Tracker, es: seq<Event>, now: int)
    requires forall i :: 0 <= i < |es| ==> !es[i].GameStarted?
    ensures Replay(t, es, now).baseHealthLost <==> t.baseHealthLost || exists i :: 0 <= i < |es| && es[i].BaseDamaged?
    decreases |es|
  {
    if |es| > 0 {
      BaseHealthLostIffDamaged(Check(t, es[0], now), es[1..], now);
      assert forall i :: 1 <= i < |es| ==> es[i] == es[1..][i - 1];
      if exists i :: 1 <= i < |es| && es[i].BaseDamaged? {
        var i :| 1 <= i < |es| && es[i].BaseDamaged?;
        assert es[1..][i - 1].BaseDamaged?;
      }
    }
  }
}

=== FILE: archetypes.dfy ===
/**
 * The unit classes of units.py, reduced to their class-level constants:
 * base stats, spawn cost, attack range, how they deliver damage and the
 * size of their hit box.
 */
module Archetypes {

  datatype Archetype =
    | PlayerPeasant | PlayerArcher | PlayerWarrior | PlayerTank
    | BanditRazor | BanditMadman | BanditArcher | BanditTank | BanditKing
    | ZombieMelee | ZombieArcher | ZombieAssassin | ZombieFarmer | ZombieTank
    | UndeadAxeman | UndeadKing | UndeadMage | UndeadSamurai | UndeadWarrior

  /** The class attributes every unit class declares. */
  datatype Stats = Stats(name: string, health: real, attack: real, speed: real,
                         cooldown: real, cost: int, range: real)

  function StatsOf(a: Archetype): (s: Stats)
    ensures s.health > 0.0 && s.attack > 0.0 && s.speed > 0.0 && s.cost >= 0
    ensures 500.0 <= s.cooldown <= 1500.0
    ensures 125.0 <= s.range <= 250.0
  {
    match a
    case PlayerPeasant => Stats("Player_Peasant", 50.0, 20.0, 1.0, 1000.0, 20, 125.0)
    case PlayerArcher => Stats("Player_Archer", 30.0, 15.0, 1.4, 1000.0, 30, 250.0)
    case PlayerWarrior => Stats("Player_Warrior", 80.0, 25.0, 1.15, 1000.0, 50, 125.0)
    case PlayerTank => Stats("Player_Tank", 150.0, 10.0, 0.5, 1500.0, 60, 125.0)
    case BanditRazor => Stats("Bandit_Razor", 40.0, 25.0, 1.5, 800.0, 30, 125.0)
    case BanditMadman => Stats("Bandit_Madman", 60.0, 20.0, 1.2, 1000.0, 25, 125.0)
    case BanditArcher => Stats("Bandit_Archer", 30.0, 15.0, 1.4, 1000.0, 30, 250.0)
    case BanditTank => Stats("Bandit_Tank", 150.0, 10.0, 0.5, 1500.0, 60, 125.0)
    case BanditKing => Stats("Bandit_King", 1000.0, 20.0, 2.0, 1000.0, 0, 125.0)
    case ZombieMelee => Stats("Zombie_Melee", 50.0, 20.0, 1.0, 1000.0, 20, 125.0)
    case ZombieArcher => Stats("Zombie_Archer", 30.0, 15.0, 1.4, 1000.0, 30, 250.0)
    case ZombieAssassin => Stats("Zombie_Assassin", 20.0, 30.0, 2.0, 500.0, 40, 125.0)
    case ZombieFarmer => Stats("Zombie_Farmer", 60.0, 15.0, 0.9, 1200.0, 25, 125.0)
    case ZombieTank => Stats("Zombie_Tank", 150.0, 10.0, 0.5, 1500.0, 60, 125.0)
    case UndeadAxeman => Stats("Undead_Axeman", 70.0, 25.0, 1.0, 1000.0, 35, 125.0)
    case UndeadKing => Stats("Undead_King", 100.0, 30.0, 0.8, 1200.0, 50, 150.0)
    case UndeadMage => Stats("Undead_Mage", 50.0, 25.0, 1.0, 1500.0, 50, 200.0)
    case UndeadSamurai => Stats("Undead_Samurai", 60.0, 35.0, 1.3, 900.0, 40, 125.0)
    case UndeadWarrior => Stats("Undead_Warrior", 80.0, 20.0, 1.1, 1000.0, 30, 125.0)
  }

  /**
   * How a class delivers damage at the strike frame: the base class hits
   * directly; the archer classes and the mage override `update_animation`
   * to release a projectile from `x + offsetX`.
   */
  datatype Weapon = Melee | Bow(offsetX: int) | Staff(offsetX: int)

  function WeaponOf(a: Archetype): (w: Weapon)
    ensures w.Bow? <==> a in {PlayerArcher, BanditArcher, ZombieArcher}
    ensures w.Staff? <==> a == UndeadMage
  {
    match a
    case PlayerArcher => Bow(115)
    case BanditArcher => Bow(77)
    case ZombieArcher => Bow(77)
    case UndeadMage => Staff(77)
    case _ => Melee
  }

  predicate IsRanged(a: Archetype)
  {
    !WeaponOf(a).Melee?
  }

  /** Exactly the classes with a range of at least 200 fight from a distance. */
  lemma RangedIffLongRange(a: Archetype)
    ensures IsRanged(a) <==> StatsOf(a).range >= 200.0
  {
  }

  /** The classes the player can field (units.py:232-315). */
  predicate IsPlayerClass(a: Archetype)
  {
    a in {PlayerPeasant, PlayerArcher, PlayerWarrior, PlayerTank}
  }

  /** The Bandit King is the one large unit: it stands higher and has a wider hit box. */
  function LaneY(a: Archetype): int
  {
    if a == BanditKing then 592 else 688
  }

  function BoxWidth(a: Archetype): int
  {
    if a == BanditKing then 180 else 120
  }

  function BoxHeight(a: Archetype): int
  {
    if a == BanditKing then 288 else 192
  }

  /** Every hit box stands on the ground line y = 880. */
  lemma BoxesStandOnGround(a: Archetype)
    ensures LaneY(a) + BoxHeight(a) == 880
    ensures BoxWidth(a) > 0 && BoxHeight(a) > 0
  {
  }

  /**
   * The key under which menu.py stores a class's upgrades: the class name with
   * "Player_" and "Unit" removed (`Player_ArcherUnit` becomes "Archer"). The
   * other classes have no such affixes and keep their class names.
   */
  function UpgradeKey(a: Archetype): string
  {
    match a
    case PlayerPeasant => "Peasant"
    case PlayerArcher => "Archer"
    case PlayerWarrior => "Warrior"
    case PlayerTank => "Tank"
    case _ => StatsOf(a).name
  }
}

=== FILE: basics.dfy ===
/** Small shared vocabulary: an optional value and real-number helpers. */
module Basics {

  /** Stands in for Python's `None`-or-object references. */
  datatype Option<T> = None | Some(value: T)

  function Abs(v: real): (r: real)
    ensures r >= 0.0
    ensures r == v || r == -v
  {
    if v < 0.0 then -v else v
  }

  function MinR(a: real, b: real): (r: real)
    ensures r <= a && r <= b
    ensures r == a || r == b
  {
    if a <= b then a else b
  }

  function MaxR(a: real, b: real): (r: real)
    ensures r >= a && r >= b
    ensures r == a || r == b
  {
    if a >= b then a else b
  }

  function MinI(a: int, b: int): (r: int)
    ensures r <= a && r <= b
    ensures r == a || r == b
  {
    if a <= b then a else b
  }

  function MaxI(a: int, b: int): (r: int)
    ensures r >= a && r >= b
    ensures r == a || r == b
  {
    if a >= b then a else b
  }
}

=== FILE: buildings.dfy ===
/** The two bases at the ends of the lane (buildings.py). */
module Buildings {
  import opened Basics
  import opened Geometry

  /**
   * A base. `tower` records whether its sprite path names a tower (the
   * `"tower" in sprite_path.lower()` test); the sprite itself is not modelled.
   */
  datatype Base = Base(x: int, y: int, health: real, maxHealth: real,
                       isPlayer: bool, tower: bool, destroyed: bool)

  /** `Base.__init__`: full health, not destroyed. */
  function NewBase(x: int, y: int, health: real, isPlayer: bool, tower: bool): (b: Base)
    ensures b.health == health && b.maxHealth == health
    ensures !b.destroyed
    ensures b.x == x && b.y == y && b.isPlayer == isPlayer && b.tower == tower
  {
    Base(x, y, health, health, isPlayer, tower, false)
  }

  /** The hit box is narrower than the 150px sprite: 25px in from the left, 100 wide, 300 high. */
  function BaseRect(b: Base): Rect
  {
    Rect(b.x + 25, b.y, 100, 300)
  }

  /** `Base.take_damage`: health drops and is clamped at zero, which marks the base destroyed for good. */
  function TakeDamage(b: Base, damage: real): (r: Base)
    ensures r.health == MaxR(0.0, b.health - damage)
    ensures r.health >= 0.0
    ensures r.destroyed <==> (b.destroyed || b.health - damage <= 0.0)
    ensures r == b.(health := r.health, destroyed := r.destroyed)
  {
    var h := b.health - damage;
    if h <= 0.0 then b.(health := 0.0, destroyed := true) else b.(health := h)
  }

  /** Hits accumulate: two hits do exactly what one hit of their sum does. */
  lemma DamageAccumulates(b: Base, d1: real, d2: real)
    requires d1 >= 0.0 && d2 >= 0.0
    ensures TakeDamage(TakeDamage(b, d1), d2) == TakeDamage(b, d1 + d2)
  {
  }

  /** Unlike a unit, a destroyed base has no guard: it takes further hits, stays at 0 and stays destroyed. */
  lemma DestroyedBaseStaysDown(b: Base, d: real)
    requires b.destroyed && b.health == 0.0 && d >= 0.0
    ensures TakeDamage(b, d) == b
  {
  }

  /** Placed on the lane (y 580, height 300), the hit box stands on the ground line. */
  lemma BaseStandsOnGround(b: Base)
    requires b.y == 580
    ensures OnGround(BaseRect(b))
  {
  }
}

=== FILE: collisions.dfy ===
/**
 * One unit's movement step (collisions.py and `Unit.move`): look for a
 * target in range, otherwise try to advance and resolve what the advanced
 * hit box would overlap.
 */
module Collisions {
  import opened Basics
  import opened Geometry
  import opened Factions
  import opened Archetypes
  import opened Units
  import opened Spatial
  import B = Buildings

  /** An entry `(distance, target)` of `potential_targets`. */
  datatype Candidate = Candidate(dist: real, body: Body)

  /** How far the body is from the unit, measured x to x as `find_closest_target` does. */
  function DistTo(u: Unit, b: Body): real
  {
    Abs(u.x - BodyX(b))
  }

  predicate Opposing(u: Unit, o: Unit)
  {
    o.faction != u.faction && o.state != Die
  }

  /** A candidate `find_closest_target` may collect: an opposing live unit or the given base, within range. */
  predicate ValidCandidate(u: Unit, base: B.Base, c: Candidate)
  {
    && c.dist == DistTo(u, c.body)
    && c.dist <= Range(u)
    && (match c.body
        case UnitBody(o) => Opposing(u, o)
        case BaseBody(s) => s == base)
  }

  /** The opposing units of one bucket that are within range, in bucket order. */
  function BucketCandidates(u: Unit, bucket: seq<Unit>): (r: seq<Candidate>)
    ensures forall c :: c in r ==> c.body.UnitBody? && c.body.unit in bucket && Opposing(u, c.body.unit)
                                   && c.dist == DistTo(u, c.body) <= Range(u)
    ensures forall o :: o in bucket && Opposing(u, o) && Abs(u.x - o.x) <= Range(u) ==>
                          Candidate(Abs(u.x - o.x), UnitBody(o)) in r
  {
    if |bucket| == 0 then []
    else
      var o := bucket[0];
      var d := Abs(u.x - o.x);
      (if Opposing(u, o) && d <= Range(u) then [Candidate(d, UnitBody(o))] else [])
        + BucketCandidates(u, bucket[1..])
  }

  /** The buckets `lo`..`hi` in ascending order; absent keys contribute nothing. */
  function RangeCandidates(u: Unit, m: Buckets, lo: int, hi: int): (r: seq<Candidate>)
    ensures forall c :: c in r ==> c.body.UnitBody? && Opposing(u, c.body.unit) && c.dist == DistTo(u, c.body) <= Range(u)
    ensures forall b, o :: lo <= b <= hi && o in Lookup(m, b) && Opposing(u, o) && Abs(u.x - o.x) <= Range(u) ==>
                             Candidate(Abs(u.x - o.x), UnitBody(o)) in r
    decreases hi - lo
  {
    if lo > hi then []
    else BucketCandidates(u, Lookup(m, lo)) + RangeCandidates(u, m, lo + 1, hi)
  }

  /** The buckets covering `[x - range, x + range]`. */
  function ReachLo(u: Unit): int
  {
    FloorDiv(u.x - Range(u), BucketSize)
  }

  function ReachHi(u: Unit): int
  {
    FloorDiv(u.x + Range(u), BucketSize)
  }

  /** `potential_targets`: the units found bucket by bucket, then the base if it is within range. */
  function Candidates(u: Unit, m: Buckets, base: B.Base): (r: seq<Candidate>)
    ensures forall c :: c in r ==> ValidCandidate(u, base, c)
    ensures |r| > 0 && r[|r| - 1].body.BaseBody? ==> forall i :: 0 <= i < |r| - 1 ==> r[i].body.UnitBody?
    ensures Abs(u.x - base.x as real) <= Range(u) ==> |r| > 0 && r[|r| - 1] == Candidate(Abs(u.x - base.x as real), BaseBody(base))
    ensures forall b, o :: ReachLo(u) <= b <= ReachHi(u) && o in Lookup(m, b) && Opposing(u, o) && Abs(u.x - o.x) <= Range(u) ==>
                             Candidate(Abs(u.x - o.x), UnitBody(o)) in r
  {
    var units := RangeCandidates(u, m, ReachLo(u), ReachHi(u));
    var d := Abs(u.x - base.x as real);
    var r := units + (if d <= Range(u) then [Candidate(d, BaseBody(base))] else []);
    assert forall i :: 0 <= i < |units| ==> units[i] in units;
    r
  }

  predicate SortedByDist(s: seq<Candidate>)
  {
    forall i, j :: 0 <= i < j < |s| ==> s[i].dist <= s[j].dist
  }

  /** Insert before the first entry that is not closer: equal distances keep their order. */
  function Insert(c: Candidate, s: seq<Candidate>): (r: seq<Candidate>)
    ensures multiset(r) == multiset(s) + multiset{c}
    ensures forall x :: x in r <==> x == c || x in s
    ensures SortedByDist(s) ==> SortedByDist(r)
  {
    if |s| == 0 || c.dist <= s[0].dist then [c] + s
    else
      var t := Insert(c, s[1..]);
      assert s == [s[0]] + s[1..];
      HeadPrecedesRest(c, s, t);
      if SortedByDist(s) then ConsSorted(s[0], t); [s[0]] + t
      else [s[0]] + t
  }

  lemma ConsSorted(h: Candidate, t: seq<Candidate>)
    requires SortedByDist(t)
    requires forall x :: x in t ==> h.dist <= x.dist
    ensures SortedByDist([h] + t)
  {
    var r := [h] + t;
    forall i, j | 0 <= i < j < |r|
      ensures r[i].dist <= r[j].dist
    {
      assert r[j] == t[j - 1];
      if i > 0 {
        assert r[i] == t[i - 1];
      }
    }
  }

  lemma HeadPrecedesRest(c: Candidate, s: seq<Candidate>, t: seq<Candidate>)
    requires |s| > 0 && c.dist > s[0].dist
    requires forall x :: x in t <==> x == c || x in s[1..]
    ensures SortedByDist(s) ==> SortedByDist(s[1..]) && forall x :: x in t ==> x.dist >= s[0].dist
  {
    if SortedByDist(s) {
      forall x | x in t
        ensures x.dist >= s[0].dist
      {
        if x != c {
          var k :| 0 <= k < |s[1..]| && s[1..][k] == x;
          assert s[k + 1] == x;
        }
      }
    }
  }

  /**
   * `list.sort(key=...)`, which is stable: built by insertion from the back,
   * each element placed in front of the equal ones that came after it.
   */
  function SortByDist(s: seq<Candidate>): (r: seq<Candidate>)
    ensures multiset(r) == multiset(s)
    ensures |r| == |s|
    ensures SortedByDist(r)
  {
    if |s| == 0 then []
    else
      assert s == [s[0]] + s[1..];
      Insert(s[0], SortByDist(s[1..]))
  }

  /** The head of the stable sort is the first entry of minimal distance. */
  lemma {:induction false} SortHeadIsFirstMinimum(s: seq<Candidate>, i: int)
    requires 0 <= i < |s|
    requires forall j :: 0 <= j < |s| ==> s[i].dist <= s[j].dist
    requires forall j :: 0 <= j < i ==> s[j].dist > s[i].dist
    ensures SortByDist(s)[0] == s[i]
    decreases |s|
  {
    var t := SortByDist(s[1..]);
    if i == 0 {
      if |t| > 0 {
        assert t[0] in multiset(s[1..]);
        assert t[0] in s[1..];
      }
    } else {
      SortHeadIsFirstMinimum(s[1..], i - 1);
    }
  }

  /** The head of the sorted list, if there is one: a candidate of minimal distance. */
  function Closest(cands: seq<Candidate>): (r: Option<Body>)
    ensures r.None? <==> |cands| == 0
    ensures r.Some? ==> exists c :: c in cands && c.body == r.value && forall d :: d in cands ==> c.dist <= d.dist
  {
    if |cands| == 0 then None
    else
      SortHeadIsMinimal(cands);
      Some(SortByDist(cands)[0].body)
  }

  /** `find_closest_target`: the head of the sorted candidates, if there are any. */
  function FindClosestTarget(u: Unit, m: Buckets, base: B.Base): (r: Option<Body>)
    ensures r.Some? ==> exists c :: c in Candidates(u, m, base) && c.body == r.value
    ensures r.Some? && r.value.UnitBody? ==> Opposing(u, r.value.unit) && DistTo(u, r.value) <= Range(u)
    ensures r.Some? && r.value.BaseBody? ==> r.value.base == base && Abs(u.x - base.x as real) <= Range(u)
    ensures r.Some? ==> forall c :: c in Candidates(u, m, base) ==> DistTo(u, r.value) <= c.dist
    ensures r.None? ==> Abs(u.x - base.x as real) > Range(u)
    ensures r.None? ==> forall b, o :: ReachLo(u) <= b <= ReachHi(u) && o in Lookup(m, b) && Opposing(u, o) ==>
                                         Abs(u.x - o.x) > Range(u)
  {
    var cands := Candidates(u, m, base);
    var r := Closest(cands);
    assert r.Some? ==> exists c :: c in cands && c.body == r.value && ValidCandidate(u, base, c)
                                   && forall d :: d in cands ==> c.dist <= d.dist;
    r
  }

  lemma SortHeadIsMinimal(s: seq<Candidate>)
    requires |s| > 0
    ensures SortByDist(s)[0] in s
    ensures forall c :: c in s ==> SortByDist(s)[0].dist <= c.dist
  {
    var t := SortByDist(s);
    assert multiset(t) == multiset(s);
    assert t[0] in multiset(t);
    forall c | c in s
      ensures t[0].dist <= c.dist
    {
      assert c in multiset(s);
      assert c in t;
      var k :| 0 <= k < |t| && t[k] == c;
      if k > 0 {
        assert SortedByDist(t);
      }
    }
  }

  /** Index of the first candidate of minimal distance. */
  predicate FirstMinimum(s: seq<Candidate>, i: int)
  {
    && 0 <= i < |s|
    && (forall j :: 0 <= j < |s| ==> s[i].dist <= s[j].dist)
    && (forall j :: 0 <= j < i ==> s[j].dist > s[i].dist)
  }

  /**
   * Ties go to the candidate collected first: since `Candidates` puts the
   * base last, a unit at the same distance as the base wins over it.
   */
  lemma ClosestIsFirstMinimum(cands: seq<Candidate>, i: int)
    requires FirstMinimum(cands, i)
    ensures Closest(cands) == Some(cands[i].body)
  {
    SortHeadIsFirstMinimum(cands, i);
  }

  /** What the movement step hands back: the updated unit and the `(new_x, new_state, target)` triple. */
  datatype Step = Step(unit: Unit, newX: real, newState: State, target: Option<Body>)

  /** A hurt unit keeps reporting "hurt" instead of the state the step would give it. */
  function Keep(u: Unit, s: State): State
  {
    if u.state == Hurt then Hurt else s
  }

  /** The rectangle tested at the tentative position: 3px further right, regular unit size. */
  function ProbeRect(u: Unit, nx: real): Rect
  {
    Rect(Trunc(nx + 3.0), LaneY(u.kind), 120, 192)
  }

  /** Ahead in the unit's walking direction. */
  predicate Ahead(u: Unit, o: Unit)
  {
    if Dir(u) == 1 then o.x > u.x else o.x < u.x
  }

  /** Another live unit whose hit box the probe overlaps. */
  predicate Touches(u: Unit, probe: Rect, o: Unit)
  {
    o.id != u.id && o.state != Die && Collide(probe, RectOf(o))
  }

  predicate BlocksAhead(u: Unit, probe: Rect, o: Unit)
  {
    Touches(u, probe, o) && o.faction == u.faction && Ahead(u, o)
  }

  /** The two findings of the overlap loop: the ally in the way and the first enemy touched. */
  datatype Contact = Contact(blocker: Option<Unit>, enemy: Option<Unit>)

  /** An opposing unit the probe touches. */
  predicate Opposes(u: Unit, probe: Rect, o: Unit)
  {
    Touches(u, probe, o) && o.faction != u.faction
  }

  /** Position `k` holds an opposing unit touched, and none comes before it. */
  predicate FirstOpposingAt(u: Unit, probe: Rect, pool: seq<Unit>, k: int)
  {
    0 <= k < |pool| && Opposes(u, probe, pool[k]) && forall j :: 0 <= j < k ==> !Opposes(u, probe, pool[j])
  }

  /**
   * Skipping a head that does not oppose keeps the first opposing unit of
   * the rest first in the whole pool, one position later.
   */
  lemma FirstOpposingShifts(u: Unit, probe: Rect, pool: seq<Unit>, e: Option<Unit>)
    requires |pool| > 0 && !Opposes(u, probe, pool[0])
    requires e.Some? ==> exists k :: FirstOpposingAt(u, probe, pool[1..], k) && pool[1..][k] == e.value
    ensures e.Some? ==> exists k :: FirstOpposingAt(u, probe, pool, k) && pool[k] == e.value
  {
    if e.Some? {
      var k :| FirstOpposingAt(u, probe, pool[1..], k) && pool[1..][k] == e.value;
      forall j | 0 <= j < k + 1
        ensures !Opposes(u, probe, pool[j])
      {
        if j > 0 {
          assert pool[j] == pool[1..][j - 1];
        }
      }
      assert FirstOpposingAt(u, probe, pool, k + 1);
    }
  }

  /**
   * The overlap loop: stops at the first opposing unit touched; until then,
   * each touching ally ahead replaces the blocker found so far.
   */
  function ScanContacts(u: Unit, probe: Rect, pool: seq<Unit>, blocker: Option<Unit>): (r: Contact)
    ensures r.enemy.Some? ==> r.enemy.value in pool && Touches(u, probe, r.enemy.value)
                              && r.enemy.value.faction != u.faction
    ensures r.enemy.None? ==> forall o :: o in pool && Touches(u, probe, o) ==> o.faction == u.faction
    // the enemy is the first opposing unit the probe touches, in pool order
    ensures r.enemy.Some? ==> exists k :: FirstOpposingAt(u, probe, pool, k) && pool[k] == r.enemy.value
    ensures r.blocker == blocker || (r.blocker.Some? && r.blocker.value in pool && BlocksAhead(u, probe, r.blocker.value))
    ensures r.enemy.None? && (exists o :: o in pool && BlocksAhead(u, probe, o)) ==>
              r.blocker.Some? && r.blocker.value in pool && BlocksAhead(u, probe, r.blocker.value)
    decreases |pool|
  {
    if |pool| == 0 then Contact(blocker, None)
    else
      var o := pool[0];
      assert pool == [o] + pool[1..];
      if !Touches(u, probe, o) then
        var rest := ScanContacts(u, probe, pool[1..], blocker);
        FirstOpposingShifts(u, probe, pool, rest.enemy);
        rest
      else if o.faction == u.faction && Ahead(u, o) then
        var rest := ScanContacts(u, probe, pool[1..], Some(o));
        FirstOpposingShifts(u, probe, pool, rest.enemy);
        rest
      else if o.faction != u.faction then
        assert FirstOpposingAt(u, probe, pool, 0);
        Contact(blocker, Some(o))
      else
        var rest := ScanContacts(u, probe, pool[1..], blocker);
        FirstOpposingShifts(u, probe, pool, rest.enemy);
        rest
  }

  /** The three buckets around the tentative position, unclamped. */
  function ProbePool(nx: real, m: Buckets): seq<Unit>
  {
    var bx := FloorDiv(nx, BucketSize);
    Lookup(m, bx - 1) + Lookup(m, bx) + Lookup(m, bx + 1)
  }

  function Contacts(u: Unit, nx: real, m: Buckets): Contact
  {
    ScanContacts(u, ProbeRect(u, nx), ProbePool(nx, m), None)
  }

  /** Where a step of the unit's own speed would take it. */
  function Advance(u: Unit): real
  {
    u.x + u.speed * Dir(u) as real
  }

  /**
   * The decision of the collision step, given what the two searches found:
   * `t` the target in range, `c` the contacts at the advanced position.
   */
  function Resolve(u: Unit, t: Option<Body>, c: Contact, base: B.Base, now: int): (r: Step)
    // a target in range: hold position and attack it
    ensures t.Some? ==> r == Step(u, u.x, Attack, t)
    // every other outcome reports hurt for a hurt unit, and attacks only with a target
    ensures r.newState == Attack <==> r.target.Some?
    ensures r.newState != Attack ==> r.newState == Keep(u, r.newState) && r.newState in {Idle, Run, Hurt}
    ensures r.newState != Attack ==> (r.newState == Hurt <==> u.state == Hurt)
    // an opposing unit touched: stop one body length short of it, attack only if in range
    ensures t.None? && c.enemy.Some? ==>
              var e := c.enemy.value;
              r.newX == e.x - 120.0 * Dir(u) as real
              && (r.target.Some? <==> InAttackRange(u, UnitBody(e), now).inRange)
              && (r.target.Some? ==> r.target == Some(UnitBody(e)))
              && (r.newState != Attack ==> r.newState == Keep(u, Idle))
    // an ally ahead that stands: the player's unit closes up behind it, the enemy's stays put
    ensures t.None? && c.enemy.None?
              && c.blocker.Some?
              && c.blocker.value.state in {Idle, Attack} ==>
              var a := c.blocker.value;
              r.newX == (if Dir(u) == 1 then a.x - 120.0 else u.x)
              && r.newState == Keep(u, Idle) && r.target.None? && r.unit == u
    // an ally ahead that moves: follow it without passing it, at no more than its speed
    ensures t.None? && c.enemy.None?
              && c.blocker.Some?
              && c.blocker.value.state !in {Idle, Attack} ==>
              var a := c.blocker.value;
              r.newX == (if Dir(u) == 1 then MinR(Advance(u), a.x - 120.0) else MaxR(Advance(u), a.x + 120.0))
              && r.newState == Keep(u, Run) && r.target.None?
              && r.unit.speed == MinR(u.speed, a.speed)
    // the base touched: hold position, attack it only if in range
    ensures t.None? && c == Contact(None, None)
              && Collide(ProbeRect(u, Advance(u)), B.BaseRect(base)) ==>
              r.newX == u.x && (r.target.Some? <==> InAttackRange(u, BaseBody(base), now).inRange)
              && (r.target.Some? ==> r.target == Some(BaseBody(base)))
              && (r.newState != Attack ==> r.newState == Keep(u, Idle))
    // nothing in the way
    ensures t.None? && c == Contact(None, None)
              && !Collide(ProbeRect(u, Advance(u)), B.BaseRect(base)) ==>
              r == Step(u, Advance(u), Keep(u, Run), None)
    // the unit itself changes only in its speed (never raised) and its range-check clock
    ensures r.unit == u.(speed := r.unit.speed, lastRangeCheck := r.unit.lastRangeCheck)
    ensures r.unit.speed <= u.speed
  {
    if t.Some? then Step(u, u.x, Attack, t)
    else
      var nx := Advance(u);
      if c.enemy.Some? then
        var e := c.enemy.value;
        var rc := InAttackRange(u, UnitBody(e), now);
        var stopX := if Dir(u) == 1 then e.x - 120.0 else e.x + 120.0;
        if rc.inRange then Step(rc.unit, stopX, Attack, Some(UnitBody(e)))
        else Step(rc.unit, stopX, Keep(u, Idle), None)
      else if c.blocker.Some? then
        var a := c.blocker.value;
        if a.state == Idle || a.state == Attack then
          Step(u, if Dir(u) == 1 then a.x - 120.0 else u.x, Keep(u, Idle), None)
        else
          var followX := if Dir(u) == 1 then MinR(nx, a.x - 120.0) else MaxR(nx, a.x + 120.0);
          var slowed := if u.speed > a.speed then u.(speed := a.speed) else u;
          Step(slowed, followX, Keep(u, Run), None)
      else if Collide(ProbeRect(u, nx), B.BaseRect(base)) then
        var rc := InAttackRange(u, BaseBody(base), now);
        if rc.inRange then Step(rc.unit, u.x, Attack, Some(BaseBody(base)))
        else Step(rc.unit, u.x, Keep(u, Idle), None)
      else Step(u, nx, Keep(u, Run), None)
  }


  /**
   * `check_player_collisions` (direction 1) and `check_enemy_collisions`
   * (direction -1) as one function; they differ only where `Dir(u)` is tested.
   * Priority: a target in range, an opposing unit touched, an ally ahead
   * touched, the opposing base touched, free movement.
   */
  function CheckCollisions(u: Unit, m: Buckets, base: B.Base, now: int): (r: Step)
    // a target in range: hold position and attack it
    ensures FindClosestTarget(u, m, base).Some? ==> r == Step(u, u.x, Attack, FindClosestTarget(u, m, base))
    // every other outcome reports hurt for a hurt unit, and attacks only with a target
    ensures r.newState == Attack <==> r.target.Some?
    ensures r.newState != Attack ==> r.newState == Keep(u, r.newState) && r.newState in {Idle, Run, Hurt}
    ensures r.newState != Attack ==> (r.newState == Hurt <==> u.state == Hurt)
    // an opposing unit touched: stop one body length short of it, attack only if in range
    ensures FindClosestTarget(u, m, base).None? && Contacts(u, Advance(u), m).enemy.Some? ==>
              var e := Contacts(u, Advance(u), m).enemy.value;
              r.newX == e.x - 120.0 * Dir(u) as real
              && (r.target.Some? <==> InAttackRange(u, UnitBody(e), now).inRange)
              && (r.target.Some? ==> r.target == Some(UnitBody(e)))
              && (r.newState != Attack ==> r.newState == Keep(u, Idle))
    // an ally ahead that stands: the player's unit closes up behind it, the enemy's stays put
    ensures FindClosestTarget(u, m, base).None? && Contacts(u, Advance(u), m).enemy.None?
              && Contacts(u, Advance(u), m).blocker.Some?
              && Contacts(u, Advance(u), m).blocker.value.state in {Idle, Attack} ==>
              var a := Contacts(u, Advance(u), m).blocker.value;
              r.newX == (if Dir(u) == 1 then a.x - 120.0 else u.x)
              && r.newState == Keep(u, Idle) && r.target.None? && r.unit == u
    // an ally ahead that moves: follow it without passing it, at no more than its speed
    ensures FindClosestTarget(u, m, base).None? && Contacts(u, Advance(u), m).enemy.None?
              && Contacts(u, Advance(u), m).blocker.Some?
              && Contacts(u, Advance(u), m).blocker.value.state !in {Idle, Attack} ==>
              var a := Contacts(u, Advance(u), m).blocker.value;
              r.newX == (if Dir(u) == 1 then MinR(Advance(u), a.x - 120.0) else MaxR(Advance(u), a.x + 120.0))
              && r.newState == Keep(u, Run) && r.target.None?
              && r.unit.speed == MinR(u.speed, a.speed)
    // the base touched: hold position, attack it only if in range
    ensures FindClosestTarget(u, m, base).None? && Contacts(u, Advance(u), m) == Contact(None, None)
              && Collide(ProbeRect(u, Advance(u)), B.BaseRect(base)) ==>
              r.newX == u.x && (r.target.Some? <==> InAttackRange(u, BaseBody(base), now).inRange)
              && (r.target.Some? ==> r.target == Some(BaseBody(base)))
              && (r.newState != Attack ==> r.newState == Keep(u, Idle))
    // nothing in the way
    ensures FindClosestTarget(u, m, base).None? && Contacts(u, Advance(u), m) == Contact(None, None)
              && !Collide(ProbeRect(u, Advance(u)), B.BaseRect(base)) ==>
              r == Step(u, Advance(u), Keep(u, Run), None)
    // the unit itself changes only in its speed (never raised) and its range-check clock
    ensures r.unit == u.(speed := r.unit.speed, lastRangeCheck := r.unit.lastRangeCheck)
    ensures r.unit.speed <= u.speed
  {
    Resolve(u, FindClosestTarget(u, m, base), Contacts(u, Advance(u), m), base, now)
  }

  /** The handle a unit keeps for the body it attacks. */
  function Handle(b: Body): Target
  {
    match b
    case UnitBody(o) => UnitRef(o.id)
    case BaseBody(s) => BaseRef(s.isPlayer)
  }

  /**
   * `Unit.move`: attacking and dying units stay put; otherwise take the
   * collision step, move to its x, and either start the attack it asks for
   * or take its state.
   */
  function Move(u: Unit, m: Buckets, base: B.Base, now: int): (r: Unit)
    ensures u.state in {Attack, Die} ==> r == u
    ensures u.state !in {Attack, Die} ==> r.x == CheckCollisions(u, m, base, now).newX
    ensures u.state !in {Attack, Die} && CheckCollisions(u, m, base, now).newState != Attack ==>
              r.state == CheckCollisions(u, m, base, now).newState && r.target == u.target
    // asked to attack with the cooldown over, the unit starts the attack on the body it was given
    ensures u.state !in {Attack, Die} && CheckCollisions(u, m, base, now).newState == Attack && CooldownOver(u, now) ==>
              && r.state == Attack && r.frame == 0 && r.isAttacking && r.lastAttack == now
              && r.target == Some(Handle(CheckCollisions(u, m, base, now).target.value))
    // asked to attack while still cooling down, it keeps its state and its old target
    ensures u.state !in {Attack, Die} && CheckCollisions(u, m, base, now).newState == Attack && !CooldownOver(u, now) ==>
              r.state == u.state && r.target == u.target
    ensures u.state != Attack && r.state == Attack ==> r.target.Some?
    ensures r.state == Die ==> r == u
    ensures r.health == u.health && r.id == u.id && r.faction == u.faction && r.kind == u.kind
    ensures WellFormed(u) ==> WellFormed(r)
  {
    if u.state == Attack || u.state == Die then u
    else
      var s := CheckCollisions(u, m, base, now);
      var moved := s.unit.(x := s.newX);
      if s.newState == Attack && s.target.Some? then StartAttack(moved, Handle(s.target.value), now)
      else moved.(state := s.newState)
  }

  /**
   * A unit whose collision step asks for an attack while its cooldown is not
   * over still moves, but keeps its previous state.
   */
  lemma AttackOnCooldownKeepsState(u: Unit, m: Buckets, base: B.Base, now: int)
    requires u.state !in {Attack, Die}
    requires CheckCollisions(u, m, base, now).newState == Attack
    requires !CooldownOver(u, now)
    ensures Move(u, m, base, now).state == u.state
    ensures Move(u, m, base, now).x == CheckCollisions(u, m, base, now).newX
  {
  }
}

=== FILE: cutscenes.dfy ===
/**
 * The scripted scenes of eventhandler.py: the dialog boxes and the order
 * in which "Okay" dismisses them, the surrender hand-over, the retreat of
 * the player's army to evenly spaced slots and the Bandit King's walk-in.
 */
module Cutscenes {
  import opened Basics
  import opened Archetypes
  import opened Units

  /** The scene flags the game object carries. */
  datatype Flags = Flags(
    showIntro: bool,
    showEndStory: bool,
    showBanditIntro: bool,
    showKingThreat: bool,
    showSurrenderPartTwo: bool,
    showBanditSurrender: bool,
    unitsMovingBack: bool,
    kingMoving: bool,
    enemySpawnsStopped: bool,
    surrenderTriggered: bool)

  /** `is_paused_by_event`: a dialog that waits for "Okay" freezes the battle (the surrender speech does not). */
  predicate Paused(f: Flags)
  {
    f.showIntro || f.showEndStory || f.showBanditIntro || f.showSurrenderPartTwo || f.showKingThreat
  }

  /** The result of an "Okay" click: the new flags, and whether the level was completed by it. */
  datatype Dismissal = Dismissal(flags: Flags, completed: bool)

  function B2I(b: bool): nat
  {
    if b then 1 else 0
  }

  /** Clicks still needed to clear every blocking dialog; the second surrender speech costs two. */
  function Pending(f: Flags): nat
  {
    B2I(f.showIntro) + B2I(f.showEndStory) + B2I(f.showBanditIntro) + B2I(f.showKingThreat)
    + 2 * B2I(f.showSurrenderPartTwo)
  }

  /** The dialogs an "Okay" click can close. */
  datatype Dialog = Intro | EndStory | BanditIntro | KingThreat | SecondSpeech

  /** The dialog on top: the first one shown in the order intro, end story, bandit intro, king threat, second speech. */
  function Top(f: Flags): (d: Option<Dialog>)
    ensures d.None? <==> !Paused(f)
    ensures d == Some(Intro) <==> f.showIntro
    ensures d == Some(EndStory) <==> !f.showIntro && f.showEndStory
    ensures d == Some(BanditIntro) <==> !f.showIntro && !f.showEndStory && f.showBanditIntro
    ensures d == Some(KingThreat) <==> !f.showIntro && !f.showEndStory && !f.showBanditIntro && f.showKingThreat
    ensures d == Some(SecondSpeech) <==>
              !f.showIntro && !f.showEndStory && !f.showBanditIntro && !f.showKingThreat && f.showSurrenderPartTwo
  {
    if f.showIntro then Some(Intro)
    else if f.showEndStory then Some(EndStory)
    else if f.showBanditIntro then Some(BanditIntro)
    else if f.showKingThreat then Some(KingThreat)
    else if f.showSurrenderPartTwo then Some(SecondSpeech)
    else None
  }

  /** Whether dialog `d` is shown; the second speech counts only while the end story is not. */
  predicate Open(f: Flags, d: Dialog)
  {
    match d
    case Intro => f.showIntro
    case EndStory => f.showEndStory
    case BanditIntro => f.showBanditIntro
    case KingThreat => f.showKingThreat
    case SecondSpeech => !f.showEndStory && f.showSurrenderPartTwo
  }

  /**
   * Closing dialog `d` when it is open: its flag drops, and the second
   * surrender speech opens the end story in its place. Either way exactly
   * one pending click is gone and no other flag moves.
   */
  function Close(f: Flags, d: Dialog): (g: Flags)
    requires Open(f, d)
    ensures d == Intro ==> g == f.(showIntro := false)
    ensures d == EndStory ==> g == f.(showEndStory := false)
    ensures d == BanditIntro ==> g == f.(showBanditIntro := false)
    ensures d == KingThreat ==> g == f.(showKingThreat := false)
    ensures d == SecondSpeech ==> g == f.(showSurrenderPartTwo := false, showEndStory := true)
    ensures Pending(g) == Pending(f) - 1
    ensures && g.showBanditSurrender == f.showBanditSurrender && g.unitsMovingBack == f.unitsMovingBack
            && g.kingMoving == f.kingMoving && g.enemySpawnsStopped == f.enemySpawnsStopped
            && g.surrenderTriggered == f.surrenderTriggered
  {
    match d
    case Intro => ClosingIntroDrops(f); f.(showIntro := false)
    case EndStory => ClosingEndStoryDrops(f); f.(showEndStory := false)
    case BanditIntro => ClosingBanditIntroDrops(f); f.(showBanditIntro := false)
    case KingThreat => ClosingKingThreatDrops(f); f.(showKingThreat := false)
    case SecondSpeech => ClosingSecondSpeechDrops(f); f.(showSurrenderPartTwo := false, showEndStory := true)
  }

  /**
   * `handle_events` on an "Okay" click: the highest-priority dialog shown is
   * closed (intro, then end story, then bandit intro, then king threat,
   * then the second surrender speech, which opens the end story instead).
   * Closing the end story completes the level.
   */
  function Dismiss(f: Flags): (r: Dismissal)
    ensures f.showIntro ==> r == Dismissal(f.(showIntro := false), false)
    ensures !f.showIntro && f.showEndStory ==> r == Dismissal(f.(showEndStory := false), true)
    ensures !f.showIntro && !f.showEndStory && f.showBanditIntro ==> r == Dismissal(f.(showBanditIntro := false), false)
    ensures !f.showIntro && !f.showEndStory && !f.showBanditIntro && f.showKingThreat ==>
              r == Dismissal(f.(showKingThreat := false), false)
    ensures !f.showIntro && !f.showEndStory && !f.showBanditIntro && !f.showKingThreat && f.showSurrenderPartTwo ==>
              r == Dismissal(f.(showSurrenderPartTwo := false, showEndStory := true), false)
    ensures !Paused(f) ==> r == Dismissal(f, false)
    // each click while paused takes exactly one click off what is pending, and touches no other flag
    ensures Paused(f) ==> Pending(r.flags) == Pending(f) - 1
    ensures && r.flags.showBanditSurrender == f.showBanditSurrender && r.flags.unitsMovingBack == f.unitsMovingBack
            && r.flags.kingMoving == f.kingMoving && r.flags.enemySpawnsStopped == f.enemySpawnsStopped
            && r.flags.surrenderTriggered == f.surrenderTriggered
    // the level is completed by the click exactly when the end story was the dialog on top
    ensures r.completed <==> !f.showIntro && f.showEndStory
  {
    match Top(f)
    case None => Dismissal(f, false)
    case Some(d) => Dismissal(Close(f, d), d == EndStory)
  }

  /** Each click while paused brings the game one click closer to running; no click is wasted or lost. */
  lemma DismissMakesProgress(f: Flags)
    ensures Paused(f) <==> Pending(f) > 0
    ensures Paused(f) ==> Pending(Dismiss(f).flags) == Pending(f) - 1
    ensures Dismiss(f).flags.showBanditSurrender == f.showBanditSurrender
  {
    PausedIffPending(f);
  }

  lemma PausedIffPending(f: Flags)
    ensures Paused(f) <==> Pending(f) > 0
  {
  }

  // The effect on the click count of closing each dialog.

  lemma ClosingIntroDrops(f: Flags)
    requires f.showIntro
    ensures Pending(f.(showIntro := false)) == Pending(f) - 1
  {
  }

  lemma ClosingEndStoryDrops(f: Flags)
    requires f.showEndStory
    ensures Pending(f.(showEndStory := false)) == Pending(f) - 1
  {
  }

  lemma ClosingBanditIntroDrops(f: Flags)
    requires f.showBanditIntro
    ensures Pending(f.(showBanditIntro := false)) == Pending(f) - 1
  {
  }

  lemma ClosingKingThreatDrops(f: Flags)
    requires f.showKingThreat
    ensures Pending(f.(showKingThreat := false)) == Pending(f) - 1
  {
  }

  /** The second surrender speech gives way to the end story: two pending clicks become one. */
  lemma ClosingSecondSpeechDrops(f: Flags)
    requires !f.showEndStory && f.showSurrenderPartTwo
    ensures Pending(f.(showSurrenderPartTwo := false, showEndStory := true)) == Pending(f) - 1
  {
  }

  /** Clicks in a row. */
  function DismissN(f: Flags, n: nat): Flags
    decreases n
  {
    if n == 0 then f else DismissN(Dismiss(f).flags, n - 1)
  }

  /** Exactly `Pending(f)` clicks resume the battle. */
  lemma {:induction false} PendingClicksResume(f: Flags)
    ensures !Paused(DismissN(f, Pending(f)))
    decreases Pending(f)
  {
    DismissMakesProgress(f);
    var n := Pending(f);
    if n > 0 {
      var g := Dismiss(f).flags;
      assert Pending(g) == n - 1;
      assert DismissN(f, n) == DismissN(g, n - 1);
      PendingClicksResume(g);
    } else {
      assert DismissN(f, n) == f;
    }
  }

  /** The first Bandit Razor in the enemy list (`next(...)` over `isinstance`). */
  function FirstRazor(enemies: seq<Unit>): (r: Option<Unit>)
    ensures r.Some? ==> r.value in enemies && r.value.kind == BanditRazor
    ensures r.None? <==> forall i :: 0 <= i < |enemies| ==> enemies[i].kind != BanditRazor
    decreases |enemies|
  {
    if |enemies| == 0 then None
    else if enemies[0].kind == BanditRazor then Some(enemies[0])
    else
      var r := FirstRazor(enemies[1..]);
      assert forall i :: 1 <= i < |enemies| ==> enemies[i] == enemies[1..][i - 1];
      r
  }

  /** The hand-over distance: the Razor must be within 180px of the king. */
  const HandOverDistance: real := 180.0

  /**
   * `EventHandler.update`: while the surrender speech is shown and the cart,
   * a Razor and the king all exist, the Razor coming within 180px of the
   * king stops the cart and swaps the speech for its second part.
   */
  function SurrenderCheck(f: Flags, cart: Option<Cart>, enemies: seq<Unit>, king: Option<Unit>): (r: (Flags, Option<Cart>))
    ensures var near := f.showBanditSurrender && cart.Some? && FirstRazor(enemies).Some? && king.Some?
                        && Abs(FirstRazor(enemies).value.x - king.value.x) < HandOverDistance;
            && (near ==> r.0 == f.(showBanditSurrender := false, showSurrenderPartTwo := true)
                         && r.1 == Some(cart.value.(moving := false)))
            && (!near ==> r == (f, cart))
    // a hand-over pauses the battle on the second speech and ends the first for good
    ensures r.0 != f ==> Paused(r.0) && r.0.showSurrenderPartTwo && !r.0.showBanditSurrender
    // the cart is kept, never moved, and never set rolling again
    ensures r.1.Some? <==> cart.Some?
    ensures r.1.Some? ==> r.1.value == cart.value.(moving := r.1.value.moving) && (r.1.value.moving ==> cart.value.moving)
  {
    var razor := FirstRazor(enemies);
    if f.showBanditSurrender && cart.Some? && razor.Some? && king.Some?
       && Abs(razor.value.x - king.value.x) < HandOverDistance then
      (f.(showBanditSurrender := false, showSurrenderPartTwo := true), Some(cart.value.(moving := false)))
    else (f, cart)
  }

  /** The hand-over happens at most once: checking again right after changes nothing. */
  lemma SurrenderHappensOnce(f: Flags, cart: Option<Cart>, enemies: seq<Unit>, king: Option<Unit>)
    ensures var r := SurrenderCheck(f, cart, enemies, king);
            SurrenderCheck(r.0, r.1, enemies, king) == r
  {
  }

  // ---- Retreat ----------------------------------------------------------------

  const FrontSlot: int := 768
  const RetreatGap: int := 120
  const RearmostSlot: int := 100
  const RetreatSpeed: real := 1.5

  /** Whether unit `j` comes before unit `k` in `sorted(units, key=x, reverse=True)`, which is stable. */
  predicate Precedes(us: seq<Unit>, j: int, k: int)
    requires 0 <= j < |us| && 0 <= k < |us|
  {
    us[j].x > us[k].x || (j < k && us[j].x == us[k].x)
  }

  /** The units sorted before unit `k`. */
  function Ahead(us: seq<Unit>, k: int): set<int>
    requires 0 <= k < |us|
  {
    set j | 0 <= j < |us| && Precedes(us, j, k)
  }

  /** The position of unit `k` in the stable sort by descending x: the index `enumerate` gives it. */
  function Rank(us: seq<Unit>, k: int): nat
    requires 0 <= k < |us|
  {
    |Ahead(us, k)|
  }

  /** The index set {0, …, n-1}. */
  function Below(n: nat): (r: set<int>)
    ensures forall j :: j in r <==> 0 <= j < n
    ensures |r| == n
  {
    if n == 0 then {} else Below(n - 1) + {n - 1}
  }

  /** A proper subset of a finite set is strictly smaller. */
  lemma ProperSubsetSmaller(a: set<int>, b: set<int>)
    requires a < b
    ensures |a| < |b|
  {
    var d := b - a;
    assert b == a + d;
    assert a * d == {};
  }

  /** Ranks are distinct and below the number of units: they are the sorted positions 0 … n-1. */
  lemma RanksArePositions(us: seq<Unit>, j: int, k: int)
    requires 0 <= j < |us| && 0 <= k < |us| && j != k
    ensures Rank(us, k) < |us|
    ensures Rank(us, j) != Rank(us, k)
  {
    assert k !in Ahead(us, k);
    assert Ahead(us, k) < Below(|us|) by {
      assert k in Below(|us|);
    }
    ProperSubsetSmaller(Ahead(us, k), Below(|us|));
    if Precedes(us, j, k) {
      assert Ahead(us, j) < Ahead(us, k) by {
        assert j in Ahead(us, k) && j !in Ahead(us, j);
      }
      ProperSubsetSmaller(Ahead(us, j), Ahead(us, k));
    } else {
      assert Precedes(us, k, j);
      assert Ahead(us, k) < Ahead(us, j) by {
        assert k in Ahead(us, j) && k !in Ahead(us, k);
      }
      ProperSubsetSmaller(Ahead(us, k), Ahead(us, j));
    }
  }

  /** The slot of the unit at sorted position `i`: 768, 648, 528, … but never behind 100. */
  function Slot(i: nat): (r: real)
    ensures r >= RearmostSlot as real
    ensures r <= FrontSlot as real
    ensures i <= 5 ==> r == (FrontSlot - RetreatGap * i) as real
  {
    MaxI(RearmostSlot, FrontSlot - RetreatGap * i) as real
  }

  /** One retreat step for one unit: the unit itself and whether it moved. */
  datatype Retreat = Retreat(unit: Unit, moved: bool)

  /**
   * A live unit right of its slot runs 3px (twice the retreat speed) to the
   * left; otherwise it is snapped onto the slot, idle, and gets back the
   * speed it had on entry, which after an earlier step is the retreat speed.
   */
  function RetreatStep(u: Unit, i: nat, now: int): (r: Retreat)
    ensures u.state == Die ==> r == Retreat(u, false)
    ensures u.state != Die && u.x > Slot(i) ==>
              r.moved && r.unit.x == u.x - 2.0 * RetreatSpeed && r.unit.speed == RetreatSpeed
              && r.unit.isRetreating && (Frames(u.anim, Run) > 0 ==> r.unit.state == Run)
    ensures u.state != Die && u.x <= Slot(i) ==>
              !r.moved && r.unit.x == Slot(i) && r.unit.state == Idle && !r.unit.isRetreating
              && r.unit.speed == u.speed
    ensures r.unit.id == u.id && r.unit.kind == u.kind && r.unit.faction == u.faction && r.unit.health == u.health
  {
    if u.state == Die then Retreat(u, false)
    else
      var running := u.(state := Run, isRetreating := true, speed := RetreatSpeed);
      if u.x > Slot(i) then
        var stepped := running.(x := u.x - 2.0 * RetreatSpeed);
        Retreat(UpdateAnimation(stepped, now, None).unit, true)
      else
        Retreat(running.(x := Slot(i), state := Idle, isRetreating := false, speed := u.speed), false)
  }

  /** The whole army's step, in list order; each unit uses its sorted position. */
  function RetreatAll(us: seq<Unit>, now: int): (r: seq<Retreat>)
    ensures |r| == |us|
    ensures forall k :: 0 <= k < |us| ==> r[k] == RetreatStep(us[k], Rank(us, k), now)
  {
    seq(|us|, k requires 0 <= k < |us| => RetreatStep(us[k], Rank(us, k), now))
  }

  function UnitsOf(rs: seq<Retreat>): (us: seq<Unit>)
    ensures |us| == |rs|
    ensures forall k :: 0 <= k < |rs| ==> us[k] == rs[k].unit
  {
    seq(|rs|, k requires 0 <= k < |rs| => rs[k].unit)
  }

  /**
   * `handle_units_moving_back`: while the flag is up, every unit takes its
   * retreat step; the flag drops on the first call on which no unit moved.
   */
  function UnitsMovingBack(f: Flags, us: seq<Unit>, now: int): (r: (Flags, seq<Unit>))
    ensures !f.unitsMovingBack ==> r == (f, us)
    ensures f.unitsMovingBack ==>
              && |r.1| == |us|
              && (forall k :: 0 <= k < |us| ==> r.1[k] == RetreatStep(us[k], Rank(us, k), now).unit)
              && (r.0.unitsMovingBack <==> exists k :: 0 <= k < |us| && RetreatStep(us[k], Rank(us, k), now).moved)
              && r.0 == f.(unitsMovingBack := r.0.unitsMovingBack)
  {
    if !f.unitsMovingBack then (f, us)
    else
      var rs := RetreatAll(us, now);
      var anyMoved := exists k :: 0 <= k < |rs| && rs[k].moved;
      (f.(unitsMovingBack := anyMoved), UnitsOf(rs))
  }

  /** Every live unit ends a retreat step at or right of 97, never behind the rearmost slot by more than one step. */
  lemma RetreatStaysOnField(us: seq<Unit>, now: int, k: int)
    requires 0 <= k < |us| && us[k].state != Die && us[k].x >= RearmostSlot as real
    ensures RetreatStep(us[k], Rank(us, k), now).unit.x >= RearmostSlot as real - 2.0 * RetreatSpeed
  {
  }

  /**
   * A unit that had to walk keeps the retreat speed after it arrives: the
   * speed saved on entry to the arriving call is already 1.5.
   */
  lemma RetreatLeavesRetreatSpeed(u: Unit, i: nat, now: int, later: int)
    requires u.state != Die && u.x > Slot(i) && u.x - 2.0 * RetreatSpeed <= Slot(i)
    ensures var walked := RetreatStep(u, i, now).unit;
            RetreatStep(walked, i, later).unit.speed == RetreatSpeed
            && RetreatStep(walked, i, later).unit.state == Idle
  {
  }

  // ---- King walk-in -----------------------------------------------------------

  const KingStop: real := 1152.0

  datatype KingWalk = KingWalk(king: Unit, moving: bool, threat: bool)

  /**
   * `handle_king_moving`: the king runs left by his speed until he is no
   * longer right of 1152, then stands there idle and makes his threat.
   */
  function KingStep(w: KingWalk, now: int): (r: KingWalk)
    ensures !w.moving ==> r == w
    ensures w.moving && w.king.x > KingStop ==>
              r.moving && r.king.x == w.king.x - w.king.speed && r.threat == w.threat
              && (Frames(w.king.anim, Run) > 0 ==> r.king.state == Run)
    ensures w.moving && w.king.x <= KingStop ==>
              !r.moving && r.threat && r.king.x == KingStop && r.king.state == Idle
    ensures r.king.speed == w.king.speed
  {
    if !w.moving then w
    else
      var running := w.king.(state := Run);
      if w.king.x > KingStop then
        KingWalk(UpdateAnimation(running.(x := w.king.x - w.king.speed), now, None).unit, true, w.threat)
      else
        KingWalk(running.(x := KingStop, state := Idle), false, true)
  }

  function KingSteps(w: KingWalk, now: int, n: nat): KingWalk
    decreases n
  {
    if n == 0 then w else KingSteps(KingStep(w, now), now, n - 1)
  }

  /** The king, walking at a positive speed, arrives within `n` calls once `n - 1` strides cover the distance. */
  lemma {:induction false} KingArrives(w: KingWalk, now: int, n: nat)
    requires w.moving && w.king.speed > 0.0
    requires n >= 1 && (n - 1) as real * w.king.speed >= w.king.x - KingStop
    ensures !KingSteps(w, now, n).moving && KingSteps(w, now, n).threat
    ensures KingSteps(w, now, n).king.x == KingStop
    decreases n
  {
    var w1 := KingStep(w, now);
    if w.king.x > KingStop {
      assert n >= 2;
      assert (n - 2) as real * w.king.speed >= w1.king.x - KingStop by {
        assert (n - 1) as real * w.king.speed == (n - 2) as real * w.king.speed + w.king.speed;
      }
      KingArrives(w1, now, n - 1);
    } else {
      StoppedStaysStopped(w1, now, n - 1);
    }
  }

  lemma {:induction false} StoppedStaysStopped(w: KingWalk, now: int, n: nat)
    requires !w.moving
    ensures KingSteps(w, now, n) == w
    decreases n
  {
    if n > 0 {
      StoppedStaysStopped(KingStep(w, now), now, n - 1);
    }
  }
}

=== FILE: factions.dfy ===
/**
 * The four sides of the war and the stat multipliers each applies once,
 * when one of its units is spawned (factions.py and `Game.FACTION_MAP`).
 */
module Factions {

  /** The faction strings the game passes around: "Player", "Bandits", "Undead", "Zombies". */
  datatype FactionKind = Player | Bandits | Undead | Zombies

  /** A `Faction` object: its lower-case name and the three spawn multipliers. */
  datatype Faction = Faction(name: string, healthMod: real, attackMod: real, speedMod: real)

  /** The modifier object `FACTION_MAP` holds for each faction string. */
  function Modifiers(k: FactionKind): (f: Faction)
    ensures 0.0 < f.healthMod <= 1.0 && 0.0 < f.attackMod <= 1.0 && 0.0 < f.speedMod <= 1.0
    ensures (f.healthMod == 1.0 && f.attackMod == 1.0 && f.speedMod == 1.0) <==> (k == Player || k == Undead)
    ensures f.name == "player" <==> k == Player
  {
    match k
    case Player => Faction("player", 1.0, 1.0, 1.0)
    case Bandits => Faction("bandits", 0.5, 0.5, 0.5)
    case Undead => Faction("undead", 1.0, 1.0, 1.0)
    case Zombies => Faction("zombies", 0.8, 0.9, 0.7)
  }

  /** Units of the player face right (+1); every other faction walks left (-1). */
  function Direction(k: FactionKind): (d: int)
    ensures d == 1 || d == -1
    ensures d == 1 <==> k == Player
  {
    if k == Player then 1 else -1
  }
}

=== FILE: game.dfy ===
/**
 * The rules of the `Game` object of game_logic.py that are not movement:
 * the seed drops a kill leaves behind, spawning (cost, placement and the
 * spawn-time stat formulas), the in-battle upgrade, the kill rewards, the
 * reaping of finished corpses and the end-of-tick outcome.
 */
module Game {
  import opened Basics
  import opened Factions
  import opened Archetypes
  import opened Units
  import opened Upgrades
  import opened Text
  import A = Achievements
  import C = Cutscenes
  import L = Levels
  import B = Buildings

  // ---- Seed drops -------------------------------------------------------------

  /** The y of every drop: the ground line less the sprite's height. */
  const DropY: int := 880
  const Lifetime: int := 5000
  const FadeTime: int := 1000
  const Opaque: real := 255.0

  /** A draw of `random.uniform(-20, 20)`. */
  type Scatter = s: real | -20.0 <= s <= 20.0

  datatype SeedDrop = SeedDrop(x: real, y: int, value: int, created: int, alpha: real)

  /** `SeedDrop.__init__`: scattered up to 20px either side of the kill, fully opaque. */
  function NewSeedDrop(x: real, scatter: Scatter, value: int, now: int): (d: SeedDrop)
    ensures x - 20.0 <= d.x <= x + 20.0
    ensures d.y == DropY && d.value == value && d.created == now && d.alpha == Opaque
  {
    SeedDrop(x + scatter, DropY, value, now, Opaque)
  }

  /** `is_expired`: a drop lives 5 seconds. */
  predicate Expired(d: SeedDrop, now: int)
  {
    now - d.created >= Lifetime
  }

  /**
   * `SeedDrop.update`: during the last second of its life a drop fades
   * linearly from opaque to invisible; before that nothing changes.
   */
  function SeedUpdate(d: SeedDrop, now: int): (r: SeedDrop)
    ensures r.(alpha := d.alpha) == d
    ensures now - d.created <= Lifetime - FadeTime ==> r == d
    ensures Lifetime - FadeTime < now - d.created < Lifetime ==> 0.0 < r.alpha < Opaque
    ensures Expired(d, now) ==> r.alpha == 0.0
  {
    var elapsed := now - d.created;
    if elapsed > Lifetime - FadeTime then
      d.(alpha := MaxR(0.0, Opaque * (Lifetime - elapsed) as real / FadeTime as real))
    else d
  }

  /** Fading never reverses: later updates of a fading drop are never more opaque. */
  lemma FadeIsMonotone(d: SeedDrop, t1: int, t2: int)
    requires Lifetime - FadeTime < t1 - d.created && t1 <= t2
    ensures SeedUpdate(d, t2).alpha <= SeedUpdate(d, t1).alpha
  {
    var e1 := t1 - d.created;
    var e2 := t2 - d.created;
    assert (Lifetime - e2) as real <= (Lifetime - e1) as real;
    assert Opaque * (Lifetime - e2) as real <= Opaque * (Lifetime - e1) as real;
  }

  /** The drops that outlive this tick, each updated: an expired drop is never drawn. */
  function DropsStep(drops: seq<SeedDrop>, now: int): (r: seq<SeedDrop>)
    ensures |r| <= |drops|
    ensures forall e :: e in r ==> !Expired(e, now) && (now - e.created > Lifetime - FadeTime ==> 0.0 < e.alpha < Opaque)
    ensures forall d :: d in drops && !Expired(d, now) ==> SeedUpdate(d, now) in r
    ensures forall e :: e in r ==> exists d :: d in drops && !Expired(d, now) && e == SeedUpdate(d, now)
    decreases |drops|
  {
    if |drops| == 0 then []
    else
      var rest := DropsStep(drops[1..], now);
      assert forall d :: d in drops[1..] ==> d in drops;
      if Expired(drops[0], now) then rest else [SeedUpdate(drops[0], now)] + rest
  }

  // ---- Placement -------------------------------------------------------------

  const UnitWidth: real := 120.0
  const PlayerSpawnX: real := 100.0
  const EnemySpawnX: real := 1820.0

  /** Whether a unit already on the field blocks the spot `x`: alive and closer than a unit width. */
  predicate Blocks(u: Unit, x: real)
  {
    Abs(x - u.x) < UnitWidth && u.state != Die
  }

  function LiveCount(us: seq<Unit>): (n: nat)
    ensures n <= |us|
  {
    if |us| == 0 then 0 else (if us[0].state != Die then 1 else 0) + LiveCount(us[1..])
  }

  datatype Placement = Placement(x: real, shifts: nat)

  /**
   * The spawn-point scan of `spawn_unit` and `spawn_enemy_unit`: one pass
   * over the army in list order, moving the spot one unit width (`step`) on
   * every live unit that blocks it at the time it is looked at.
   */
  function Place(x: real, us: seq<Unit>, step: real): (p: Placement)
    ensures p.shifts <= LiveCount(us)
    ensures p.x == x + Offset(p.shifts, step)
    ensures (forall i :: 0 <= i < |us| ==> !Blocks(us[i], x)) ==> p == Placement(x, 0)
    decreases |us|
  {
    if |us| == 0 then Placement(x, 0)
    else if Blocks(us[0], x) then
      var rest := Place(x + step, us[1..], step);
      OffsetStep(rest.shifts, step);
      Placement(rest.x, rest.shifts + 1)
    else
      var rest := Place(x, us[1..], step);
      assert (forall i :: 0 <= i < |us| ==> !Blocks(us[i], x)) ==> rest == Placement(x, 0) by {
        if forall i :: 0 <= i < |us| ==> !Blocks(us[i], x) {
          assert forall i :: 0 <= i < |us[1..]| ==> us[1..][i] == us[i + 1];
        }
      }
      rest
  }

  /** `n` steps of `step`, added up one at a time. */
  function Offset(n: nat, step: real): (r: real)
    ensures step <= 0.0 ==> r <= 0.0
    ensures step >= 0.0 ==> r >= 0.0
  {
    if n == 0 then 0.0 else step + Offset(n - 1, step)
  }

  lemma OffsetStep(n: nat, step: real)
    ensures step + Offset(n, step) == Offset(n + 1, step)
  {
  }

  /** The offset is the product of the number of steps and the step. */
  lemma {:induction false} OffsetIsProduct(n: nat, step: real)
    ensures Offset(n, step) == n as real * step
  {
    if n > 0 {
      OffsetIsProduct(n - 1, step);
      assert n as real * step == (n - 1) as real * step + step;
    }
  }

  /** The scan only ever moves the player's spawn back and the enemy's spawn out. */
  lemma PlacementSides(us: seq<Unit>)
    ensures Place(PlayerSpawnX, us, -UnitWidth).x <= PlayerSpawnX
    ensures Place(EnemySpawnX, us, UnitWidth).x >= EnemySpawnX
  {
  }

  /**
   * A single pass is not a search for a free spot: a unit already passed
   * can block the spot the scan ends on. With live units at -20 and then
   * at 100, the spawn point moves from 100 to -20, onto the first unit.
   */
  lemma SinglePassCanLandOnAUnit(a: Unit, b: Unit)
    requires a.x == -20.0 && b.x == 100.0 && a.state != Die && b.state != Die
    ensures Place(PlayerSpawnX, [a, b], -UnitWidth).x == -20.0
    ensures Blocks(a, Place(PlayerSpawnX, [a, b], -UnitWidth).x)
  {
    assert !Blocks(a, PlayerSpawnX);
    assert Blocks(b, PlayerSpawnX);
    assert [a, b][1..] == [b];
    assert [b][1..] == [];
  }

  // ---- Spawn stats -----------------------------------------------------------

  const MinCooldown: real := 200.0
  /** The attack-speed increase assumed when a table has none. */
  const DefaultAttackSpeedFactor: real := 0.075

  lemma DivNoLarger(a: real, d: real)
    requires a >= 0.0 && d >= 1.0
    ensures a / d <= a
  {
    var q := a / d;
    assert q * d == a;
    assert q >= 0.0;
    assert q * d >= q * 1.0;
  }

  /**
   * The cooldown after `level` attack-speed upgrades of `factor` each:
   * the class cooldown divided by `1 + level * factor`, never below 200 ms.
   */
  function Cooldown(base: real, level: int, factor: real): (r: real)
    requires base >= MinCooldown && level >= 0 && factor >= 0.0
    ensures MinCooldown <= r <= base
  {
    MulNonNeg(level as real, factor);
    DivNoLarger(base, 1.0 + level as real * factor);
    MaxR(MinCooldown, base / (1.0 + level as real * factor))
  }

  /** More attack-speed levels never slow a unit down. */
  lemma CooldownShrinksWithLevel(base: real, l1: int, l2: int, factor: real)
    requires base >= MinCooldown && 0 <= l1 <= l2 && factor >= 0.0
    ensures Cooldown(base, l2, factor) <= Cooldown(base, l1, factor)
  {
    var d1 := 1.0 + l1 as real * factor;
    var d2 := 1.0 + l2 as real * factor;
    assert d1 <= d2 by {
      MulNonNeg((l2 - l1) as real, factor);
      assert l2 as real * factor - l1 as real * factor == (l2 - l1) as real * factor;
    }
    MulNonNeg(l1 as real, factor);
    DivAntitone(base, d1, d2);
  }

  lemma DivAntitone(a: real, d1: real, d2: real)
    requires a >= 0.0 && 1.0 <= d1 <= d2
    ensures a / d2 <= a / d1
  {
    var q1 := a / d1;
    var q2 := a / d2;
    assert q1 * d1 == a && q2 * d2 == a;
    assert q2 * d1 <= q2 * d2;
  }

  /**
   * The stat changes `spawn_unit` applies to a freshly built unit: the
   * faction's multipliers, then the upgrades bought in the menu.
   */
  function Upgraded(u: Unit, tbl: Table): (r: Unit)
    requires NonNegative(tbl)
    requires u.attackCooldown >= MinCooldown
    ensures var m := Modifiers(u.faction);
            var key := UpgradeKey(u.kind);
            && r.maxHealth == u.maxHealth * m.healthMod + Bonus(tbl, key, Health)
            && r.health == r.maxHealth
            && r.attackPower == u.attackPower * m.attackMod + Bonus(tbl, key, Damage)
            && r.speed == u.speed * m.speedMod + Bonus(tbl, key, MovementSpeed)
            && r.attackCooldown == Cooldown(u.attackCooldown, LevelOf(tbl, key, AttackSpeed),
                                            IncreaseOf(tbl, key, AttackSpeed, DefaultAttackSpeedFactor))
            && MinCooldown <= r.attackCooldown <= u.attackCooldown
            && r.attackFrameDelay * AttackFrames == r.attackCooldown
            && r.(maxHealth := u.maxHealth, health := u.health, attackPower := u.attackPower, speed := u.speed,
                  attackCooldown := u.attackCooldown, attackFrameDelay := u.attackFrameDelay) == u
  {
    var m := Modifiers(u.faction);
    var key := UpgradeKey(u.kind);
    var mh := u.maxHealth * m.healthMod + Bonus(tbl, key, Health);
    var cd := Cooldown(u.attackCooldown, LevelOf(tbl, key, AttackSpeed),
                       IncreaseOf(tbl, key, AttackSpeed, DefaultAttackSpeedFactor));
    u.(maxHealth := mh, health := mh,
       attackPower := u.attackPower * m.attackMod + Bonus(tbl, key, Damage),
       speed := u.speed * m.speedMod + Bonus(tbl, key, MovementSpeed),
       attackCooldown := cd, attackFrameDelay := cd / AttackFrames)
  }

  /** The default increase only stands in when the table has no attack-speed entry, and then no level is bought either. */
  lemma NoEntryNoSpeedUp(u: Unit, tbl: Table)
    requires NonNegative(tbl) && u.attackCooldown >= MinCooldown
    requires EntryOf(tbl, UpgradeKey(u.kind), AttackSpeed).None?
    ensures Upgraded(u, tbl).attackCooldown == u.attackCooldown
  {
  }

  /** A player unit as `spawn_unit` builds it: class stats, the player's multipliers of 1, and the upgrades bought. */
  function Enlist(id: nat, kind: Archetype, x: real, tbl: Table, now: int, anim: Anim): (u: Unit)
    requires NonNegative(tbl)
    ensures u.kind == kind && u.faction == Player && u.id == id && u.x == x && u.state == Idle
    ensures u.health == u.maxHealth == StatsOf(kind).health + Bonus(tbl, UpgradeKey(kind), Health)
    ensures u.attackPower == StatsOf(kind).attack + Bonus(tbl, UpgradeKey(kind), Damage)
    ensures u.speed == StatsOf(kind).speed + Bonus(tbl, UpgradeKey(kind), MovementSpeed)
    ensures MinCooldown <= u.attackCooldown <= StatsOf(kind).cooldown
    ensures u.attackCooldown == Cooldown(StatsOf(kind).cooldown, LevelOf(tbl, UpgradeKey(kind), AttackSpeed),
                                         IncreaseOf(tbl, UpgradeKey(kind), AttackSpeed, DefaultAttackSpeedFactor))
    ensures u.attackFrameDelay * AttackFrames == u.attackCooldown
  {
    var m := Modifiers(Player);
    assert m.healthMod == 1.0 && m.attackMod == 1.0 && m.speedMod == 1.0;
    var recruit := NewUnit(id, kind, Player, x, now, anim);
    Upgraded(recruit, tbl)
  }

  /** The outcome of a spawn request: the purse, the army and the new unit, if any. */
  datatype Spawned = Spawned(seeds: real, units: seq<Unit>, spawned: Option<Unit>)

  /**
   * `spawn_unit`: refused without change when the seeds do not cover the
   * class cost; otherwise the cost is paid and one enlisted unit is added
   * to the end of the army at the scanned spawn point.
   */
  function SpawnUnit(seeds: real, units: seq<Unit>, kind: Archetype, tbl: Table,
                     id: nat, now: int, anim: Anim): (r: Spawned)
    requires NonNegative(tbl)
    ensures seeds < StatsOf(kind).cost as real <==> r.spawned.None?
    ensures r.spawned.None? ==> r == Spawned(seeds, units, None)
    ensures r.spawned.Some? ==>
              && r.seeds == seeds - StatsOf(kind).cost as real
              && r.units == units + [r.spawned.value]
              && r.spawned.value.x == Place(PlayerSpawnX, units, -UnitWidth).x <= PlayerSpawnX
              && r.spawned.value == Enlist(id, kind, r.spawned.value.x, tbl, now, anim)
  {
    var cost := StatsOf(kind).cost as real;
    if seeds < cost then Spawned(seeds, units, None)
    else
      PlacementSides(units);
      var u := Enlist(id, kind, Place(PlayerSpawnX, units, -UnitWidth).x, tbl, now, anim);
      Spawned(seeds - cost, units + [u], Some(u))
  }

  /** The event a successful spawn reports to the achievement tracker. */
  function SpawnEvent(u: Unit): (e: A.Event)
    ensures e.UnitSpawned? && e.unitName == StatsOf(u.kind).name
  {
    A.UnitSpawned(StatsOf(u.kind).name)
  }

  /** Spawning a Tank earns "Spawn a Tank"; no other class does. */
  lemma TankSpawnEarnsTankAchievement(t: A.Tracker, u: Unit, now: int)
    ensures A.Earns(t, SpawnEvent(u), now, A.SpawnATank) <==> u.kind == PlayerTank
  {
    match u.kind
    case PlayerTank =>
    case PlayerPeasant => assert StatsOf(u.kind).name[7] != "Player_Tank"[7];
    case PlayerArcher => assert StatsOf(u.kind).name[7] != "Player_Tank"[7];
    case PlayerWarrior => assert StatsOf(u.kind).name[7] != "Player_Tank"[7];
    case BanditRazor => assert StatsOf(u.kind).name[0] != "Player_Tank"[0];
    case BanditMadman => assert StatsOf(u.kind).name[0] != "Player_Tank"[0];
    case BanditArcher => assert StatsOf(u.kind).name[0] != "Player_Tank"[0];
    case BanditTank => assert StatsOf(u.kind).name[0] != "Player_Tank"[0];
    case BanditKing => assert StatsOf(u.kind).name[0] != "Player_Tank"[0];
    case ZombieMelee => assert StatsOf(u.kind).name[0] != "Player_Tank"[0];
    case ZombieArcher => assert StatsOf(u.kind).name[0] != "Player_Tank"[0];
    case ZombieAssassin => assert StatsOf(u.kind).name[0] != "Player_Tank"[0];
    case ZombieFarmer => assert StatsOf(u.kind).name[0] != "Player_Tank"[0];
    case ZombieTank => assert StatsOf(u.kind).name[0] != "Player_Tank"[0];
    case UndeadAxeman => assert StatsOf(u.kind).name[0] != "Player_Tank"[0];
    case UndeadKing => assert StatsOf(u.kind).name[0] != "Player_Tank"[0];
    case UndeadMage => assert StatsOf(u.kind).name[0] != "Player_Tank"[0];
    case UndeadSamurai => assert StatsOf(u.kind).name[0] != "Player_Tank"[0];
    case UndeadWarrior => assert StatsOf(u.kind).name[0] != "Player_Tank"[0];
  }

  /** An enemy as `spawn_enemy_unit` builds it: class stats scaled by the faction's multipliers. */
  function Recruit(id: nat, kind: Archetype, faction: FactionKind, x: real, now: int, anim: Anim): (u: Unit)
    ensures u.kind == kind && u.faction == faction && u.id == id && u.x == x && u.state == Idle
    ensures u.maxHealth == StatsOf(kind).health * Modifiers(faction).healthMod && u.health == u.maxHealth
    ensures u.attackPower == StatsOf(kind).attack * Modifiers(faction).attackMod
    ensures u.speed == StatsOf(kind).speed * Modifiers(faction).speedMod
    ensures u.attackCooldown == StatsOf(kind).cooldown
  {
    var u := NewUnit(id, kind, faction, x, now, anim);
    var m := Modifiers(faction);
    var mh := u.maxHealth * m.healthMod;
    u.(maxHealth := mh, health := mh, attackPower := u.attackPower * m.attackMod, speed := u.speed * m.speedMod)
  }

  /**
   * `spawn_enemy_unit`: nothing while spawns are stopped or the level's pool
   * is empty; otherwise the drawn class is recruited at the scanned spot
   * right of 1820 with its faction's multipliers (and no upgrades).
   */
  function SpawnEnemyUnit(stopped: bool, level: L.Level, pick: nat, enemies: seq<Unit>,
                          id: nat, now: int, anim: Anim): (r: seq<Unit>)
    ensures stopped || |level.pool| == 0 ==> r == enemies
    ensures !stopped && |level.pool| > 0 ==>
              && |r| == |enemies| + 1 && r[..|enemies|] == enemies
              && r[|enemies|].kind == L.NextEnemyUnit(level.pool, pick).value
              && r[|enemies|].kind in level.pool
              && r[|enemies|].x == Place(EnemySpawnX, enemies, UnitWidth).x >= EnemySpawnX
              && r[|enemies|] == Recruit(id, r[|enemies|].kind, level.faction, r[|enemies|].x, now, anim)
  {
    if stopped then enemies
    else
      match L.NextEnemyUnit(level.pool, pick)
      case None => enemies
      case Some(kind) =>
        PlacementSides(enemies);
        var u := Recruit(id, kind, level.faction, Place(EnemySpawnX, enemies, UnitWidth).x, now, anim);
        assert (enemies + [u])[..|enemies|] == enemies;
        enemies + [u]
  }

  // ---- The level-5 script ----------------------------------------------------

  const KingSpawnX: real := 1670.0
  const CartSpawnX: real := 2000.0
  /** The cart stops 50px short of the king. */
  const CartShortOfKing: real := 50.0

  datatype KingEntrance = KingEntrance(flags: C.Flags, enemies: seq<Unit>, king: Unit)

  /**
   * `spawn_bandit_king`: the king joins the enemy list at 1670 with his
   * class stats (no faction multipliers), the army starts its retreat, the
   * king his walk-in, spawns stop and the intro dialog opens.
   */
  function SpawnBanditKing(f: C.Flags, enemies: seq<Unit>, faction: FactionKind,
                           id: nat, now: int, anim: Anim): (r: KingEntrance)
    ensures r.enemies == enemies + [r.king]
    ensures r.king.kind == BanditKing && r.king.x == KingSpawnX && r.king.faction == faction
    ensures r.king.health == r.king.maxHealth == StatsOf(BanditKing).health && r.king.state == Idle
    ensures r.flags == f.(showBanditIntro := true, unitsMovingBack := true, kingMoving := true,
                          enemySpawnsStopped := true, surrenderTriggered := false)
  {
    var king := NewUnit(id, BanditKing, faction, KingSpawnX, now, anim);
    KingEntrance(f.(showBanditIntro := true, unitsMovingBack := true, kingMoving := true,
                    enemySpawnsStopped := true, surrenderTriggered := false),
                 enemies + [king], king)
  }

  datatype Escort = Escort(enemies: seq<Unit>, razor: Unit, cart: Cart)

  /**
   * `spawn_cart_and_razor`: a Razor at 1820 slowed to 1.5 joins the enemy
   * list, and a cart enters at 2000 rolling left towards `king.x - 50`.
   */
  function SpawnCartAndRazor(enemies: seq<Unit>, king: Unit, faction: FactionKind,
                             id: nat, now: int, anim: Anim): (r: Escort)
    ensures r.enemies == enemies + [r.razor]
    ensures r.razor.kind == BanditRazor && r.razor.x == EnemySpawnX && r.razor.speed == C.RetreatSpeed
    ensures r.cart == NewCart(CartSpawnX, king.x - CartShortOfKing)
    ensures r.cart.x == CartSpawnX && r.cart.targetX == king.x - CartShortOfKing && r.cart.speed < 0.0
  {
    var razor := NewUnit(id, BanditRazor, faction, EnemySpawnX, now, anim).(speed := C.RetreatSpeed);
    Escort(enemies + [razor], razor, NewCart(CartSpawnX, king.x - CartShortOfKing))
  }

  /**
   * The escort's cart, for a king standing left of the cart's entry point,
   * only ever rolls left from 2000 and comes to rest no more than one
   * 1.5 px step past the point 50 px short of the king.
   */
  lemma EscortCartStopsNearKing(enemies: seq<Unit>, king: Unit, faction: FactionKind,
                                id: nat, now: int, anim: Anim, n: nat)
    requires king.x <= CartSpawnX
    ensures var c := SpawnCartAndRazor(enemies, king, faction, id, now, anim).cart;
            && king.x - CartShortOfKing - 1.5 <= CartUpdates(c, n).x <= CartSpawnX
            && CartUpdates(c, n + 1).x <= CartUpdates(c, n).x
  {
    CartSettles(SpawnCartAndRazor(enemies, king, faction, id, now, anim).cart, n);
  }

  /**
   * The king's entrance pauses the battle behind the bandit intro, and the
   * king it adds, walking from 1670 at his class speed of 2, stands at 1152
   * with his threat made once the walk-in handler has run 260 times.
   */
  lemma BanditKingEntrance(f: C.Flags, enemies: seq<Unit>, faction: FactionKind,
                           id: nat, now: int, anim: Anim, later: int, n: nat)
    requires n >= 260
    ensures var r := SpawnBanditKing(f, enemies, faction, id, now, anim);
            && C.Paused(r.flags) && r.flags.kingMoving
            && var w := C.KingSteps(C.KingWalk(r.king, true, false), later, n);
               !w.moving && w.threat && w.king.x == C.KingStop
  {
    var r := SpawnBanditKing(f, enemies, faction, id, now, anim);
    assert r.king.speed == 2.0;
    assert (n - 1) as real * r.king.speed >= r.king.x - C.KingStop;
    C.KingArrives(C.KingWalk(r.king, true, false), later, n);
  }

  // ---- Upgrades bought in battle -----------------------------------------------

  /** The outcome of an upgrade request: secured seeds, tables, the unit, and the event reported. */
  datatype UpgradeResult = UpgradeResult(secured: int, table: Table, unit: Unit, event: Option<A.Event>)

  /** Whether an upgrade of `stat` for this unit goes through. */
  predicate Buys(secured: int, tbl: Table, u: Unit, stat: string)
  {
    EntryOf(tbl, UpgradeKey(u.kind), stat).Some? && u.state != Die
    && secured >= EntryOf(tbl, UpgradeKey(u.kind), stat).value.cost
  }

  /**
   * The body of `apply_upgrade` once the table entry has been looked up
   * under `stat`: a missing entry, a dying unit or too few secured seeds
   * change nothing; otherwise the price is paid, the level goes up, the
   * unit gains what `upgradeType` names, and the tracker is told.
   */
  function ApplyUpgradeWith(secured: int, tbl: Table, u: Unit, upgradeType: string, stat: string): (r: UpgradeResult)
    requires NonNegative(tbl)
    ensures NonNegative(r.table)
    ensures !Buys(secured, tbl, u, stat) ==> r == UpgradeResult(secured, tbl, u, None)
    ensures Buys(secured, tbl, u, stat) ==>
              var key := UpgradeKey(u.kind);
              var e := tbl[key][stat];
              && r.secured == secured - e.cost
              && r.table == BumpLevel(tbl, key, stat)
              && r.event == Some(A.UpgradeApplied(upgradeType))
              && (upgradeType == "health" ==>
                    r.unit == u.(maxHealth := u.maxHealth + e.increase, health := u.health + e.increase))
              && (upgradeType == "damage" ==> r.unit == u.(attackPower := u.attackPower + e.increase))
              && (upgradeType == "attack speed" ==>
                    && r.unit.attackCooldown == Cooldown(StatsOf(u.kind).cooldown, e.level + 1, e.increase)
                    && r.unit.attackFrameDelay * AttackFrames == r.unit.attackCooldown
                    && r.unit == u.(attackCooldown := r.unit.attackCooldown, attackFrameDelay := r.unit.attackFrameDelay))
              && (upgradeType == "movement speed" ==> r.unit == u.(speed := u.speed + e.increase))
              && (upgradeType !in {"health", "damage", "attack speed", "movement speed"} ==> r.unit == u)
  {
    var key := UpgradeKey(u.kind);
    if !Buys(secured, tbl, u, stat) then UpgradeResult(secured, tbl, u, None)
    else
      var e := tbl[key][stat];
      BumpKeepsNonNegative(tbl, key, stat);
      UpgradeResult(secured - e.cost, BumpLevel(tbl, key, stat), Boosted(u, upgradeType, e), Some(A.UpgradeApplied(upgradeType)))
  }

  /** What one bought level of entry `e` does to the unit, by upgrade name. */
  function Boosted(u: Unit, upgradeType: string, e: Entry): (r: Unit)
    requires e.level >= 0 && e.increase >= 0.0
    ensures upgradeType == "health" ==> r == u.(maxHealth := u.maxHealth + e.increase, health := u.health + e.increase)
    ensures upgradeType == "damage" ==> r == u.(attackPower := u.attackPower + e.increase)
    ensures upgradeType == "attack speed" ==>
              && r.attackCooldown == Cooldown(StatsOf(u.kind).cooldown, e.level + 1, e.increase)
              && r.attackFrameDelay * AttackFrames == r.attackCooldown
              && r == u.(attackCooldown := r.attackCooldown, attackFrameDelay := r.attackFrameDelay)
    ensures upgradeType == "movement speed" ==> r == u.(speed := u.speed + e.increase)
    ensures upgradeType !in {"health", "damage", "attack speed", "movement speed"} ==> r == u
  {
    if upgradeType == "health" then u.(maxHealth := u.maxHealth + e.increase, health := u.health + e.increase)
    else if upgradeType == "damage" then u.(attackPower := u.attackPower + e.increase)
    else if upgradeType == "attack speed" then
      var cd := Cooldown(StatsOf(u.kind).cooldown, e.level + 1, e.increase);
      u.(attackCooldown := cd, attackFrameDelay := cd / AttackFrames)
    else if upgradeType == "movement speed" then u.(speed := u.speed + e.increase)
    else u
  }

  /**
   * What `str.capitalize()` makes of the four upgrade names: "health" and
   * "damage" become table keys, "attack speed" and "movement speed" do not,
   * because the second word keeps its lower-case initial.
   */
  lemma CapitalizedUpgradeNames()
    ensures Capitalize("health") == Health && Capitalize("damage") == Damage
    ensures Capitalize("attack speed") !in StatNames && Capitalize("movement speed") !in StatNames
  {
    CapitalizedHealth();
    CapitalizedDamage();
    CapitalizedAttackSpeed();
    CapitalizedMovementSpeed();
  }

  /** "health" capitalizes to the key "Health", character by character. */
  lemma CapitalizedHealth()
    ensures Capitalize("health") == Health
  {
    var h := Capitalize("health");
    assert h[0] == 'H' && h[1] == 'e' && h[2] == 'a' && h[3] == 'l' && h[4] == 't' && h[5] == 'h';
    assert forall i :: 0 <= i < 6 ==> h[i] == Health[i];
  }

  /** "damage" capitalizes to the key "Damage", character by character. */
  lemma CapitalizedDamage()
    ensures Capitalize("damage") == Damage
  {
    var d := Capitalize("damage");
    assert d[0] == 'D' && d[1] == 'a' && d[2] == 'm' && d[3] == 'a' && d[4] == 'g' && d[5] == 'e';
    assert forall i :: 0 <= i < 6 ==> d[i] == Damage[i];
  }

  /** "Attack speed" differs from the key "Attack Speed" in its eighth character. */
  lemma CapitalizedAttackSpeed()
    ensures Capitalize("attack speed") !in StatNames
  {
    var a := Capitalize("attack speed");
    assert a[7] == 's' && AttackSpeed[7] == 'S';
    assert |a| == |AttackSpeed| == 12 != |Health|;
    assert |MovementSpeed| == 14;
  }

  /** "Movement speed" differs from the key "Movement Speed" in its tenth character. */
  lemma CapitalizedMovementSpeed()
    ensures Capitalize("movement speed") !in StatNames
  {
    var m := Capitalize("movement speed");
    assert m[9] == 's' && MovementSpeed[9] == 'S';
    assert |m| == |MovementSpeed| == 14 != |Health|;
    assert |AttackSpeed| == 12;
  }

  /**
   * `apply_upgrade` as written: the stat is looked up under
   * `upgradeType.capitalize()`. Health and damage behave as intended; the
   * two speed upgrades never go through on a class with the standard stats.
   */
  function ApplyUpgrade(secured: int, tbl: Table, u: Unit, upgradeType: string): (r: UpgradeResult)
    requires NonNegative(tbl)
    ensures r == ApplyUpgradeWith(secured, tbl, u, upgradeType, Capitalize(upgradeType))
    ensures upgradeType in {"health", "damage"} ==> r == ApplyUpgradeIntended(secured, tbl, u, upgradeType)
    ensures upgradeType in {"attack speed", "movement speed"}
            && (UpgradeKey(u.kind) in tbl ==> tbl[UpgradeKey(u.kind)].Keys <= StatNames) ==>
              r == UpgradeResult(secured, tbl, u, None)
  {
    CapitalizedUpgradeNames();
    ApplyUpgradeWith(secured, tbl, u, upgradeType, Capitalize(upgradeType))
  }

  /** The table key an upgrade name evidently means: its title-case stat name. */
  function IntendedKey(upgradeType: string): (k: string)
    ensures upgradeType in {"health", "damage", "attack speed", "movement speed"} ==> k in StatNames
  {
    if upgradeType == "health" then Health
    else if upgradeType == "damage" then Damage
    else if upgradeType == "attack speed" then AttackSpeed
    else if upgradeType == "movement speed" then MovementSpeed
    else Capitalize(upgradeType)
  }

  /**
   * `apply_upgrade` with the lookup it evidently intends: on a class the
   * tables know, each of the four upgrades goes through exactly when the
   * unit lives and the seeds cover the price, and then pays it, raises the
   * level by one and gives the unit that level's boost.
   */
  function ApplyUpgradeIntended(secured: int, tbl: Table, u: Unit, upgradeType: string): (r: UpgradeResult)
    requires NonNegative(tbl)
    ensures r == ApplyUpgradeWith(secured, tbl, u, upgradeType, IntendedKey(upgradeType))
    ensures upgradeType in {"health", "damage", "attack speed", "movement speed"}
            && UpgradeKey(u.kind) in tbl && StatNames <= tbl[UpgradeKey(u.kind)].Keys ==>
              (r.event.Some? <==> u.state != Die && secured >= tbl[UpgradeKey(u.kind)][IntendedKey(upgradeType)].cost)
    ensures r.event.Some? ==>
              var k := UpgradeKey(u.kind);
              var s := IntendedKey(upgradeType);
              && k in tbl && s in tbl[k]
              && r.event == Some(A.UpgradeApplied(upgradeType))
              && r.table[k][s].level == tbl[k][s].level + 1
              && r.secured == secured - tbl[k][s].cost
              && r.unit == Boosted(u, upgradeType, tbl[k][s])
    ensures r.event.None? ==> r == UpgradeResult(secured, tbl, u, None)
  {
    ApplyUpgradeWith(secured, tbl, u, upgradeType, IntendedKey(upgradeType))
  }

  /**
   * The discrepancy on the default tables: a live Peasant with 1000 seeds
   * secured asks for "attack speed"; as written nothing is bought, while
   * the intended lookup sells the upgrade.
   */
  lemma SpeedUpgradeLostOnDefaults(u: Unit)
    requires u.kind == PlayerPeasant && u.state != Die
    ensures NonNegative(Defaults) && ApplyUpgrade(1000, Defaults, u, "attack speed").event.None?
    ensures NonNegative(Defaults) && ApplyUpgradeIntended(1000, Defaults, u, "attack speed").event == Some(A.UpgradeApplied("attack speed"))
  {
    DefaultsAreSane();
    DefaultsUseStatNames("Peasant");
  }

  /**
   * The menu hands back a bought stat in lower case; the intended lookup
   * turns it back into the stat that was bought, for all four stats.
   */
  lemma IntendedKeyInvertsLower(stat: string)
    requires stat in StatNames
    ensures IntendedKey(Lower(stat)) == stat
  {
    if stat == Health {
      assert Lower(stat) == "health";
    } else if stat == Damage {
      assert Lower(stat) == "damage";
    } else if stat == AttackSpeed {
      assert Lower(stat) == "attack speed";
    } else {
      assert Lower(stat) == "movement speed";
    }
  }

  /** One more level adds exactly one increase to the bonus a spawn receives. */
  lemma BonusStep(tbl: Table, key: string, stat: string)
    requires NonNegative(tbl) && key in tbl && stat in tbl[key]
    ensures NonNegative(BumpLevel(tbl, key, stat))
    ensures Bonus(BumpLevel(tbl, key, stat), key, stat) == Bonus(tbl, key, stat) + tbl[key][stat].increase
  {
    BumpKeepsNonNegative(tbl, key, stat);
    var e := tbl[key][stat];
    var t := BumpLevel(tbl, key, stat);
    BonusOfEntry(t, key, stat, e.(level := e.level + 1));
    BonusOfEntry(tbl, key, stat, e);
    assert (e.level + 1) as real * e.increase == e.level as real * e.increase + e.increase;
  }

  /**
   * A health or damage upgrade bought in battle gives the unit exactly what
   * the new level adds to every unit spawned afterwards.
   */
  lemma BattleUpgradeMatchesSpawn(secured: int, tbl: Table, u: Unit)
    requires NonNegative(tbl)
    requires Buys(secured, tbl, u, Health)
    requires Buys(secured, tbl, u, Damage)
    ensures var r := ApplyUpgradeIntended(secured, tbl, u, "health");
            NonNegative(r.table) && r.unit.maxHealth - u.maxHealth == Bonus(r.table, UpgradeKey(u.kind), Health) - Bonus(tbl, UpgradeKey(u.kind), Health)
    ensures var r := ApplyUpgradeIntended(secured, tbl, u, "damage");
            NonNegative(r.table) && r.unit.attackPower - u.attackPower == Bonus(r.table, UpgradeKey(u.kind), Damage) - Bonus(tbl, UpgradeKey(u.kind), Damage)
  {
    BonusStep(tbl, UpgradeKey(u.kind), Health);
    BonusStep(tbl, UpgradeKey(u.kind), Damage);
  }

  // ---- Rewards ----------------------------------------------------------------

  /** `get_seed_reward`: the table by class name, 5 for a class it does not list. */
  function SeedReward(k: Archetype): (r: nat)
    ensures r >= 5
  {
    match k
    case PlayerPeasant => 5
    case PlayerArcher => 10
    case PlayerWarrior => 15
    case PlayerTank => 20
    case ZombieMelee => 5
    case ZombieArcher => 10
    case ZombieTank => 20
    case ZombieAssassin => 15
    case BanditKing => 50
    case _ => 5
  }

  /** `get_xp_reward`: the table by class name, 10 for a class it does not list. */
  function XpReward(k: Archetype): (r: nat)
    ensures r >= 10
  {
    match k
    case PlayerPeasant => 10
    case PlayerArcher => 15
    case PlayerWarrior => 20
    case PlayerTank => 25
    case ZombieMelee => 10
    case ZombieArcher => 15
    case ZombieTank => 25
    case ZombieAssassin => 20
    case BanditKing => 100
    case _ => 10
  }

  /** The two tables move together: experience is five more than seeds, except the king's, which is double. */
  lemma XpFollowsSeeds(k: Archetype)
    ensures k != BanditKing ==> XpReward(k) == SeedReward(k) + 5
    ensures k == BanditKing ==> XpReward(k) == 2 * SeedReward(k)
  {
  }

  // ---- Reaping ----------------------------------------------------------------

  /** A corpse whose death animation has reached its last frame. */
  predicate Finished(u: Unit)
  {
    u.state == Die && u.frame >= Frames(u.anim, Die) - 1
  }

  /** The list comprehension that drops finished corpses, keeping the order of the rest. */
  function Reap(us: seq<Unit>): (r: seq<Unit>)
    ensures |r| <= |us|
    ensures forall u :: u in r <==> u in us && !Finished(u)
    decreases |us|
  {
    if |us| == 0 then []
    else
      var rest := Reap(us[1..]);
      assert forall u :: u in us <==> u == us[0] || u in us[1..];
      if Finished(us[0]) then rest else [us[0]] + rest
  }

  /** The finished corpses, in list order. */
  function Dead(us: seq<Unit>): (r: seq<Unit>)
    ensures |r| <= |us|
    ensures forall u :: u in r <==> u in us && Finished(u)
    decreases |us|
  {
    if |us| == 0 then []
    else
      var rest := Dead(us[1..]);
      assert forall u :: u in us <==> u == us[0] || u in us[1..];
      if Finished(us[0]) then [us[0]] + rest else rest
  }

  /** Reaping twice is reaping once. */
  lemma {:induction false} ReapIdempotent(us: seq<Unit>)
    ensures Reap(Reap(us)) == Reap(us)
    decreases |us|
  {
    if |us| > 0 {
      ReapIdempotent(us[1..]);
      if !Finished(us[0]) {
        assert ([us[0]] + Reap(us[1..]))[1..] == Reap(us[1..]);
      }
    }
  }

  /**
   * Reaping and collecting the dead work element by element: a single
   * unit is kept or taken by whether it is finished, and a split list is
   * handled part by part, so both keep the list order.
   */
  lemma {:induction false} ReapAndDeadDistribute(a: seq<Unit>, b: seq<Unit>)
    ensures Reap(a + b) == Reap(a) + Reap(b)
    ensures Dead(a + b) == Dead(a) + Dead(b)
    decreases |a|
  {
    if |a| > 0 {
      assert (a + b)[1..] == a[1..] + b;
      ReapAndDeadDistribute(a[1..], b);
    } else {
      assert a + b == b;
    }
  }

  /** On one unit, reaping keeps it exactly when it is not finished and collecting takes it exactly when it is. */
  lemma ReapAndDeadOfOne(u: Unit)
    ensures Reap([u]) == (if Finished(u) then [] else [u])
    ensures Dead([u]) == (if Finished(u) then [u] else [])
  {
    assert [u][1..] == [];
  }

  /** Every unit is either reaped or kept, never both and never neither. */
  lemma {:induction false} ReapPartitions(us: seq<Unit>)
    ensures |Reap(us)| + |Dead(us)| == |us|
    decreases |us|
  {
    if |us| > 0 {
      ReapPartitions(us[1..]);
    }
  }

  // ---- Harvest of the enemy dead --------------------------------------------------

  function SeedTotal(dead: seq<Unit>): nat
  {
    if |dead| == 0 then 0 else SeedReward(dead[0].kind) + SeedTotal(dead[1..])
  }

  function XpTotal(dead: seq<Unit>): nat
  {
    if |dead| == 0 then 0 else XpReward(dead[0].kind) + XpTotal(dead[1..])
  }

  /** Experience always outgrows seeds: at least five more per kill. */
  lemma {:induction false} XpOutpacesSeeds(dead: seq<Unit>)
    ensures XpTotal(dead) >= SeedTotal(dead) + 5 * |dead|
  {
    if |dead| > 0 {
      XpFollowsSeeds(dead[0].kind);
      XpOutpacesSeeds(dead[1..]);
    }
  }

  /** One drop spot per seed earned: `SeedReward` copies of each corpse's x. */
  function Spots(dead: seq<Unit>): (r: seq<real>)
    ensures |r| == SeedTotal(dead)
    ensures forall x :: x in r ==> exists u :: u in dead && u.x == x
  {
    if |dead| == 0 then []
    else
      var rest := Spots(dead[1..]);
      assert forall u :: u in dead[1..] ==> u in dead;
      seq(SeedReward(dead[0].kind), _ => dead[0].x) + rest
  }

  /** The kill reports: the enemy update always names "Player" as the killer. */
  function KillEvents(dead: seq<Unit>): (es: seq<A.Event>)
    ensures |es| == |dead|
    ensures forall i :: 0 <= i < |dead| ==> es[i] == A.UnitKilled(StatsOf(dead[i].kind).name, Some("Player"))
  {
    seq(|dead|, i requires 0 <= i < |dead| => A.UnitKilled(StatsOf(dead[i].kind).name, Some("Player")))
  }

  /** Because the killer is always "Player", no kill in battle ever earns "Kill with Archer". */
  lemma BattleKillsNeverCreditArchers(dead: seq<Unit>, t: A.Tracker, now: int, i: int)
    requires 0 <= i < |dead|
    ensures !A.Earns(t, KillEvents(dead)[i], now, A.KillWithArcher)
  {
    assert Some("Player") != Some("Player_Archer") by {
      assert |"Player"| != |"Player_Archer"|;
    }
  }

  datatype Harvest = Harvest(enemies: seq<Unit>, seeds: real, xp: int, kingFell: bool,
                             spots: seq<real>, events: seq<A.Event>)

  /**
   * The dead-enemy step of `Game.update`: every finished enemy pays its
   * seed and experience rewards, leaves one drop per seed, reports its
   * kill and leaves the list; whether the king was among them is reported.
   */
  function HarvestDead(enemies: seq<Unit>, seeds: real, xp: int): (r: Harvest)
    ensures r.enemies == Reap(enemies)
    ensures r.seeds == seeds + |r.spots| as real
    ensures r.xp >= xp + |r.spots| + 5 * |Dead(enemies)|
    ensures r.seeds == seeds + SeedTotal(Dead(enemies)) as real && r.xp == xp + XpTotal(Dead(enemies))
    ensures r.kingFell <==> exists u :: u in enemies && Finished(u) && u.kind == BanditKing
    ensures forall x :: x in r.spots ==> exists u :: u in enemies && Finished(u) && u.x == x
    ensures r.events == KillEvents(Dead(enemies))
  {
    var dead := Dead(enemies);
    XpOutpacesSeeds(dead);
    var kingFell := exists i :: 0 <= i < |dead| && dead[i].kind == BanditKing;
    assert kingFell <==> exists u :: u in enemies && Finished(u) && u.kind == BanditKing by {
      if exists u :: u in enemies && Finished(u) && u.kind == BanditKing {
        var u :| u in enemies && Finished(u) && u.kind == BanditKing;
        assert u in dead;
      }
    }
    Harvest(Reap(enemies), seeds + SeedTotal(dead) as real, xp + XpTotal(dead), kingFell,
            Spots(dead), KillEvents(dead))
  }

  /** The drops a harvest leaves, each scattered by its own draw. */
  function NewDrops(spots: seq<real>, scatter: nat -> Scatter, now: int): (r: seq<SeedDrop>)
    ensures |r| == |spots|
    ensures forall i :: 0 <= i < |spots| ==> r[i] == NewSeedDrop(spots[i], scatter(i), 1, now)
  {
    seq(|spots|, i requires 0 <= i < |spots| => NewSeedDrop(spots[i], scatter(i), 1, now))
  }

  /**
   * The drops of a tick: the new drops join the list, then every expired
   * drop leaves it and every other one is updated.
   */
  function AddDrops(drops: seq<SeedDrop>, spots: seq<real>, scatter: nat -> Scatter, now: int): (r: seq<SeedDrop>)
    ensures forall e :: e in r ==> !Expired(e, now)
    ensures forall e :: e in drops && !Expired(e, now) ==> SeedUpdate(e, now) in r
    ensures |r| <= |drops| + |spots|
  {
    var all := drops + NewDrops(spots, scatter, now);
    assert forall e :: e in drops ==> e in all;
    DropsStep(all, now)
  }

  // ---- End of the tick ----------------------------------------------------------

  const SpawnInterval: int := 3000
  const MaxXp: int := 100
  const KingLevel: int := 5

  /** The enemy spawn timer: due every 3 seconds unless spawns are stopped. */
  predicate SpawnDue(stopped: bool, now: int, lastSpawn: int)
  {
    !stopped && now - lastSpawn >= SpawnInterval
  }

  /** What the base checks at the end of `update` decide. */
  datatype Outcome =
    | Continue    // neither base is down, or the king is already on the field
    | Defeat      // the player's base is down
    | KingArrives // level 5's enemy base is down: the Bandit King comes out
    | Victory     // any other level's enemy base is down: the level is complete

  function Decide(playerBase: B.Base, enemyBase: B.Base, level: int, kingPresent: bool): (o: Outcome)
    ensures o == Defeat <==> playerBase.health <= 0.0
    ensures o == KingArrives <==> playerBase.health > 0.0 && enemyBase.health <= 0.0 && level == KingLevel && !kingPresent
    ensures o == Victory <==> playerBase.health > 0.0 && enemyBase.health <= 0.0 && level != KingLevel
    ensures o == Continue <==> playerBase.health > 0.0 && (enemyBase.health > 0.0 || (level == KingLevel && kingPresent))
  {
    if playerBase.health <= 0.0 then Defeat
    else if enemyBase.health <= 0.0 then
      if level == KingLevel && !kingPresent then KingArrives
      else if level != KingLevel then Victory
      else Continue
    else Continue
  }

  /** The parts of the battle state the bookkeeping of `update` reads and writes. */
  datatype Battle = Battle(
    level: L.Level,
    seeds: real,
    xp: int,
    units: seq<Unit>,
    enemies: seq<Unit>,
    drops: seq<SeedDrop>,
    flags: C.Flags,
    kingPresent: bool,
    lastSpawn: int,
    levelUpAvailable: bool,
    gameOver: bool,
    won: bool,
    completed: bool,
    playerBase: B.Base,
    enemyBase: B.Base)

  /** The random draws and fresh identities one tick may use. */
  datatype Draws = Draws(scatter: nat -> Scatter, pick: nat, enemyId: nat, kingId: nat, anim: Anim, kingAnim: Anim)

  /** Whether a king is still on the field once this tick's dead are gone. */
  predicate KingSurvives(b: Battle)
  {
    b.kingPresent && !(exists u :: u in b.enemies && Finished(u) && u.kind == BanditKing)
  }

  /**
   * The bookkeeping of `Game.update` before the base checks: finished
   * player corpses are reaped, the enemy dead are harvested, seed drops are
   * added, aged and culled, the spawn timer may add an enemy and the
   * level-up flag follows the experience. The events are the kill reports.
   */
  function Collect(b: Battle, now: int, d: Draws): (r: (Battle, seq<A.Event>))
    ensures r.0.units == Reap(b.units)
    ensures r.0.seeds == b.seeds + SeedTotal(Dead(b.enemies)) as real && r.0.xp == b.xp + XpTotal(Dead(b.enemies))
    ensures r.0.seeds >= b.seeds && r.0.xp >= b.xp
    ensures r.0.levelUpAvailable <==> r.0.xp >= MaxXp
    ensures forall e :: e in r.0.drops ==> !Expired(e, now)
    ensures forall u :: u in r.0.enemies ==> !Finished(u)
    ensures |Reap(b.enemies)| <= |r.0.enemies| <= |Reap(b.enemies)| + 1
            && r.0.enemies[..|Reap(b.enemies)|] == Reap(b.enemies)
    ensures !SpawnDue(b.flags.enemySpawnsStopped, now, b.lastSpawn) ==>
              r.0.enemies == Reap(b.enemies) && r.0.lastSpawn == b.lastSpawn
    ensures forall e :: e in b.drops && !Expired(e, now) ==> SeedUpdate(e, now) in r.0.drops
    ensures r.0.kingPresent == KingSurvives(b)
    ensures r.0.completed <==> b.completed || (b.kingPresent && !KingSurvives(b) && b.level.number == KingLevel)
    ensures r.0.(seeds := b.seeds, xp := b.xp, units := b.units, enemies := b.enemies, drops := b.drops,
                 kingPresent := b.kingPresent, lastSpawn := b.lastSpawn,
                 levelUpAvailable := b.levelUpAvailable, completed := b.completed) == b
    ensures r.1 == KillEvents(Dead(b.enemies))
  {
    var h := Reaped(b, now, d);
    var timed := SpawnTimer(b.flags.enemySpawnsStopped, b.level, now, b.lastSpawn, h.0.enemies, d);
    (h.0.(enemies := timed.0, lastSpawn := timed.1, levelUpAvailable := h.0.xp >= MaxXp), h.1)
  }

  /**
   * The reaping half of `Collect`: both armies lose their finished
   * corpses, the enemy dead are paid for and leave their drops, and the
   * king's fall is noted.
   */
  function Reaped(b: Battle, now: int, d: Draws): (r: (Battle, seq<A.Event>))
    ensures r.0.units == Reap(b.units) && r.0.enemies == Reap(b.enemies)
    ensures r.0.seeds == b.seeds + SeedTotal(Dead(b.enemies)) as real && r.0.xp == b.xp + XpTotal(Dead(b.enemies))
    ensures forall e :: e in r.0.drops ==> !Expired(e, now)
    ensures forall e :: e in b.drops && !Expired(e, now) ==> SeedUpdate(e, now) in r.0.drops
    ensures r.0.kingPresent == KingSurvives(b)
    ensures r.0.completed <==> b.completed || (b.kingPresent && !KingSurvives(b) && b.level.number == KingLevel)
    ensures r.0.(seeds := b.seeds, xp := b.xp, units := b.units, enemies := b.enemies, drops := b.drops,
                 kingPresent := b.kingPresent, completed := b.completed) == b
    ensures r.1 == KillEvents(Dead(b.enemies))
  {
    var h := HarvestDead(b.enemies, b.seeds, b.xp);
    var kingPresent := b.kingPresent && !h.kingFell;
    var completed := b.completed || (h.kingFell && b.kingPresent && b.level.number == KingLevel);
    var drops := AddDrops(b.drops, h.spots, d.scatter, now);
    (b.(seeds := h.seeds, xp := h.xp, units := Reap(b.units), enemies := h.enemies,
        drops := drops, kingPresent := kingPresent, completed := completed),
     h.events)
  }

  /** The enemy spawn timer of `Game.update`: a due timer spawns one enemy and restarts. */
  function SpawnTimer(stopped: bool, level: L.Level, now: int, lastSpawn: int, enemies: seq<Unit>, d: Draws): (r: (seq<Unit>, int))
    requires forall u :: u in enemies ==> !Finished(u)
    ensures forall u :: u in r.0 ==> !Finished(u)
    ensures !SpawnDue(stopped, now, lastSpawn) ==> r == (enemies, lastSpawn)
    ensures SpawnDue(stopped, now, lastSpawn) ==> r.1 == now && |enemies| <= |r.0| <= |enemies| + 1
    ensures |enemies| <= |r.0| && r.0[..|enemies|] == enemies
    ensures SpawnDue(stopped, now, lastSpawn) && |level.pool| > 0 ==>
              |r.0| == |enemies| + 1 && r.0[|enemies|].kind in level.pool
  {
    if SpawnDue(stopped, now, lastSpawn) then
      var es := SpawnEnemyUnit(false, level, d.pick, enemies, d.enemyId, now, d.anim);
      assert |level.pool| > 0 ==> es == enemies + [es[|enemies|]];
      (es, now)
    else (enemies, lastSpawn)
  }

  /**
   * The base checks that close `Game.update`: a fallen player base ends the
   * game in defeat; a fallen enemy base on level 5 clears the field and
   * brings out the king; on any other level it clears the field and
   * completes the level.
   */
  function Conclude(b: Battle, now: int, kingId: nat, kingAnim: Anim): (r: Battle)
    ensures match Decide(b.playerBase, b.enemyBase, b.level.number, b.kingPresent)
            case Defeat => r == b.(gameOver := true, won := false)
            case KingArrives =>
              && r.kingPresent && |r.enemies| == 1 && r.enemies[0].kind == BanditKing
              && r.enemies[0].x == KingSpawnX && r.enemies[0].state == Idle
              && r.flags.enemySpawnsStopped && r.flags.kingMoving && r.flags.unitsMovingBack
              && r.(enemies := b.enemies, flags := b.flags, kingPresent := b.kingPresent) == b
            case Victory => r == b.(enemies := [], flags := b.flags.(enemySpawnsStopped := true), completed := true)
            case Continue => r == b
    ensures r.units == b.units && r.drops == b.drops && r.seeds == b.seeds && r.xp == b.xp
    ensures forall u :: u in r.enemies ==> u in b.enemies || u.state == Idle
  {
    match Decide(b.playerBase, b.enemyBase, b.level.number, b.kingPresent)
    case Defeat => b.(gameOver := true, won := false)
    case KingArrives =>
      var k := SpawnBanditKing(b.flags.(enemySpawnsStopped := true), [], b.level.faction, kingId, now, kingAnim);
      b.(enemies := k.enemies, flags := k.flags, kingPresent := true)
    case Victory => b.(enemies := [], flags := b.flags.(enemySpawnsStopped := true), completed := true)
    case Continue => b
  }

  /**
   * The whole bookkeeping: after it no finished corpse is left in either
   * army and no expired drop is left on the ground.
   */
  function Settle(b: Battle, now: int, d: Draws): (r: (Battle, seq<A.Event>))
    ensures forall u :: u in r.0.units ==> !Finished(u)
    ensures forall u :: u in r.0.enemies ==> !Finished(u)
    ensures forall e :: e in r.0.drops ==> !Expired(e, now)
    ensures r.0.seeds >= b.seeds
    ensures r.0.seeds == b.seeds + SeedTotal(Dead(b.enemies)) as real && r.0.xp == b.xp + XpTotal(Dead(b.enemies))
    ensures r.0.units == Reap(b.units)
    ensures forall u :: u in b.units && !Finished(u) ==> u in r.0.units
    ensures forall e :: e in b.drops && !Expired(e, now) ==> SeedUpdate(e, now) in r.0.drops
    ensures r.1 == KillEvents(Dead(b.enemies))
  {
    var c := Collect(b, now, d);
    (Conclude(c.0, now, d.kingId, d.kingAnim), c.1)
  }
}

=== FILE: geometry.dfy ===
/**
 * The parts of pygame's `Rect` that the battle logic relies on: integer
 * coordinates (floats are truncated on the way in) and `colliderect`.
 * Python's float floor division `int(x // n)` is here too, because the
 * spatial buckets are computed with it.
 */
module Geometry {

  /** pygame keeps rectangle coordinates as C ints; a float is truncated toward zero. */
  function Trunc(v: real): (r: int)
    ensures v >= 0.0 ==> r as real <= v < r as real + 1.0
    ensures v < 0.0 ==> r as real - 1.0 < v <= r as real
  {
    if v >= 0.0 then v.Floor else -((-v).Floor)
  }

  /** Python's `int(v // d)` for a float `v` and a positive int `d`: floor division. */
  function FloorDiv(v: real, d: int): (r: int)
    requires d > 0
    ensures r as real * d as real <= v < (r + 1) as real * d as real
  {
    var q := v / d as real;
    var f := q.Floor;
    assert q * d as real == v;
    MulPositive(f as real, q, d as real);
    MulPositive(q, (f + 1) as real, d as real);
    f
  }

  lemma MulPositive(a: real, b: real, d: real)
    requires d > 0.0
    ensures a <= b ==> a * d <= b * d
    ensures a < b ==> a * d < b * d
  {
  }

  /** Floor division is monotone: this is what makes bucket ranges contiguous. */
  lemma FloorDivMonotone(a: real, b: real, d: int)
    requires d > 0 && a <= b
    ensures FloorDiv(a, d) <= FloorDiv(b, d)
  {
    var fa := FloorDiv(a, d);
    var fb := FloorDiv(b, d);
    LessThroughChain(fa as real * d as real, a, b, (fb + 1) as real * d as real);
    MulCancel(fa as real, (fb + 1) as real, d as real);
  }

  lemma LessThroughChain(p: real, a: real, b: real, q: real)
    requires p <= a <= b < q
    ensures p < q
  {
  }

  lemma MulCancel(x: real, y: real, d: real)
    requires d > 0.0 && x * d < y * d
    ensures x < y
  {
    MulPositive(y, x, d);
  }

  datatype Rect = Rect(left: int, top: int, width: int, height: int)
  {
    function Right(): int { left + width }
    function Bottom(): int { top + height }
  }

  /**
   * `Rect.colliderect`: rectangles of zero size never collide; otherwise the
   * open interiors must overlap on both axes (touching edges do not collide).
   * Every rectangle built by the game has a positive width and height.
   */
  predicate Collide(a: Rect, b: Rect)
  {
    && a.width != 0 && a.height != 0 && b.width != 0 && b.height != 0
    && a.left < b.Right() && b.left < a.Right()
    && a.top < b.Bottom() && b.top < a.Bottom()
  }

  /** The strict x-interval overlap that `Collide` reduces to on the lane. */
  predicate XOverlap(a: Rect, b: Rect)
  {
    a.left < b.Right() && b.left < a.Right()
  }

  /** The ground line: units (y 688, h 192), the king (y 592, h 288) and bases (y 580, h 300) all stand on it. */
  const Ground: int := 880

  predicate OnGround(r: Rect)
  {
    r.width > 0 && r.height > 0 && r.Bottom() == Ground
  }

  /** Two rectangles standing on the ground always overlap vertically, so `colliderect` is x-overlap. */
  lemma GroundCollideIsXOverlap(a: Rect, b: Rect)
    requires OnGround(a) && OnGround(b)
    ensures Collide(a, b) <==> XOverlap(a, b)
  {
  }
}

=== FILE: levels.dfy ===
/**
 * The level table of levels.py: which faction a level number fights and
 * the pool of enemy classes it draws from.
 */
module Levels {
  import opened Basics
  import opened Factions
  import opened Archetypes

  /** A constructed `Level`: its number, the enemy faction and the enemy pool. */
  datatype Level = Level(number: int, faction: FactionKind, pool: seq<Archetype>)

  /** The faction a class belongs to, read off its class-name prefix. */
  function FactionOf(a: Archetype): FactionKind
  {
    match a
    case PlayerPeasant | PlayerArcher | PlayerWarrior | PlayerTank => Player
    case BanditRazor | BanditMadman | BanditArcher | BanditTank | BanditKing => Bandits
    case ZombieMelee | ZombieArcher | ZombieAssassin | ZombieFarmer | ZombieTank => Zombies
    case UndeadAxeman | UndeadKing | UndeadMage | UndeadSamurai | UndeadWarrior => Undead
  }

  /**
   * `define_level_units`: levels 1-5 fight the bandits, 6-10 the zombies,
   * 11-20 the undead, with every class of that faction in the pool except
   * the Bandit King (who only enters through the level-5 script). Any
   * other number is the `ValueError` raised at construction, here `None`.
   */
  function DefineLevel(n: int): (r: Option<Level>)
    ensures r.Some? <==> 1 <= n <= 20
    ensures r.Some? ==> r.value.number == n
    ensures r.Some? ==> (r.value.faction == Bandits <==> n <= 5)
    ensures r.Some? ==> (r.value.faction == Zombies <==> 6 <= n <= 10)
    ensures r.Some? ==> (r.value.faction == Undead <==> 11 <= n)
    ensures r.Some? ==> forall a :: a in r.value.pool <==> FactionOf(a) == r.value.faction && a != BanditKing
    ensures r.Some? ==> forall i, j :: 0 <= i < j < |r.value.pool| ==> r.value.pool[i] != r.value.pool[j]
  {
    if 1 <= n <= 5 then
      Some(Level(n, Bandits, [BanditRazor, BanditMadman, BanditArcher, BanditTank]))
    else if 6 <= n <= 10 then
      Some(Level(n, Zombies, [ZombieArcher, ZombieAssassin, ZombieFarmer, ZombieMelee, ZombieTank]))
    else if 11 <= n <= 20 then
      Some(Level(n, Undead, [UndeadAxeman, UndeadKing, UndeadMage, UndeadSamurai, UndeadWarrior]))
    else None
  }

  /**
   * `get_next_enemy_unit`: `random.choice` over the pool, with the random
   * draw passed in as `pick`; `None` for an empty pool.
   */
  function NextEnemyUnit(pool: seq<Archetype>, pick: nat): (r: Option<Archetype>)
    ensures r.None? <==> |pool| == 0
    ensures r.Some? ==> r.value in pool
  {
    if |pool| == 0 then None else Some(pool[pick % |pool|])
  }

  /** Every class in the pool can be drawn: some draw yields it. */
  lemma EveryPoolMemberDrawable(pool: seq<Archetype>, a: Archetype)
    requires a in pool
    ensures exists pick: nat :: NextEnemyUnit(pool, pick) == Some(a)
  {
    var i :| 0 <= i < |pool| && pool[i] == a;
    assert NextEnemyUnit(pool, i) == Some(a);
  }

  /** A valid level never runs out of enemies and never fields a player class. */
  lemma ValidLevelsSpawnEnemies(n: int, pick: nat)
    requires 1 <= n <= 20
    ensures var l := DefineLevel(n).value;
            NextEnemyUnit(l.pool, pick).Some?
            && FactionOf(NextEnemyUnit(l.pool, pick).value) == l.faction != Player
  {
  }
}

=== FILE: menu.dfy ===
/**
 * The bookkeeping of the main menu (menu.py): the defaults for the stored
 * tables, the purchases in the upgrade screen, the class list offered for
 * spawning and the paging of the level screen. Button hit-testing is
 * replaced by the button that was hit.
 */
module Menu {
  import opened Basics
  import opened Archetypes
  import opened Upgrades
  import opened Text
  import A = Achievements

  // ---- Base upgrades -------------------------------------------------------------

  const HP := "HP"
  const PassiveIncome := "Passive Income"

  /** The base upgrades offered when none are stored. */
  const BaseDefaults: map<string, Entry> := map[HP := Entry(50, 75.0, 0), PassiveIncome := Entry(50, 0.05, 0)]

  /** `self.base_upgrades or {...}`: a stored non-empty table is kept whole, otherwise the defaults. */
  function BaseUpgradesOrDefault(stored: map<string, Entry>): (r: map<string, Entry>)
    ensures stored != map[] ==> r == stored
    ensures stored == map[] ==> r.Keys == {HP, PassiveIncome} && r[HP].increase == 75.0
  {
    if stored == map[] then BaseDefaults else stored
  }

  /**
   * The two class-level settings a base upgrade changes: the health every
   * new `Base` gets (1000 at start) and the seeds earned per tick (0.1).
   */
  datatype Config = Config(baseHealth: real, passiveIncome: real)

  const StartConfig := Config(1000.0, 0.1)

  /**
   * `apply_base_upgrade`: "HP" adds its increase to the base health,
   * "Passive Income" adds its increase to the income, anything else does nothing.
   */
  function ApplyBaseUpgrade(c: Config, ups: map<string, Entry>, upgrade: string): (r: Config)
    requires upgrade == HP ==> HP in ups
    requires upgrade == PassiveIncome ==> PassiveIncome in ups
    ensures upgrade == HP ==> r == c.(baseHealth := c.baseHealth + ups[HP].increase)
    ensures upgrade == PassiveIncome ==> r == c.(passiveIncome := c.passiveIncome + ups[PassiveIncome].increase)
    ensures upgrade != HP && upgrade != PassiveIncome ==> r == c
    ensures r.baseHealth == c.baseHealth || r.passiveIncome == c.passiveIncome
    ensures (forall k :: k in ups ==> ups[k].increase >= 0.0) ==>
              r.baseHealth >= c.baseHealth && r.passiveIncome >= c.passiveIncome
  {
    if upgrade == HP then c.(baseHealth := c.baseHealth + ups[HP].increase)
    else if upgrade == PassiveIncome then c.(passiveIncome := c.passiveIncome + ups[PassiveIncome].increase)
    else c
  }

  /** Two base upgrades bought one after the other give the same settings in either order. */
  lemma BaseUpgradesCommute(c: Config, ups: map<string, Entry>, a: string, b: string)
    requires HP in ups && PassiveIncome in ups
    ensures ApplyBaseUpgrade(ApplyBaseUpgrade(c, ups, a), ups, b)
         == ApplyBaseUpgrade(ApplyBaseUpgrade(c, ups, b), ups, a)
  {
  }

  /**
   * `n` HP upgrades bought at the default increase add 75n to the base
   * health and leave the income alone; from the start that is 1000 + 75n.
   */
  lemma {:induction false} HpUpgradesAddUp(c: Config, n: nat)
    ensures RepeatHp(c, n).baseHealth == c.baseHealth + 75.0 * n as real
    ensures RepeatHp(c, n).passiveIncome == c.passiveIncome
    ensures c == StartConfig ==> RepeatHp(c, n).baseHealth == 1000.0 + 75.0 * n as real
  {
    if n > 0 {
      HpUpgradesAddUp(c, n - 1);
    }
  }

  function RepeatHp(c: Config, n: nat): Config
  {
    if n == 0 then c else ApplyBaseUpgrade(RepeatHp(c, n - 1), BaseDefaults, HP)
  }

  /** The persistent side of the menu: secured seeds and the two upgrade tables. */
  datatype Shop = Shop(secured: int, units: Table, base: map<string, Entry>, config: Config)

  /** The outcome of a click on an upgrade button: the shop, the event reported, and the value returned. */
  datatype Purchase = Purchase(shop: Shop, event: Option<A.Event>, returned: Option<string>)

  /** The purchase guard both upgrade screens use: the price is covered and the level is below 20. */
  predicate Affordable(secured: int, e: Entry)
  {
    secured >= e.cost && e.level < MaxLevel
  }

  /**
   * A click on the base upgrade `upgrade`: bought only when affordable, and
   * then paid for, levelled up, applied to the settings and reported under
   * its own name.
   */
  function BuyBaseUpgrade(s: Shop, upgrade: string): (r: Purchase)
    requires upgrade in s.base
    ensures !Affordable(s.secured, s.base[upgrade]) ==> r == Purchase(s, None, None)
    ensures Affordable(s.secured, s.base[upgrade]) ==>
              && r.shop.secured == s.secured - s.base[upgrade].cost
              && r.shop.base == s.base[upgrade := s.base[upgrade].(level := s.base[upgrade].level + 1)]
              && r.shop.units == s.units
              && r.shop.config == ApplyBaseUpgrade(s.config, s.base, upgrade)
              && r.event == Some(A.UpgradeApplied(upgrade)) && r.returned.None?
  {
    var e := s.base[upgrade];
    if !Affordable(s.secured, e) then Purchase(s, None, None)
    else
      var base := s.base[upgrade := e.(level := e.level + 1)];
      Purchase(Shop(s.secured - e.cost, s.units, base, ApplyBaseUpgrade(s.config, s.base, upgrade)),
               Some(A.UpgradeApplied(upgrade)), None)
  }

  /**
   * A click on the stat `stat` of the selected class: bought only when
   * affordable, and then paid for, levelled up, reported under the stat's
   * own (title-case) name, and returned in lower case.
   */
  function BuyUnitUpgrade(s: Shop, selected: Archetype, stat: string): (r: Purchase)
    requires UpgradeKey(selected) in s.units && stat in s.units[UpgradeKey(selected)]
    ensures var e := s.units[UpgradeKey(selected)][stat];
            && (!Affordable(s.secured, e) ==> r == Purchase(s, None, None))
            && (Affordable(s.secured, e) ==>
                  && r.shop.secured == s.secured - e.cost
                  && r.shop.units == BumpLevel(s.units, UpgradeKey(selected), stat)
                  && r.shop.base == s.base && r.shop.config == s.config
                  && r.event == Some(A.UpgradeApplied(stat))
                  && r.returned == Some(Lower(stat)))
  {
    var key := UpgradeKey(selected);
    var e := s.units[key][stat];
    if !Affordable(s.secured, e) then Purchase(s, None, None)
    else
      Purchase(s.(secured := s.secured - e.cost, units := BumpLevel(s.units, key, stat)),
               Some(A.UpgradeApplied(stat)), Some(Lower(stat)))
  }

  /** What a shop keeps true: the unit tables are sane and so is every base entry. */
  predicate ShopSane(s: Shop)
  {
    Sane(s.units) && s.secured >= 0
    && forall k :: k in s.base ==> 0 <= s.base[k].level <= MaxLevel && s.base[k].cost >= 0
  }

  /** No purchase pushes a level past 20 or the secured seeds below zero. */
  lemma PurchasesKeepShopSane(s: Shop, selected: Archetype, stat: string, upgrade: string)
    requires ShopSane(s)
    ensures UpgradeKey(selected) in s.units && stat in s.units[UpgradeKey(selected)] ==>
              ShopSane(BuyUnitUpgrade(s, selected, stat).shop)
    ensures upgrade in s.base ==> ShopSane(BuyBaseUpgrade(s, upgrade).shop)
  {
    if UpgradeKey(selected) in s.units && stat in s.units[UpgradeKey(selected)] {
      var e := s.units[UpgradeKey(selected)][stat];
      if Affordable(s.secured, e) {
        BumpKeepsSane(s.units, UpgradeKey(selected), stat);
      }
    }
  }

  /**
   * The menu reports a unit upgrade under its table name, so buying any
   * unit stat does earn "Upgrade Unit Health", which the battle's
   * lower-case reports never do.
   */
  lemma MenuUpgradeEarnsAchievement(s: Shop, selected: Archetype, stat: string, t: A.Tracker, now: int)
    requires UpgradeKey(selected) in s.units && stat in s.units[UpgradeKey(selected)]
    requires stat in StatNames
    requires Affordable(s.secured, s.units[UpgradeKey(selected)][stat])
    ensures A.Earns(t, BuyUnitUpgrade(s, selected, stat).event.value, now, A.UpgradeUnitHealth)
  {
  }

  // ---- The class list ------------------------------------------------------------

  /** The classes offered for spawning: the Archer only once level 5 has been reached. */
  function AvailableUnits(maxLevel: int): (r: seq<Archetype>)
    ensures PlayerArcher in r <==> maxLevel >= 5
    ensures forall k :: k in r ==> IsPlayerClass(k)
    ensures PlayerPeasant in r && PlayerWarrior in r && PlayerTank in r
    ensures forall i, j :: 0 <= i < j < |r| ==> r[i] != r[j]
  {
    if maxLevel >= 5 then [PlayerPeasant, PlayerArcher, PlayerWarrior, PlayerTank]
    else [PlayerPeasant, PlayerWarrior, PlayerTank]
  }

  /** Once merged with the defaults, the tables hold every class the menu offers, with all four stats. */
  lemma MergedTablesCoverOfferedClasses(stored: Option<Table>, maxLevel: int, k: Archetype)
    requires k in AvailableUnits(maxLevel)
    ensures UpgradeKey(k) in MergeDefaults(stored)
    ensures StatNames <= MergeDefaults(stored)[UpgradeKey(k)].Keys
  {
    assert UpgradeKey(k) in Defaults;
    DefaultsUseStatNames(UpgradeKey(k));
  }

  // ---- Level screen ---------------------------------------------------------------

  /** The sections of five levels: 0 (levels 1-5) to 3 (levels 16-20). */
  const LastSection: int := 3
  const SectionSize: int := 5
  const LevelCount: int := 20

  /** A click in the level screen; a row is the level button at that vertical position, 0 to 4. */
  datatype LevelClick = Back | Prev | Next | Row(offset: int) | Elsewhere

  datatype LevelScreen = LevelScreen(section: int, maxLevel: int, shown: bool)

  /** The result of a click: the screen, and the level chosen to play, if any. */
  datatype Choice = Choice(screen: LevelScreen, level: Option<int>)

  /**
   * The level buttons under a row, in the order the dictionary holds them:
   * levels 1 to 20 share five button positions, one per offset in a section.
   */
  function RowLevels(offset: int): (r: seq<int>)
    ensures |r| == (if 0 <= offset < SectionSize then 4 else 0)
    ensures forall i :: 0 <= i < |r| ==> r[i] == offset + 1 + SectionSize * i
  {
    if 0 <= offset < SectionSize then [offset + 1, offset + 6, offset + 11, offset + 16] else []
  }

  /**
   * The scan of the level buttons under the click: the first that is
   * unlocked and inside the current section's window is chosen.
   */
  function FirstSelectable(levels: seq<int>, section: int, maxLevel: int): (r: Option<int>)
    ensures r.Some? ==> r.value in levels && r.value <= maxLevel
                        && section * SectionSize + 1 <= r.value <= section * SectionSize + SectionSize
    ensures r.None? <==> forall i :: 0 <= i < |levels| ==>
              !(levels[i] <= maxLevel && section * SectionSize + 1 <= levels[i] <= section * SectionSize + SectionSize)
    decreases |levels|
  {
    if |levels| == 0 then None
    else if levels[0] <= maxLevel && section * SectionSize + 1 <= levels[0] <= section * SectionSize + SectionSize then
      Some(levels[0])
    else
      assert forall i :: 1 <= i < |levels| ==> levels[1..][i - 1] == levels[i];
      FirstSelectable(levels[1..], section, maxLevel)
  }

  /**
   * A row click chooses exactly the level that row shows in the current
   * section, `5 * section + offset + 1`, and only if it is unlocked.
   */
  lemma RowChoosesShownLevel(section: int, offset: int, maxLevel: int)
    ensures var shown := section * SectionSize + offset + 1;
            0 <= section <= LastSection && 0 <= offset < SectionSize ==>
              FirstSelectable(RowLevels(offset), section, maxLevel) == (if shown <= maxLevel then Some(shown) else None)
  {
    if 0 <= section <= LastSection && 0 <= offset < SectionSize {
      var levels := RowLevels(offset);
      assert levels[section] == section * SectionSize + offset + 1;
      var r := FirstSelectable(levels, section, maxLevel);
      if r.Some? {
        var i :| 0 <= i < |levels| && levels[i] == r.value;
        assert i == section;
      }
    }
  }

  /** The screen after a click: Back hides it, Prev and Next page, anything else leaves it. */
  function Paged(s: LevelScreen, c: LevelClick): (r: LevelScreen)
    ensures r.maxLevel == s.maxLevel
    ensures 0 <= s.section <= LastSection ==> 0 <= r.section <= LastSection
    ensures r.section > s.section ==> c == Next && s.maxLevel >= s.section * SectionSize + SectionSize
    ensures r.section < s.section ==> c == Prev
    ensures c != Back ==> r.shown == s.shown
  {
    match c
    case Back => s.(shown := false)
    case Prev => if s.section > 0 then s.(section := s.section - 1) else s
    case Next =>
      var sectionEnd := MinI(s.section * SectionSize + SectionSize, LevelCount);
      if s.section < LastSection && s.maxLevel >= sectionEnd then s.(section := s.section + 1) else s
    case _ => s
  }

  /** The level a click chooses: only a row click chooses one, the first selectable under it. */
  function Picked(s: LevelScreen, c: LevelClick): (r: Option<int>)
    ensures r.Some? ==>
              && c.Row? && r.value <= s.maxLevel
              && s.section * SectionSize + 1 <= r.value <= s.section * SectionSize + SectionSize
    ensures c.Row? && 0 <= s.section <= LastSection && 0 <= c.offset < SectionSize ==>
              var shown := s.section * SectionSize + c.offset + 1;
              r == (if shown <= s.maxLevel then Some(shown) else None)
  {
    match c
    case Row(offset) =>
      RowChoosesShownLevel(s.section, offset, s.maxLevel);
      FirstSelectable(RowLevels(offset), s.section, s.maxLevel)
    case _ => None
  }

  /**
   * `handle_event` on the level screen: Back closes it; Prev and Next page
   * within sections 0-3, Next only once the current section's last level
   * is unlocked; a row click plays the level it shows, if unlocked.
   */
  function LevelScreenClick(s: LevelScreen, c: LevelClick): (r: Choice)
    ensures c == Back ==> r == Choice(s.(shown := false), None)
    ensures c == Prev ==> r.level.None? && r.screen == (if s.section > 0 then s.(section := s.section - 1) else s)
    ensures c == Next ==>
              && r.level.None?
              && r.screen == (if s.section < LastSection && s.maxLevel >= MinI(s.section * SectionSize + SectionSize, LevelCount)
                              then s.(section := s.section + 1) else s)
    ensures c.Row? ==> r.screen == s && r.level == FirstSelectable(RowLevels(c.offset), s.section, s.maxLevel)
    ensures c == Elsewhere ==> r == Choice(s, None)
    ensures r.screen.maxLevel == s.maxLevel
    ensures 0 <= s.section <= LastSection ==> 0 <= r.screen.section <= LastSection
    ensures r.screen.section > s.section ==> c == Next && s.maxLevel >= s.section * SectionSize + SectionSize
    ensures r.level.Some? ==>
              && c.Row? && r.level.value <= s.maxLevel
              && s.section * SectionSize + 1 <= r.level.value <= s.section * SectionSize + SectionSize
    ensures c.Row? && 0 <= s.section <= LastSection && 0 <= c.offset < SectionSize ==>
              var shown := s.section * SectionSize + c.offset + 1;
              r.level == (if shown <= s.maxLevel then Some(shown) else None)
  {
    Choice(Paged(s, c), Picked(s, c))
  }

  /**
   * Next is only offered on a fully unlocked section, so every level the
   * screen can page to has its first level unlocked.
   */
  lemma {:induction false} PagedSectionsAreReachable(s: LevelScreen, cs: seq<LevelClick>)
    requires 0 <= s.section <= LastSection
    requires s.section == 0 || s.maxLevel >= s.section * SectionSize
    ensures var e := Clicks(s, cs);
            e.section == 0 || e.maxLevel >= e.section * SectionSize
    decreases |cs|
  {
    if |cs| > 0 {
      var n := LevelScreenClick(s, cs[0]).screen;
      PagedSectionsAreReachable(n, cs[1..]);
    }
  }

  function Clicks(s: LevelScreen, cs: seq<LevelClick>): LevelScreen
    decreases |cs|
  {
    if |cs| == 0 then s else Clicks(LevelScreenClick(s, cs[0]).screen, cs[1..])
  }
}

=== FILE: projectiles.dfy ===
/**
 * Arrows and magic balls (units.py `Arrow`, `MagicBall`): launched at the
 * strike frame of a ranged unit, they fly one step per tick and deliver
 * their damage at most once.
 */
module Projectiles {
  import opened Basics
  import opened Geometry
  import opened Units

  /** `random.randint(-5, 5)` added to an arrow's flight time. */
  type Jitter = j: int | -5 <= j <= 5

  const Gravity: real := 0.2
  const MaxDistance: real := 1000.0
  const MagicSpeed: real := 5.0

  /** An arrow in flight: it falls under gravity and measures its travel along x only. */
  datatype Arrow = Arrow(x: real, y: real, startX: real, direction: int, target: Target,
                         damage: real, active: bool, vx: real, vy: real)

  /** A magic ball in flight: it flies straight and measures its travel in the plane. */
  datatype MagicBall = MagicBall(x: real, y: real, startX: real, startY: real, direction: int,
                                 target: Target, damage: real, active: bool, vx: real, vy: real)

  /** An entry of the game's projectile list. */
  datatype Projectile = ArrowShot(arrow: Arrow) | BallShot(ball: MagicBall)
  {
    predicate IsActive() { if ArrowShot? then arrow.active else ball.active }
    function TargetRef(): Target { if ArrowShot? then arrow.target else ball.target }
    function Damage(): real { if ArrowShot? then arrow.damage else ball.damage }
  }

  /** Flight time in ticks: a tenth of the horizontal distance, clamped to [20, 60], plus jitter. */
  function TravelTime(dx: real, jitter: Jitter): (t: int)
    ensures 15 <= t <= 65
    ensures 200.0 <= Abs(dx) < 610.0 ==> t == Trunc(Abs(dx) / 10.0) + jitter
  {
    MaxI(20, MinI(60, Trunc(Abs(dx) / 10.0))) + jitter
  }

  /**
   * `Arrow.__init__`: the velocities that bring the arrow onto its aim point
   * after exactly `TravelTime` ticks of `x += vx; y += vy; vy += g`. With no
   * horizontal distance it just drifts forward at 3 px per tick.
   */
  function LaunchArrow(s: Shot, jitter: Jitter): (a: Arrow)
    ensures a.active && a.x == a.startX == s.x && a.y == s.y
    ensures a.target == s.target && a.damage == s.damage && a.direction == s.direction
    ensures s.aimX == s.x ==> a.vx == 3.0 * s.direction as real
  {
    var dx := s.aimX - s.x;
    var dy := s.aimY - s.y;
    var t := TravelTime(dx, jitter) as real;
    var vx := if dx != 0.0 then dx / t else 3.0 * s.direction as real;
    var vy := (dy - 0.5 * Gravity * t * (t - 1.0)) / t;
    Arrow(s.x, s.y, s.x, s.direction, s.target, s.damage, true, vx, vy)
  }

  /** One tick of arrow motion, without any of the checks. */
  function Fly(a: Arrow): Arrow
  {
    a.(x := a.x + a.vx, y := a.y + a.vy, vy := a.vy + Gravity)
  }

  function FlyN(a: Arrow, n: nat): Arrow
    decreases n
  {
    if n == 0 then a else FlyN(Fly(a), n - 1)
  }

  /** The closed form of free flight: uniform in x, uniformly accelerated in y. */
  lemma {:induction false} FlyNClosedForm(a: Arrow, n: nat)
    ensures FlyN(a, n).x == a.x + n as real * a.vx
    ensures FlyN(a, n).y == a.y + n as real * a.vy + 0.1 * n as real * (n as real - 1.0)
    ensures FlyN(a, n).vy == a.vy + Gravity * n as real
    decreases n
  {
    if n > 0 {
      var b := Fly(a);
      FlyNClosedForm(b, n - 1);
      var k := (n - 1) as real;
      assert FlyN(a, n).y == a.y + a.vy + k * (a.vy + 0.2) + 0.1 * k * (k - 1.0);
      assert k * (a.vy + 0.2) == k * a.vy + 0.2 * k;
      assert 0.2 * k + 0.1 * k * (k - 1.0) == 0.1 * (k + 1.0) * k;
    }
  }

  /** Launched at horizontal distance `dx` with flight time `t`, x ends at `x0 + dx`. */
  lemma LandingX(x0: real, dx: real, t: real)
    requires t > 0.0
    ensures x0 + t * (dx / t) == x0 + dx
  {
  }

  /** The vertical launch speed cancels the drop of `t` ticks of gravity exactly. */
  lemma LandingY(y0: real, dy: real, t: real)
    requires t > 0.0
    ensures y0 + t * ((dy - 0.5 * Gravity * t * (t - 1.0)) / t) + 0.1 * t * (t - 1.0) == y0 + dy
  {
    var g := 0.5 * Gravity * t * (t - 1.0);
    assert t * ((dy - g) / t) == dy - g;
    assert 0.1 * t * (t - 1.0) == g;
  }

  /** Velocities set for a flight of `n` ticks over (dx, dy) bring the arrow exactly there. */
  lemma FlightReaches(a: Arrow, n: nat, dx: real, dy: real)
    requires n > 0
    requires a.vx == dx / n as real
    requires a.vy == (dy - 0.5 * Gravity * n as real * (n as real - 1.0)) / n as real
    ensures FlyN(a, n).x == a.x + dx && FlyN(a, n).y == a.y + dy
  {
    FlyNClosedForm(a, n);
    LandingX(a.x, dx, n as real);
    LandingY(a.y, dy, n as real);
  }

  /** An arrow launched with horizontal distance reaches its aim point exactly at the end of its flight time. */
  lemma ArrowLandsOnAim(s: Shot, jitter: Jitter)
    requires s.aimX != s.x
    ensures FlyN(LaunchArrow(s, jitter), TravelTime(s.aimX - s.x, jitter)).x == s.aimX
    ensures FlyN(LaunchArrow(s, jitter), TravelTime(s.aimX - s.x, jitter)).y == s.aimY
  {
    var n := TravelTime(s.aimX - s.x, jitter);
    var a := LaunchArrow(s, jitter);
    FlightReaches(a, n, s.aimX - s.x, s.aimY - s.y);
  }

  /** `dist` is the length of (dx, dy): the square root the source computes, given here as an input. */
  predicate IsLength(dx: real, dy: real, dist: real)
  {
    dist >= 0.0 && dist * dist == dx * dx + dy * dy
  }

  /**
   * `MagicBall.__init__`: velocity of length 5 pointing at the aim point; a
   * ball with nothing to cross (distance 0) is inactive from the start.
   */
  function LaunchMagic(s: Shot, dist: real): (b: MagicBall)
    requires IsLength(s.aimX - s.x, s.aimY - s.y, dist)
    ensures b.x == b.startX == s.x && b.y == b.startY == s.y
    ensures b.target == s.target && b.damage == s.damage && b.direction == s.direction
    ensures b.active <==> dist != 0.0
    ensures b.active ==> b.vx * dist == MagicSpeed * (s.aimX - s.x) && b.vy * dist == MagicSpeed * (s.aimY - s.y)
    ensures !b.active ==> b.vx == 0.0 && b.vy == 0.0
  {
    var dx := s.aimX - s.x;
    var dy := s.aimY - s.y;
    if dist > 0.0 then
      MagicBall(s.x, s.y, s.x, s.y, s.direction, s.target, s.damage, true,
                MagicSpeed * (dx / dist), MagicSpeed * (dy / dist))
    else
      MagicBall(s.x, s.y, s.x, s.y, s.direction, s.target, s.damage, false, 0.0, 0.0)
  }

  /** The ranged unit's shot turned into the matching projectile. */
  function Launch(s: Shot, jitter: Jitter, dist: real): (p: Projectile)
    requires IsLength(s.aimX - s.x, s.aimY - s.y, dist)
    ensures p.BallShot? <==> s.magic
    ensures p.TargetRef() == s.target && p.Damage() == s.damage
  {
    if s.magic then BallShot(LaunchMagic(s, dist)) else ArrowShot(LaunchArrow(s, jitter))
  }

  /** Damage to hand to the target, to be applied by the caller. */
  datatype Hit = Hit(target: Target, damage: real)

  /** The outcome of one `update`: the projectile, whether it is to be removed, and the damage it delivers. */
  datatype Flight = Flight(p: Projectile, done: bool, hit: Option<Hit>)

  /**
   * The arrow's early exit: its target is gone, dying, or out of health.
   * (For a unit either condition suffices, unlike the `Alive` test.)
   */
  predicate ArrowLost(tb: Option<Body>)
  {
    match tb
    case None => true
    case Some(UnitBody(u)) => u.state == Die || u.health <= 0.0
    case Some(BaseBody(s)) => s.health <= 0.0
  }

  function ArrowRect(a: Arrow): Rect
  {
    Rect(Trunc(a.x - 16.0), Trunc(a.y - 8.0), 32, 16)
  }

  function BallRect(b: MagicBall): Rect
  {
    Rect(Trunc(b.x - 16.0), Trunc(b.y - 16.0), 32, 32)
  }

  /**
   * `Arrow.update`. `tb` is what the target handle resolves to now, and
   * `maskHit` stands for the pixel-mask test, which only units have; a base
   * always passes it.
   */
  function ArrowUpdate(a: Arrow, tb: Option<Body>, maskHit: bool): (r: Flight)
    ensures r.p.ArrowShot?
    ensures !a.active ==> r == Flight(ArrowShot(a), true, None)
    ensures a.active && ArrowLost(tb) ==> r == Flight(ArrowShot(a.(active := false)), true, None)
    ensures r.done <==> !r.p.IsActive()
    ensures r.hit.Some? ==> r.done && a.active && tb.Some? && Alive(tb.value)
                            && r.hit.value == Hit(a.target, a.damage)
    ensures a.active && !ArrowLost(tb) ==> r.p.arrow == Fly(a).(active := r.p.arrow.active)
    ensures a.active && !ArrowLost(tb) && Abs(Fly(a).x - a.startX) > MaxDistance ==> r.done && r.hit.None?
    // a hit needs the box overlap and, on a unit, the pixel overlap
    ensures r.hit.Some? ==> Collide(ArrowRect(Fly(a)), BodyRect(tb.value)) && (tb.value.UnitBody? ==> maskHit)
    // within range and on a target still standing, the arrow stops exactly when it strikes, and then it hits
    ensures a.active && !ArrowLost(tb) && Abs(Fly(a).x - a.startX) <= MaxDistance ==>
              && (r.done <==> Collide(ArrowRect(Fly(a)), BodyRect(tb.value)) && (tb.value.UnitBody? ==> maskHit))
              && (r.hit.Some? <==> r.done)
  {
    if !a.active then Flight(ArrowShot(a), true, None)
    else if ArrowLost(tb) then Flight(ArrowShot(a.(active := false)), true, None)
    else
      var m := Fly(a);
      if Abs(m.x - m.startX) > MaxDistance then Flight(ArrowShot(m.(active := false)), true, None)
      else
        var body := tb.value;
        var pixel := if body.UnitBody? then maskHit else true;
        if Collide(ArrowRect(m), BodyRect(body)) && pixel then
          Flight(ArrowShot(m.(active := false)), true, if Alive(body) then Some(Hit(a.target, a.damage)) else None)
        else Flight(ArrowShot(m), false, None)
  }

  /** An arrow that passed the target check always still sees a live target, so a collision always deals damage. */
  lemma ArrowCollisionAlwaysHits(a: Arrow, tb: Option<Body>, maskHit: bool)
    requires a.active && !ArrowLost(tb)
    requires Abs(Fly(a).x - a.startX) <= MaxDistance
    requires Collide(ArrowRect(Fly(a)), BodyRect(tb.value)) && (tb.value.UnitBody? ==> maskHit)
    ensures ArrowUpdate(a, tb, maskHit).hit == Some(Hit(a.target, a.damage))
  {
  }

  function TravelledSq(b: MagicBall): real
  {
    (b.x - b.startX) * (b.x - b.startX) + (b.y - b.startY) * (b.y - b.startY)
  }

  /**
   * `MagicBall.update`. The travelled distance is compared squared with the
   * squared limit, which is equivalent for non-negative lengths and needs no
   * square root.
   */
  function MagicUpdate(b: MagicBall, tb: Option<Body>): (r: Flight)
    ensures r.p.BallShot?
    ensures !b.active ==> r == Flight(BallShot(b), true, None)
    ensures r.done <==> !r.p.IsActive()
    ensures r.hit.Some? ==> r.done && b.active && tb.Some? && Alive(tb.value)
                            && r.hit.value == Hit(b.target, b.damage)
    ensures b.active ==> r.p.ball == b.(x := b.x + b.vx, y := b.y + b.vy, active := r.p.ball.active)
    ensures b.active && (tb.None? || !Alive(tb.value)) ==> r.done && r.hit.None?
    ensures b.active && TravelledSq(b.(x := b.x + b.vx, y := b.y + b.vy)) > MaxDistance * MaxDistance ==> r.done && r.hit.None?
    // within range and with a live target, the ball stops exactly when it touches the target, and then it hits
    ensures b.active && TravelledSq(b.(x := b.x + b.vx, y := b.y + b.vy)) <= MaxDistance * MaxDistance
            && tb.Some? && Alive(tb.value) ==>
              && (r.hit.Some? <==> Collide(BallRect(b.(x := b.x + b.vx, y := b.y + b.vy)), BodyRect(tb.value)))
              && (r.done <==> r.hit.Some?)
  {
    if !b.active then Flight(BallShot(b), true, None)
    else
      var m := b.(x := b.x + b.vx, y := b.y + b.vy);
      if TravelledSq(m) > MaxDistance * MaxDistance then Flight(BallShot(m.(active := false)), true, None)
      else if tb.Some? && Alive(tb.value) then
        if Collide(BallRect(m), BodyRect(tb.value)) then
          Flight(BallShot(m.(active := false)), true, Some(Hit(b.target, b.damage)))
        else Flight(BallShot(m), false, None)
      else Flight(BallShot(m.(active := false)), true, None)
  }

  /** `update` of whichever projectile it is; `done` is its return value (remove from the list). */
  function Update(p: Projectile, tb: Option<Body>, maskHit: bool): (r: Flight)
    ensures !p.IsActive() ==> r == Flight(p, true, None)
    ensures r.done <==> !r.p.IsActive()
    ensures r.hit.Some? ==> r.done && p.IsActive() && r.hit.value == Hit(p.TargetRef(), p.Damage())
    ensures r.p.ArrowShot? == p.ArrowShot?
  {
    match p
    case ArrowShot(a) => ArrowUpdate(a, tb, maskHit)
    case BallShot(b) => MagicUpdate(b, tb)
  }

  /** What one tick shows a projectile: its target as resolved now, and the pixel-mask answer. */
  datatype View = View(tb: Option<Body>, maskHit: bool)

  /** Hits delivered over consecutive ticks, as long as the projectile is kept. */
  function Hits(p: Projectile, views: seq<View>): (n: nat)
    decreases |views|
  {
    if |views| == 0 then 0
    else
      var f := Update(p, views[0].tb, views[0].maskHit);
      (if f.hit.Some? then 1 else 0) + Hits(f.p, views[1..])
  }

  lemma {:induction false} InactiveNeverHits(p: Projectile, views: seq<View>)
    requires !p.IsActive()
    ensures Hits(p, views) == 0
    decreases |views|
  {
    if |views| > 0 {
      InactiveNeverHits(p, views[1..]);
    }
  }

  /** A projectile delivers its damage at most once, whatever it sees on the way. */
  lemma {:induction false} AtMostOneHit(p: Projectile, views: seq<View>)
    ensures Hits(p, views) <= 1
    decreases |views|
  {
    if |views| > 0 {
      var f := Update(p, views[0].tb, views[0].maskHit);
      if f.hit.Some? {
        InactiveNeverHits(f.p, views[1..]);
      } else {
        AtMostOneHit(f.p, views[1..]);
      }
    }
  }
}

=== FILE: spatial.dfy ===
/**
 * The spatial index of `Game.get_buckets` (lane cut into 400px buckets)
 * and the target search of `Game.find_nearest_target` that uses it.
 */
module Spatial {
  import opened Basics
  import opened Geometry
  import opened Factions
  import opened Units
  import B = Buildings

  const BucketSize: int := 400
  /** `1920 // BUCKET_SIZE`: the highest bucket key. */
  const LastBucket: int := 4

  /** Bucket keys hold the units in list order. */
  type Buckets = map<int, seq<Unit>>

  /** Only live units on or near the screen are indexed. */
  predicate Indexed(u: Unit)
  {
    u.state != Die && -192.0 <= u.x <= 1920.0
  }

  function BucketOf(x: real): (b: int)
    ensures 0 <= b <= LastBucket
    ensures 0.0 <= x < 2000.0 ==> b as real * 400.0 <= x < (b + 1) as real * 400.0
    ensures x < 0.0 ==> b == 0
    ensures x >= 2000.0 ==> b == LastBucket
  {
    MaxI(0, MinI(FloorDiv(x, BucketSize), LastBucket))
  }

  /** `b in buckets` is checked before every access; a missing key reads as an empty bucket. */
  function Lookup(m: Buckets, b: int): seq<Unit>
  {
    if b in m then m[b] else []
  }

  /** `get_buckets`: one pass over the list, appending each indexed unit to its bucket. */
  function GetBuckets(us: seq<Unit>): (m: Buckets)
    ensures forall k :: k in m ==> 0 <= k <= LastBucket && |m[k]| > 0
    decreases |us|
  {
    if |us| == 0 then map[]
    else
      var m := GetBuckets(us[..|us| - 1]);
      var u := us[|us| - 1];
      if Indexed(u) then
        var b := BucketOf(u.x);
        m[b := Lookup(m, b) + [u]]
      else m
  }

  /** Reference definition of a bucket: the indexed units of that bucket, in list order. */
  function InBucket(us: seq<Unit>, b: int): seq<Unit>
  {
    if |us| == 0 then []
    else (if Indexed(us[0]) && BucketOf(us[0].x) == b then [us[0]] else []) + InBucket(us[1..], b)
  }

  lemma {:induction false} InBucketAppend(us: seq<Unit>, u: Unit, b: int)
    ensures InBucket(us + [u], b) == InBucket(us, b) + InBucket([u], b)
    decreases |us|
  {
    if |us| == 0 {
      assert us + [u] == [u];
    } else {
      assert (us + [u])[1..] == us[1..] + [u];
      InBucketAppend(us[1..], u, b);
    }
  }

  /** Each bucket of the index is exactly the reference filter: same units, same order. */
  lemma {:induction false} GetBucketsIsFilter(us: seq<Unit>, b: int)
    ensures Lookup(GetBuckets(us), b) == InBucket(us, b)
    decreases |us|
  {
    if |us| > 0 {
      var init := us[..|us| - 1];
      var u := us[|us| - 1];
      assert us == init + [u];
      GetBucketsIsFilter(init, b);
      InBucketAppend(init, u, b);
    }
  }

  lemma {:induction false} InBucketMembers(us: seq<Unit>, b: int, v: Unit)
    ensures v in InBucket(us, b) <==> v in us && Indexed(v) && BucketOf(v.x) == b
    decreases |us|
  {
    if |us| > 0 {
      InBucketMembers(us[1..], b, v);
      assert us == [us[0]] + us[1..];
    }
  }

  /**
   * A unit is in the index iff it is live and on screen, and then in exactly
   * one bucket: the clamped floor of x / 400.
   */
  lemma IndexedInExactlyOneBucket(us: seq<Unit>, v: Unit, b: int)
    requires v in us
    ensures v in Lookup(GetBuckets(us), b) <==> Indexed(v) && b == BucketOf(v.x)
  {
    GetBucketsIsFilter(us, b);
    InBucketMembers(us, b, v);
  }

  /** Who `find_nearest_target` may pick: another, live unit of another faction. */
  predicate Eligible(u: Unit, o: Unit)
  {
    o.id != u.id && o.state != Die && o.faction != u.faction
  }

  function Dist(u: Unit, o: Unit): real
  {
    Abs(u.x - o.x)
  }

  /** The running best of the scan: the unit found so far (if any) and `min_dist`. */
  datatype Pick = Pick(unit: Option<Unit>, dist: real)

  /** The inner loop: a strictly closer eligible unit replaces the current pick. */
  function ScanNearest(u: Unit, cands: seq<Unit>, p: Pick): (r: Pick)
    ensures r.dist <= p.dist
    ensures r == p || (r.unit.Some? && r.unit.value in cands && Eligible(u, r.unit.value)
                       && r.dist == Dist(u, r.unit.value) && r.dist < p.dist)
    ensures forall i :: 0 <= i < |cands| && Eligible(u, cands[i]) ==> r.dist <= Dist(u, cands[i])
    decreases |cands|
  {
    if |cands| == 0 then p
    else
      var c := cands[0];
      var next := if Eligible(u, c) && Dist(u, c) < p.dist then Pick(Some(c), Dist(u, c)) else p;
      var r := ScanNearest(u, cands[1..], next);
      assert forall i :: 1 <= i < |cands| ==> cands[i] == cands[1..][i - 1];
      r
  }

  /** The buckets `find_nearest_target` looks in: its own and the two neighbours, clamped to the lane. */
  function NearBuckets(x: real): seq<int>
  {
    var bx := FloorDiv(x, BucketSize);
    [MaxI(0, bx - 1), bx, MinI(LastBucket, bx + 1)]
  }

  /** The units those buckets hold, in the order the nested loop visits them. */
  function NearUnits(x: real, all: seq<Unit>): seq<Unit>
  {
    var m := GetBuckets(all);
    var bs := NearBuckets(x);
    Lookup(m, bs[0]) + Lookup(m, bs[1]) + Lookup(m, bs[2])
  }

  /** The base edge facing the unit: the left edge for the player's units, the right edge for the enemy's. */
  function BaseEdge(u: Unit, base: B.Base): int
  {
    var r := B.BaseRect(base);
    if Dir(u) == 1 then r.left else r.Right()
  }

  predicate BaseTargetable(u: Unit, base: B.Base, minDist: real)
  {
    Abs(u.x - BaseEdge(u, base) as real) < minDist && base.health > 0.0 && !base.tower
  }

  /**
   * `find_nearest_target`: the nearest eligible unit strictly inside the
   * attack range among the nearby buckets, unless the base (not a tower,
   * not destroyed) is strictly closer still.
   */
  function FindNearestTarget(u: Unit, all: seq<Unit>, base: B.Base): (r: Option<Body>)
    ensures r.Some? && r.value.UnitBody? ==>
              var o := r.value.unit;
              o in NearUnits(u.x, all) && Eligible(u, o) && Dist(u, o) < Range(u)
              && !BaseTargetable(u, base, Dist(u, o))
              && (forall c :: c in NearUnits(u.x, all) && Eligible(u, c) ==> Dist(u, o) <= Dist(u, c))
    ensures r.Some? && r.value.BaseBody? ==>
              r.value.base == base && BaseTargetable(u, base, Range(u))
              && (forall c :: c in NearUnits(u.x, all) && Eligible(u, c) ==> Abs(u.x - BaseEdge(u, base) as real) < Dist(u, c))
    ensures r.None? ==>
              !BaseTargetable(u, base, Range(u))
              && (forall c :: c in NearUnits(u.x, all) && Eligible(u, c) ==> Dist(u, c) >= Range(u))
  {
    var cands := NearUnits(u.x, all);
    var p := ScanNearest(u, cands, Pick(None, Range(u)));
    if BaseTargetable(u, base, p.dist) then Some(BaseBody(base))
    else if p.unit.Some? then Some(UnitBody(p.unit.value))
    else None
  }

  /** Every unit the search can return is indexed, so it is live and on screen. */
  lemma NearestUnitIsIndexed(u: Unit, all: seq<Unit>, base: B.Base)
    requires FindNearestTarget(u, all, base).Some? && FindNearestTarget(u, all, base).value.UnitBody?
    ensures FindNearestTarget(u, all, base).value.unit in all
    ensures Indexed(FindNearestTarget(u, all, base).value.unit)
  {
    var o := FindNearestTarget(u, all, base).value.unit;
    var m := GetBuckets(all);
    var bs := NearBuckets(u.x);
    var b :| b in bs && o in Lookup(m, b);
    GetBucketsIsFilter(all, b);
    InBucketMembers(all, b, o);
  }
}

=== FILE: text.dfy ===
/** ASCII case mapping, enough for the `str.capitalize()` and `str.lower()` calls of the game. */
module Text {

  function LowerChar(c: char): char
  {
    if 'A' <= c <= 'Z' then (c as int + 32) as char else c
  }

  function UpperChar(c: char): char
  {
    if 'a' <= c <= 'z' then (c as int - 32) as char else c
  }

  /** `str.lower()` on ASCII text. */
  function Lower(s: string): (r: string)
    ensures |r| == |s|
    ensures forall i :: 0 <= i < |s| ==> r[i] == LowerChar(s[i])
  {
    seq(|s|, i requires 0 <= i < |s| => LowerChar(s[i]))
  }

  /** `str.capitalize()` on ASCII text: first character upper-cased, all others lower-cased. */
  function Capitalize(s: string): (r: string)
    ensures |r| == |s|
    ensures |s| > 0 ==> r[0] == UpperChar(s[0])
    ensures forall i :: 1 <= i < |s| ==> r[i] == LowerChar(s[i])
  {
    if s == [] then [] else [UpperChar(s[0])] + Lower(s[1..])
  }

  /** A capitalized string has no upper-case letter after its first character. */
  lemma CapitalizeTailHasNoCapitals(s: string, i: int)
    requires 1 <= i < |s|
    ensures !('A' <= Capitalize(s)[i] <= 'Z')
  {
  }
}

=== FILE: units.dfy ===
/**
 * A fighting unit (units.py `Unit` and its subclasses) and the methods that
 * change it on its own: taking damage, the range check, starting an attack
 * and the frame-driven combat state machine. Methods that reach another
 * object (dealing melee damage, spawning a projectile) return an `Effect`
 * that the caller applies, since the model has no shared mutable objects.
 */
module Units {
  import opened Basics
  import opened Geometry
  import opened Factions
  import opened Archetypes
  import B = Buildings

  datatype State = Idle | Run | Attack | Hurt | Die

  /**
   * A non-owning reference to something a unit or projectile aims at: a unit
   * by its identity, or the base of one side. Before every use the holder
   * looks the handle up again; a handle that no longer resolves is a dead target.
   */
  datatype Target = UnitRef(id: nat) | BaseRef(ofPlayer: bool)

  /**
   * Number of animation frames per state, as cut from the sprite sheet
   * (up to 14, or a single placeholder frame when the sheet is missing).
   */
  datatype Anim = Anim(idle: nat, run: nat, attack: nat, die: nat, hurt: nat)

  function Frames(a: Anim, s: State): nat
  {
    match s
    case Idle => a.idle
    case Run => a.run
    case Attack => a.attack
    case Die => a.die
    case Hurt => a.hurt
  }

  const BaseFrameDelay: real := 100.0
  const HurtDuration: int := 200
  const RangeCheckInterval: int := 200
  /** The attack frame at which damage lands or a projectile leaves. */
  const StrikeFrame: int := 7
  /** Attack animations are 14 frames long, so a frame lasts cooldown / 14. */
  const AttackFrames: real := 14.0

  datatype Unit = Unit(
    id: nat,
    kind: Archetype,
    faction: FactionKind,
    x: real,
    health: real,
    maxHealth: real,
    attackPower: real,
    speed: real,
    attackCooldown: real,
    attackFrameDelay: real,
    state: State,
    frame: nat,
    lastUpdate: int,
    target: Option<Target>,
    isAttacking: bool,
    lastAttack: int,
    hurtStart: Option<int>,
    lastRangeCheck: int,
    isRetreating: bool,
    anim: Anim)

  /** The facing fixed by the faction at construction. */
  function Dir(u: Unit): int
  {
    Direction(u.faction)
  }

  function Range(u: Unit): real
  {
    StatsOf(u.kind).range
  }

  /** `get_rect`: the hit box at the unit's (truncated) position. */
  function RectOf(u: Unit): Rect
  {
    Rect(Trunc(u.x), LaneY(u.kind), BoxWidth(u.kind), BoxHeight(u.kind))
  }

  /** The only field-level fact the state machine needs: a hurt unit knows when it was hit. */
  predicate WellFormed(u: Unit)
  {
    u.state == Hurt ==> u.hurtStart.Some?
  }

  /** `Unit.__init__`: class stats, idle, no target, timers at their start values. */
  function NewUnit(id: nat, kind: Archetype, faction: FactionKind, x: real, now: int, anim: Anim): (u: Unit)
    ensures WellFormed(u) && u.state == Idle && u.frame == 0
    ensures u.health == u.maxHealth == StatsOf(kind).health
    ensures u.attackFrameDelay * AttackFrames == u.attackCooldown == StatsOf(kind).cooldown
    ensures Dir(u) == 1 <==> faction == Player
    ensures u.id == id && u.kind == kind && u.faction == faction && u.x == x
    ensures u.attackPower == StatsOf(kind).attack && u.speed == StatsOf(kind).speed
  {
    var s := StatsOf(kind);
    Unit(id, kind, faction, x, s.health, s.health, s.attack, s.speed,
         s.cooldown, s.cooldown / AttackFrames, Idle, 0, now,
         None, false, 0, None, 0, false, anim)
  }

  /** What a unit or projectile can see of its target when it re-checks it. */
  datatype Body = UnitBody(unit: Unit) | BaseBody(base: B.Base)

  function BodyX(b: Body): real
  {
    match b
    case UnitBody(u) => u.x
    case BaseBody(s) => s.x as real
  }

  function BodyY(b: Body): int
  {
    match b
    case UnitBody(u) => LaneY(u.kind)
    case BaseBody(s) => s.y
  }

  function BodyRect(b: Body): Rect
  {
    match b
    case UnitBody(u) => RectOf(u)
    case BaseBody(s) => B.BaseRect(s)
  }

  /**
   * The liveness re-check done before damage: a unit counts while it is not
   * dying or still has health; a base (which has no state) while it has health.
   */
  predicate Alive(b: Body)
  {
    match b
    case UnitBody(u) => u.state != Die || u.health > 0.0
    case BaseBody(s) => s.health > 0.0
  }

  /** `take_damage`. */
  function TakeDamage(u: Unit, damage: real, now: int): (r: Unit)
    ensures u.state == Die ==> r == u
    ensures u.state != Die ==> r.health == MaxR(0.0, u.health - damage)
    ensures u.health >= 0.0 ==> r.health >= 0.0
    ensures r.state == Die <==> (u.state == Die || u.health - damage <= 0.0)
    ensures u.state != Die && r.state == Die ==>
              r.frame == 0 && r.hurtStart.None? && !r.isAttacking && r.target.None?
    ensures u.state != Die && r.state != Die && u.state != Attack ==>
              r.state == Hurt && r.frame == 0 && r.hurtStart == Some(now)
    ensures u.state == Attack && r.state != Die ==>
              r == u.(health := u.health - damage)
    ensures WellFormed(u) ==> WellFormed(r)
    ensures r.id == u.id && r.kind == u.kind && r.faction == u.faction && r.x == u.x
    ensures r.maxHealth == u.maxHealth && r.speed == u.speed && r.anim == u.anim
  {
    if u.state == Die then u
    else
      var h := u.health - damage;
      if h <= 0.0 then
        u.(health := 0.0, state := Die, frame := 0, hurtStart := None,
           isAttacking := false, target := None)
      else if u.state != Attack then
        u.(health := h, state := Hurt, frame := 0, hurtStart := Some(now))
      else
        u.(health := h)
  }

  /** Non-negative hits never raise health, and a unit stays within [0, max_health]. */
  lemma DamageKeepsHealthInBounds(u: Unit, damage: real, now: int)
    requires damage >= 0.0 && 0.0 <= u.health <= u.maxHealth
    ensures 0.0 <= TakeDamage(u, damage, now).health <= u.health
  {
  }

  /** Once dying, a unit ignores every further hit. */
  lemma DyingUnitIgnoresHits(u: Unit, d1: real, d2: real, now1: int, now2: int)
    requires u.state != Die && u.health - d1 <= 0.0
    ensures TakeDamage(TakeDamage(u, d1, now1), d2, now2) == TakeDamage(u, d1, now1)
    ensures TakeDamage(u, d1, now1).health == 0.0
  {
  }

  datatype RangeCheck = RangeCheck(unit: Unit, inRange: bool)

  /**
   * `in_attack_range`, rate limited to once per 200 ms. Both sides compare
   * their centre x (x + 60); a base is treated the same way because it also
   * has an `x` attribute, so the offsets cancel.
   */
  function InAttackRange(u: Unit, b: Body, now: int): (r: RangeCheck)
    ensures r.inRange <==> now - u.lastRangeCheck >= RangeCheckInterval && Abs(u.x - BodyX(b)) <= Range(u)
    ensures now - u.lastRangeCheck < RangeCheckInterval ==> r.unit == u
    ensures now - u.lastRangeCheck >= RangeCheckInterval ==> r.unit == u.(lastRangeCheck := now)
  {
    if now - u.lastRangeCheck < RangeCheckInterval then RangeCheck(u, false)
    else
      var targetX := BodyX(b) + 60.0;
      var distance := Abs(u.x + 60.0 - targetX);
      RangeCheck(u.(lastRangeCheck := now), distance <= Range(u))
  }

  /** The rate limiter makes a second range check in the same tick fail, whatever it asks about. */
  lemma SecondRangeCheckFails(u: Unit, b1: Body, b2: Body, now: int)
    requires now >= u.lastRangeCheck
    ensures !InAttackRange(InAttackRange(u, b1, now).unit, b2, now).inRange
  {
  }

  function CooldownOver(u: Unit, now: int): bool
  {
    (now - u.lastAttack) as real >= u.attackCooldown
  }

  /** `attack`: a dying unit never starts an attack; otherwise it starts one only when its cooldown is over. */
  function StartAttack(u: Unit, t: Target, now: int): (r: Unit)
    ensures u.state == Die || !CooldownOver(u, now) ==> r == u
    ensures u.state != Die && CooldownOver(u, now) ==>
              r.state == Attack && r.frame == 0 && r.isAttacking && r.target == Some(t) && r.lastAttack == now
    ensures r == u.(state := r.state, frame := r.frame, isAttacking := r.isAttacking,
                    target := r.target, lastAttack := r.lastAttack)
  {
    if u.state == Die then u
    else if CooldownOver(u, now) then
      u.(state := Attack, frame := 0, isAttacking := true, target := Some(t), lastAttack := now)
    else u
  }

  /** A projectile about to be released, with the point it is aimed at (target x + 60, y + 102). */
  datatype Shot = Shot(magic: bool, x: real, y: real, direction: int, target: Target,
                       damage: real, aimX: real, aimY: real)

  /** What a frame step asks the world to do. */
  datatype Effect = NoEffect | Strike(target: Target, damage: real) | Fire(shot: Shot)

  datatype Animated = Animated(unit: Unit, effect: Effect)

  function FrameDelay(u: Unit): real
  {
    if u.state == Attack then u.attackFrameDelay else BaseFrameDelay
  }

  /** Whether enough time has passed since the last frame step. */
  predicate Due(u: Unit, now: int)
  {
    ((now - u.lastUpdate) as real) >= FrameDelay(u)
  }

  function ShotFrom(u: Unit, t: Target, b: Body): Shot
  {
    var offset := match WeaponOf(u.kind)
      case Bow(o) => o
      case Staff(o) => o
      case Melee => 0;
    Shot(WeaponOf(u.kind).Staff?, u.x + offset as real, (LaneY(u.kind) + 105) as real, Dir(u),
         t, u.attackPower, BodyX(b) + 60.0, (BodyY(b) + 102) as real)
  }

  /** The strike condition of the attack branch: frame 7 reached while attacking a live target. */
  predicate StrikesNow(u: Unit, tb: Option<Body>)
  {
    u.frame + 1 == StrikeFrame && u.isAttacking && u.target.Some? && tb.Some? && Alive(tb.value)
  }

  /** The attack branch: advance, strike or release at frame 7, fall back to idle after the last frame. */
  function AdvanceAttack(v: Unit, n: nat, tb: Option<Body>): (r: Animated)
    requires n > 0
    ensures r.effect.Fire? <==> StrikesNow(v, tb) && IsRanged(v.kind)
    ensures r.effect.Strike? <==> StrikesNow(v, tb) && !IsRanged(v.kind)
    ensures r.effect.Strike? ==> r.effect == Strike(v.target.value, v.attackPower)
    ensures r.effect.Fire? ==> r.effect.shot == ShotFrom(v, v.target.value, tb.value)
    ensures v.frame + 1 < n || r.effect.Fire? ==> r.unit == v.(frame := v.frame + 1)
    ensures n <= v.frame + 1 && !r.effect.Fire? ==>
              r.unit == v.(isAttacking := false, target := None, state := Idle, frame := 0)
  {
    var f := v.frame + 1;
    if StrikesNow(v, tb) && IsRanged(v.kind) then
      Animated(v.(frame := f), Fire(ShotFrom(v, v.target.value, tb.value)))
    else
      var effect := if StrikesNow(v, tb) then Strike(v.target.value, v.attackPower) else NoEffect;
      if f > n - 1 then
        Animated(v.(isAttacking := false, target := None, state := Idle, frame := 0), effect)
      else
        Animated(v.(frame := f), effect)
  }

  /**
   * One frame step of a unit whose state has frames, once the delay has
   * passed: attacks advance or end, hurt holds frame 0 for 200 ms, death
   * runs forward to its last frame, and every other state loops.
   */
  function Step(u: Unit, now: int, tb: Option<Body>): (r: Animated)
    requires Frames(u.anim, u.state) > 0
    requires u.state == Hurt && !u.isAttacking ==> u.hurtStart.Some?
    ensures r.unit.lastUpdate == now
    ensures u.state == Die ==>
              r == Animated(u.(lastUpdate := now, frame := MinI(u.frame + 1, Frames(u.anim, Die) - 1)), NoEffect)
    ensures u.state == Attack ==> r == AdvanceAttack(u.(lastUpdate := now), Frames(u.anim, Attack), tb)
    ensures u.state == Hurt && !u.isAttacking ==>
              r.effect == NoEffect && r.unit.frame == 0 &&
              (now - u.hurtStart.value >= HurtDuration ==> r.unit == u.(lastUpdate := now, frame := 0, state := Idle, hurtStart := None)) &&
              (now - u.hurtStart.value < HurtDuration ==> r.unit == u.(lastUpdate := now, frame := 0))
    ensures u.state !in {Attack, Die} && !(u.state == Hurt && !u.isAttacking) ==>
              r == Animated(u.(lastUpdate := now, frame := (u.frame + 1) % Frames(u.anim, u.state)), NoEffect)
    ensures r.effect != NoEffect ==> u.state == Attack && StrikesNow(u, tb)
    ensures r.effect.Strike? ==> !IsRanged(u.kind) && r.effect == Strike(u.target.value, u.attackPower)
    ensures r.effect.Fire? ==>
              (IsRanged(u.kind) && r.effect.shot.damage == u.attackPower &&
               r.effect.shot.target == u.target.value && r.effect.shot.magic == WeaponOf(u.kind).Staff?)
    ensures u.state == Attack && StrikesNow(u, tb) ==> r.effect != NoEffect
    ensures u.state == Attack && (u.frame + 1 < Frames(u.anim, Attack) || r.effect.Fire?) ==>
              r.unit == u.(lastUpdate := now, frame := u.frame + 1)
    ensures u.state == Attack && !r.effect.Fire? && Frames(u.anim, Attack) <= u.frame + 1 ==>
              r.unit.state == Idle && r.unit.frame == 0 && r.unit.target.None? && !r.unit.isAttacking
    ensures r.unit == u.(lastUpdate := r.unit.lastUpdate, state := r.unit.state, frame := r.unit.frame,
                         isAttacking := r.unit.isAttacking, target := r.unit.target,
                         hurtStart := r.unit.hurtStart)
    ensures r.unit.state == u.state || r.unit.state == Idle
    ensures WellFormed(u) ==> WellFormed(r.unit)
  {
    var v := u.(lastUpdate := now);
    var n := Frames(u.anim, u.state);
    match u.state
    case Attack => AdvanceAttack(v, n, tb)
    case Hurt =>
      if !u.isAttacking then
        if now - u.hurtStart.value >= HurtDuration then
          Animated(v.(frame := 0, state := Idle, hurtStart := None), NoEffect)
        else
          Animated(v.(frame := 0), NoEffect)
      else
        Animated(v.(frame := (u.frame + 1) % n), NoEffect)
    case Die => Animated(v.(frame := MinI(u.frame + 1, n - 1)), NoEffect)
    case _ => Animated(v.(frame := (u.frame + 1) % n), NoEffect)
  }

  /**
   * `update_animation` of the base class together with the ranged overrides
   * (which differ only in releasing a projectile at the strike frame).
   * `tb` is what the unit's target handle resolves to now.
   */
  function UpdateAnimation(u: Unit, now: int, tb: Option<Body>): (r: Animated)
    requires u.state == Hurt && !u.isAttacking ==> u.hurtStart.Some?
    // rate limit
    ensures !Due(u, now) ==> r == Animated(u, NoEffect)
    ensures Due(u, now) ==> r.unit.lastUpdate == now
    // dying: frames run forward to the last one and stay there
    ensures u.state == Die && u.frame < Frames(u.anim, Die) ==>
              r.unit.state == Die && u.frame <= r.unit.frame < Frames(u.anim, Die)
    ensures u.state == Die && Due(u, now) && Frames(u.anim, Die) > 0 ==>
              r.unit == u.(lastUpdate := now, frame := MinI(u.frame + 1, Frames(u.anim, Die) - 1))
    // an attack steps one frame forward until its last frame, or when a projectile leaves
    ensures u.state == Attack && Due(u, now) && Frames(u.anim, Attack) > 0
            && (u.frame + 1 < Frames(u.anim, Attack) || r.effect.Fire?) ==>
              r.unit == u.(lastUpdate := now, frame := u.frame + 1)
    // idle and run loop over their frames
    ensures (u.state == Idle || u.state == Run) && Due(u, now) && Frames(u.anim, u.state) > 0 ==>
              r.unit.state == u.state && r.unit.frame == (u.frame + 1) % Frames(u.anim, u.state)
    // hurt lasts 200 ms
    ensures u.state == Hurt && !u.isAttacking && Due(u, now) && Frames(u.anim, Hurt) > 0 ==>
              r.unit.frame == 0 &&
              (r.unit.state == Idle <==> now - u.hurtStart.value >= HurtDuration) &&
              (r.unit.state != Idle ==> r.unit.state == Hurt)
    // only an attack at its strike frame affects anything else
    ensures r.effect != NoEffect ==> u.state == Attack && StrikesNow(u, tb) && Frames(u.anim, Attack) > 0
    ensures r.effect.Strike? ==> !IsRanged(u.kind) && r.effect == Strike(u.target.value, u.attackPower)
    ensures r.effect.Fire? ==>
              (IsRanged(u.kind) && r.effect.shot.damage == u.attackPower &&
               r.effect.shot.target == u.target.value && r.effect.shot.magic == WeaponOf(u.kind).Staff?)
    ensures (u.state == Attack && Due(u, now) && Frames(u.anim, Attack) > 0 && StrikesNow(u, tb)) ==>
              r.effect != NoEffect
    // the end of an attack animation
    ensures (u.state == Attack && Due(u, now) && !r.effect.Fire? && 0 < Frames(u.anim, Attack) <= u.frame + 1) ==>
              r.unit.state == Idle && r.unit.frame == 0 && r.unit.target.None? && !r.unit.isAttacking
    // nothing but the animation fields changes
    ensures r.unit == u.(lastUpdate := r.unit.lastUpdate, state := r.unit.state, frame := r.unit.frame,
                         isAttacking := r.unit.isAttacking, target := r.unit.target,
                         hurtStart := r.unit.hurtStart)
    ensures r.unit.state == u.state || r.unit.state == Idle
    ensures WellFormed(u) ==> WellFormed(r.unit)
  {
    if !Due(u, now) then Animated(u, NoEffect)
    else if Frames(u.anim, u.state) == 0 then Animated(u.(lastUpdate := now, state := Idle, frame := 0), NoEffect)
    else Step(u, now, tb)
  }

  /**
   * With a single placeholder attack frame, an attack that has just started
   * ends on its first step and never reaches the strike frame.
   */
  lemma PlaceholderAttackIsHarmless(u: Unit, now: int, tb: Option<Body>)
    requires u.state == Attack && u.frame == 0 && Frames(u.anim, Attack) == 1
    requires Due(u, now)
    ensures UpdateAnimation(u, now, tb).effect == NoEffect
    ensures UpdateAnimation(u, now, tb).unit.state == Idle
  {
  }

  /** `CartUnit`: the bandits' supply cart rolling left at 1.5 px per tick until it passes its target. */
  datatype Cart = Cart(x: real, targetX: real, speed: real, moving: bool)

  function NewCart(x: real, targetX: real): Cart
  {
    Cart(x, targetX, -1.5, true)
  }

  /**
   * `CartUnit.update`: the cart rolls by its speed while it is moving and
   * right of its target. With the leftward speed every cart has, it never
   * rolls back, and it never ends more than one step past its target.
   */
  function CartUpdate(c: Cart): (r: Cart)
    ensures c.moving && c.x > c.targetX ==> r == c.(x := c.x + c.speed)
    ensures !(c.moving && c.x > c.targetX) ==> r == c
    // only the position ever changes
    ensures r == c.(x := r.x)
    // a cart rolling left never moves right, and stays within one step of its target
    ensures c.speed <= 0.0 ==> r.x <= c.x
    ensures c.speed <= 0.0 && c.x >= c.targetX + c.speed ==> r.x >= c.targetX + c.speed
    // once at or past its target, or stopped, it stays where it is
    ensures c.x <= c.targetX || !c.moving ==> r == c
  {
    if c.moving && c.x > c.targetX then c.(x := c.x + c.speed) else c
  }

  /** A cart built by `NewCart` never moves right and never ends more than one step past its target. */
  lemma CartStopsNearTarget(c: Cart)
    requires c.speed == -1.5 && c.x >= c.targetX - 1.5
    ensures CartUpdate(c).x <= c.x
    ensures CartUpdate(c).x >= c.targetX - 1.5
  {
  }

  /** The cart after `n` ticks of `CartUpdate`. */
  function CartUpdates(c: Cart, n: nat): Cart
    decreases n
  {
    if n == 0 then c else CartUpdates(CartUpdate(c), n - 1)
  }

  /**
   * Over any number of ticks a cart built by `NewCart` keeps its target and
   * speed, never ends right of where it started, never passes its target
   * by more than one step, and each further tick moves it left or not at all.
   */
  lemma {:induction false} CartSettles(c: Cart, n: nat)
    requires c.speed == -1.5 && c.x >= c.targetX - 1.5
    ensures CartUpdates(c, n).speed == c.speed && CartUpdates(c, n).targetX == c.targetX
    ensures c.targetX - 1.5 <= CartUpdates(c, n).x <= c.x
    ensures CartUpdates(c, n + 1).x <= CartUpdates(c, n).x
    decreases n
  {
    CartStopsNearTarget(c);
    var c1 := CartUpdate(c);
    if n == 0 {
      assert CartUpdates(c, 1) == c1;
    } else {
      CartSettles(c1, n - 1);
    }
  }
}

=== FILE: upgrades.dfy ===
/**
 * The persistent upgrade tables the menu keeps and the game reads: per
 * player class, per stat, a price, a per-level increase and the level
 * bought so far (menu.py), and the lookups with defaults that
 * `Game.spawn_unit` makes on them.
 */
module Upgrades {
  import opened Basics

  /** One `{"cost": …, "increase": …, "level": …}` entry. */
  datatype Entry = Entry(cost: int, increase: real, level: int)

  /** Class key ("Peasant", …) to stat name ("Health", …) to entry. */
  type Table = map<string, map<string, Entry>>

  const Health := "Health"
  const Damage := "Damage"
  const AttackSpeed := "Attack Speed"
  const MovementSpeed := "Movement Speed"

  /** The four stats every class can upgrade. */
  const StatNames: set<string> := {Health, Damage, AttackSpeed, MovementSpeed}

  /** The maximum level the menu sells. */
  const MaxLevel: int := 20

  function Stats4(health: real, damage: real, attackSpeed: real, movementSpeed: real): map<string, Entry>
  {
    map[Health := Entry(10, health, 0), Damage := Entry(10, damage, 0),
        AttackSpeed := Entry(10, attackSpeed, 0), MovementSpeed := Entry(10, movementSpeed, 0)]
  }

  /** `default_upgrades`: four classes, four stats each, all at level 0 and price 10. */
  const Defaults: Table := map[
    "Peasant" := Stats4(3.75, 1.5, 0.075, 0.075),
    "Archer" := Stats4(2.25, 1.125, 0.075, 0.105),
    "Warrior" := Stats4(6.0, 1.875, 0.075, 0.08625),
    "Tank" := Stats4(11.25, 0.75, 0.075, 0.0375)
  ]

  /** Every default class offers exactly the four stats. */
  lemma DefaultsUseStatNames(u: string)
    requires u in Defaults
    ensures Defaults[u].Keys == StatNames
  {
    assert Defaults[u] in {Stats4(3.75, 1.5, 0.075, 0.075), Stats4(2.25, 1.125, 0.075, 0.105),
                           Stats4(6.0, 1.875, 0.075, 0.08625), Stats4(11.25, 0.75, 0.075, 0.0375)};
  }

  /**
   * What every table keeps true, in battle as in the shop: levels,
   * increases and prices are never negative, so `1 + level * factor` is
   * at least 1. Nothing here caps the level.
   */
  predicate NonNegative(t: Table)
  {
    forall u, s :: u in t && s in t[u] ==> t[u][s].level >= 0 && t[u][s].increase >= 0.0 && t[u][s].cost >= 0
  }

  /** What the shop adds on top: no level passes its cap of 20. */
  predicate Sane(t: Table)
  {
    && NonNegative(t)
    && forall u, s :: u in t && s in t[u] ==> t[u][s].level <= MaxLevel
  }

  lemma DefaultsAreSane()
    ensures Sane(Defaults)
  {
    forall u | u in Defaults
      ensures forall s :: s in Defaults[u] ==> 0 <= Defaults[u][s].level <= MaxLevel && Defaults[u][s].increase >= 0.0 && Defaults[u][s].cost >= 0
    {
      assert Defaults[u] in {Stats4(3.75, 1.5, 0.075, 0.075), Stats4(2.25, 1.125, 0.075, 0.105),
                             Stats4(6.0, 1.875, 0.075, 0.08625), Stats4(11.25, 0.75, 0.075, 0.0375)};
      Stats4Sane(3.75, 1.5, 0.075, 0.075);
      Stats4Sane(2.25, 1.125, 0.075, 0.105);
      Stats4Sane(6.0, 1.875, 0.075, 0.08625);
      Stats4Sane(11.25, 0.75, 0.075, 0.0375);
    }
  }

  lemma Stats4Sane(health: real, damage: real, attackSpeed: real, movementSpeed: real)
    requires health >= 0.0 && damage >= 0.0 && attackSpeed >= 0.0 && movementSpeed >= 0.0
    ensures forall s :: s in Stats4(health, damage, attackSpeed, movementSpeed) ==>
              var e := Stats4(health, damage, attackSpeed, movementSpeed)[s];
              e.level == 0 && e.increase >= 0.0 && e.cost == 10
  {
  }

  /**
   * The merge of stored tables with the defaults: an empty or missing
   * store is replaced by the defaults; otherwise every stored class and
   * stat is kept as stored, and missing default classes and stats are
   * filled in.
   */
  function MergeDefaults(stored: Option<Table>): (r: Table)
    ensures stored.None? || stored.value == map[] ==> r == Defaults
    ensures stored.Some? ==> forall u, s :: u in stored.value && s in stored.value[u] ==> u in r && s in r[u] && r[u][s] == stored.value[u][s]
    ensures forall u, s :: u in Defaults && s in Defaults[u] ==> u in r && s in r[u]
    ensures forall u :: u in r ==> u in Defaults || (stored.Some? && u in stored.value)
    ensures forall u, s :: u in r && s in r[u] ==>
              (stored.Some? && u in stored.value && s in stored.value[u]) || (u in Defaults && s in Defaults[u] && r[u][s] == Defaults[u][s])
  {
    if stored.None? || stored.value == map[] then Defaults
    else
      var t := stored.value;
      var filled := map u | u in Defaults :: if u in t then Defaults[u] + t[u] else Defaults[u];
      t + filled
  }

  /** The stored entry, if the class and the stat are both present. */
  function EntryOf(t: Table, unitKey: string, stat: string): Option<Entry>
  {
    if unitKey in t && stat in t[unitKey] then Some(t[unitKey][stat]) else None
  }

  /** `upgrades.get(stat, {}).get("level", 0)`. */
  function LevelOf(t: Table, unitKey: string, stat: string): int
  {
    match EntryOf(t, unitKey, stat)
    case Some(e) => e.level
    case None => 0
  }

  /** `upgrades.get(stat, {}).get("increase", fallback)`. */
  function IncreaseOf(t: Table, unitKey: string, stat: string, fallback: real): real
  {
    match EntryOf(t, unitKey, stat)
    case Some(e) => e.increase
    case None => fallback
  }

  /** The total bonus bought for a stat: level times increase, zero when absent. */
  function Bonus(t: Table, unitKey: string, stat: string): (r: real)
    requires NonNegative(t)
    ensures r >= 0.0
    ensures EntryOf(t, unitKey, stat).None? ==> r == 0.0
  {
    var b := LevelOf(t, unitKey, stat) as real * IncreaseOf(t, unitKey, stat, 0.0);
    assert b >= 0.0 by {
      MulNonNeg(LevelOf(t, unitKey, stat) as real, IncreaseOf(t, unitKey, stat, 0.0));
    }
    b
  }

  /** The bonus of a present entry is its level times its increase. */
  lemma BonusOfEntry(t: Table, unitKey: string, stat: string, e: Entry)
    requires NonNegative(t) && EntryOf(t, unitKey, stat) == Some(e)
    ensures Bonus(t, unitKey, stat) == e.level as real * e.increase
  {
  }

  lemma MulNonNeg(a: real, b: real)
    requires a >= 0.0 && b >= 0.0
    ensures a * b >= 0.0
  {
  }

  /** One level bought: the entry's level goes up by one and nothing else in the table changes. */
  function BumpLevel(t: Table, unitKey: string, stat: string): (r: Table)
    requires unitKey in t && stat in t[unitKey]
    ensures r.Keys == t.Keys && r[unitKey].Keys == t[unitKey].Keys
    ensures r[unitKey][stat] == t[unitKey][stat].(level := t[unitKey][stat].level + 1)
    ensures forall u :: u in t && u != unitKey ==> r[u] == t[u]
    ensures forall s :: s in t[unitKey] && s != stat ==> r[unitKey][s] == t[unitKey][s]
  {
    var e := t[unitKey][stat];
    t[unitKey := t[unitKey][stat := e.(level := e.level + 1)]]
  }

  /** Buying a level, with no cap, keeps every level, increase and price non-negative. */
  lemma BumpKeepsNonNegative(t: Table, unitKey: string, stat: string)
    requires NonNegative(t) && unitKey in t && stat in t[unitKey]
    ensures NonNegative(BumpLevel(t, unitKey, stat))
  {
    var r: Table := BumpLevel(t, unitKey, stat);
    forall u: string, s: string | u in r && s in r[u]
      ensures r[u][s].level >= 0 && r[u][s].increase >= 0.0 && r[u][s].cost >= 0
    {
      if u != unitKey {
        assert r[u] == t[u];
      } else if s != stat {
        assert r[u][s] == t[u][s];
      }
    }
  }

  /** Buying below the cap keeps the table sane. */
  lemma BumpKeepsSane(t: Table, unitKey: string, stat: string)
    requires Sane(t) && unitKey in t && stat in t[unitKey] && t[unitKey][stat].level < MaxLevel
    ensures Sane(BumpLevel(t, unitKey, stat))
  {
    BumpKeepsNonNegative(t, unitKey, stat);
    var r: Table := BumpLevel(t, unitKey, stat);
    forall u: string, s: string | u in r && s in r[u]
      ensures r[u][s].level <= MaxLevel
    {
      if u != unitKey {
        assert r[u] == t[u];
      } else if s != stat {
        assert r[u][s] == t[u][s];
      }
    }
  }
}
